=== FILE: README.md ===
# Regular scheduling constraints in Dafny

This project models the automaton layer of `regular_scheduling`, a compiler
of regular constraints for staff scheduling. A schedule row is a word: one
symbol per period ("E", "N", "O", ...). Rules on rows are deterministic
finite automata, and the compiler turns an automaton into the flow network
of a mixed-integer program. The model has three parts:

- **Automata and their operations** (`operations.py`):
  - the partial run `__run`;
  - the canonical renumbering `_rename`;
  - the side-hypothesis, periodic-mask, periodic-composition and
    sliding-window operations;
  - the time expansion `unfold`, which merges equivalent states layer by
    layer;
  - the `ones_dfa` constant.
- **Rule builders** (`standard_rules.py`):
  - the normalisation of symbol groups;
  - the `cardinality`, `stretch` and `pattern` rules.
- **The flow-network compiler** (`mip_regular.py`):
  - the arc layers of `add_regular_constraint`;
  - the flow bounds, supply, conservation and linking equations, as data;
  - the greedy `post_processing` decoder;
  - the registry behind `get_regular_solution`.

An automaton is the immutable value `Automata.Dfa<S>`: an alphabet, a set of
states, an initial state, a partial transition map and an accepting set.
The worklist constructions (mask, periodic, windows) and the rule builders
are written the same way. Each is a step function on structured states. A
worklist (`Worklist.Explore`) explores the states reachable from the initial
state, the explored states are tabulated (`Automata.Tabulate`), and the
result is renumbered (`Renaming.Canonical`). Every operation's main
contract gives its language: which words the returned automaton accepts.
That language is stated against an independent definition (counts, run
lengths, phase blocks, windows, masked sub-words).

Modules, one per file:

- `wrappers.dfy`: Option and Result.
- `automata.dfy`: automata, runs and tabulation.
- `worklist.dfy`: set enumeration and the `OPEN` worklist.
- `renaming.dfy`: `_rename`.
- `unfolding.dfy`: `unfold`.
- `construction.dfy`: the explore, tabulate and rename pipeline.
- `side.dfy`, `mask.dfy`, `periodic.dfy`, `windows.dfy`: the four operations.
- `groups.dfy`: group normalisation.
- `bounds.dfy`: finite or infinite upper bounds and saturation.
- `cardinality.dfy`, `stretch.dfy`, `pattern.dfy`: the rule builders.
- `flow.dfy`: arc layers and the equations.
- `decoding.dfy`: the decoder.
- `registry.dfy`: the decoder registry.

## Model

| member | source | states |
|---|---|---|
| Automata.RunFailsAtFirstGap | regular_scheduling/operations.py:238-245 | `__run` gives None exactly when some prefix is runnable and the state it reaches has no transition on the next symbol. Otherwise it gives the state after the whole word, which is the start state for the empty word. |
| Automata.RunAppend | regular_scheduling/operations.py:238-245 | Running `u + v` runs `u` and then continues with `v` from where it stopped. |
| Automata.OnesDfaLanguage | regular_scheduling/operations.py:276-281 | `ones_dfa` accepts a word iff every symbol of it is "1". |
| Worklist.Explore | regular_scheduling/operations.py:151-166 | The `OPEN` loop terminates. The explored set contains the initial state, is closed under the step function, and holds only states reachable by some word. |
| Worklist.SetToSeq | regular_scheduling/operations.py:253-264 | Iterating a set lists each of its elements exactly once. Every iteration order is allowed. |
| Renaming.NumberingInjective | regular_scheduling/operations.py:249-267 | No two states of the renamed automaton get the same number. |
| Renaming.NumberingOnto | regular_scheduling/operations.py:249-270 | The numbers used are exactly 1..\|Q\|. |
| Renaming.RenameAccepting | regular_scheduling/operations.py:260-273 | Accepting states other than the initial one get the highest numbers. The initial state (1) accepts iff it accepted before. |
| Renaming.ImageAccepts | regular_scheduling/operations.py:268-274 | An automaton and its renaming accept the same words. |
| Renaming.Canonical | regular_scheduling/operations.py:248-274 | `_rename` is valid and sends the initial state to 1. Its states are 1..\|Q\|, its accepting non-initial states are the top numbers, and it accepts exactly the words of its input, under any iteration order. |
| SideHypothesis.Side | regular_scheduling/operations.py:39-48 | `side(d, left, right)` accepts `w` iff `d` accepts `left + w + right`, and it is valid. It keeps the alphabet, states and transitions, and there is no result (an automaton without an initial state, which accepts nothing) exactly when `left` cannot be run. |
| SideHypothesis.SideLanguage | regular_scheduling/operations.py:39-48 | Started at the state `left` leads to, and accepting the states from which `right` leads to acceptance, `d` accepts `w` iff it accepts `left + w + right` from its own initial state. |
| PeriodicMask.MaskRun | regular_scheduling/operations.py:155-166 | A run on (state, phase) pairs exists iff the word is over the alphabet and `d` can run its sub-word at "1" phases. The first component is then `d`'s state after that sub-word, and the phase stays in [0, \|mask\|). |
| PeriodicMask.Mask | regular_scheduling/operations.py:147-167 | With a non-empty mask, `mask` accepts a word iff it is over the alphabet and `d` accepts its sub-word at "1" phases. An empty mask is an error exactly when the alphabet is non-empty. |
| PeriodicComposition.PeriodicRun | regular_scheduling/operations.py:119-142 | A run of the composed step is the independent reference run. Inside a block only the block automaton moves. At a block's last position the binary automaton reads "1" iff the block is accepted, and the block restarts. An undefined binary transition blocks. |
| PeriodicComposition.BitsUnfolded | regular_scheduling/operations.py:110-128 | A bit read at the end of a block is "1" iff the block is accepted by `unfold(d, period)`, or equivalently by `d` itself. |
| PeriodicComposition.Periodic | regular_scheduling/operations.py:105-144 | `periodic` accepts a word iff it is over the alphabet and the binary automaton accepts the word's string of block bits. |
| PeriodicComposition.PeriodicOr | regular_scheduling/operations.py:105-109 | With a given binary automaton, `periodic` accepts a word iff it is over the alphabet and the binary automaton accepts its block bits. Without one, it accepts a word iff it is over the alphabet and every completed block is accepted. |
| Unfolding.FinalNonEmpty | regular_scheduling/operations.py:189-191 | Some accepting state is reached after exactly n steps iff some word of length n over the step alphabets is accepted. |
| Unfolding.ClassIffSameFuture | regular_scheduling/operations.py:200-217 | Two live states of a layer are merged iff they have the same set of accepted futures. |
| Unfolding.ExpandedLayered | regular_scheduling/operations.py:200-225 | The time-expanded automaton is layered. Every transition goes from layer i to i + 1 on a symbol of `sequence[i]`, no interior state is a dead end, and every horizon state accepts. |
| Unfolding.ExpandedLanguage | regular_scheduling/operations.py:180-225 | The expanded automaton accepts `w` iff `w` has one symbol of `sequence[i]` at each step and `d` accepts it. |
| Unfolding.Unfold | regular_scheduling/operations.py:169-226 | `unfold` accepts exactly the length-n words that follow the step alphabets (the full alphabet for an int horizon) and are accepted by `d`. It is layered over a non-empty horizon. It is the one-state, nothing-accepting automaton iff no such word exists. |
| Windows.GroupSymbols | regular_scheduling/operations.py:56-61 | Every symbol gets a representative with the same transition column. Symbols with equal columns share a representative. |
| Windows.GroupedSymbolsAgree | regular_scheduling/operations.py:93-97 | Two symbols with the same transition column have the same worklist transition. |
| Windows.AbsorbingState | regular_scheduling/operations.py:72-79 | With an infinite upper bound, the state at the lower bound loops on every symbol. |
| Windows.ShrinkLongest | regular_scheduling/operations.py:82-84 | The `while __run(v) is None` loop keeps the longest runnable suffix. |
| Windows.TracksWindow | regular_scheduling/operations.py:85-91 | The count grows on symbol `s` iff the window of `period` symbols ending at `s` is accepted. |
| Windows.CountUnfolded | regular_scheduling/operations.py:54-54 | Counting accepted windows with `unfold(d, period)` gives the same count as with `d`. |
| Windows.WindowsRun | regular_scheduling/operations.py:65-99 | After any word, the worklist state either records the true window count and the relevant recent symbols, or it is the absorbing state once the lower bound is reached. The count never exceeds a finite upper bound. |
| Windows.Windows | regular_scheduling/operations.py:51-102 | `windows` accepts `x` iff `x` is over the alphabet and the number of accepted windows is at least the lower bound and, for non-empty `x`, within the upper bound. For a period of 1 this is the corrected behaviour of the Findings row, not the source's. |
| Windows.AsWrittenFromPeriodTwo | regular_scheduling/operations.py:82-82 | For periods of at least 2, the source's slice `(w + (s,))[1 - period:]` equals the corrected slice. |
| RuleGroups.NormalisedAlphabet | regular_scheduling/standard_rules.py:20-20 | The alphabet of a rule is the union of its symbol groups, where a string argument stands for itself as one symbol (not for its characters) and a tuple argument for its members. |
| Bounds.SaturatedWithin | regular_scheduling/standard_rules.py:15-19 | Saturating at `maxi` (the finite upper bound, else the lower bound) loses nothing: a count within the upper bound reaches the lower bound iff its saturated value lies in [lower, maxi], the accepting range. |
| Bounds.SaturatedStep | regular_scheduling/standard_rules.py:15-18 | The saturated counter may grow iff the true count stays within the upper bound after one more symbol, and growing it by `int(m < maxi)` gives the saturated value of that count. |
| Cardinality.CounterStepSpec | regular_scheduling/standard_rules.py:17-18 | A symbol of group i has a transition iff counter i is below a finite upper bound, or always for an infinite one. It raises counter i by one unless saturated and leaves the others alone. A symbol of no group has no transition. |
| Cardinality.SaturatedAccepts | regular_scheduling/standard_rules.py:19-19 | The saturated counter tuple is accepting iff every group count reached its lower bound. |
| Cardinality.TableLanguageCounts | regular_scheduling/standard_rules.py:15-24 | The counter automaton accepts a word iff every symbol belongs to a group and each group's count lies between its bounds (disjoint groups). |
| Cardinality.Cardinality | regular_scheduling/standard_rules.py:6-26 | `cardinality` fails (`IndexError`) exactly when a given bound list is shorter than the symbol arguments. Otherwise it has the union of the groups as its alphabet, defaults are 0 and infinity, and for disjoint groups it accepts exactly the words whose group counts lie within the bounds. |
| Stretch.StatesMembers | regular_scheduling/standard_rules.py:44-45 | The states are the neutral state and (k, m) with 1 <= m <= maxi_k for tracked k. The accepting states are the neutral state and (k, m) with lower_k <= m <= maxi_k. |
| Stretch.StretchExtends | regular_scheduling/standard_rules.py:46-48 | A symbol of the current run's group extends the run, saturating, and is allowed only while the run is below the group's upper bound. |
| Stretch.StretchSwitches | regular_scheduling/standard_rules.py:46-48 | A symbol of another tracked group starts a run of 1, and only from an accepting state. |
| Stretch.StretchNeutral | regular_scheduling/standard_rules.py:49-50 | A symbol of an untracked group leads to the neutral state, from the neutral state and from every accepting state. A symbol of no group has no transition. |
| Stretch.StretchRun | regular_scheduling/standard_rules.py:46-50 | The run on a word exists iff every run of a tracked group stays within its upper bound and every run closed by another group reached its lower bound. It then ends in the state the word's last run determines. |
| Stretch.TableLanguageRuns | regular_scheduling/standard_rules.py:44-55 | The stretch automaton accepts a word iff all its runs of tracked groups lie within their bounds, including the final run (disjoint groups). |
| Stretch.Stretch | regular_scheduling/standard_rules.py:28-56 | `stretch` visits one group per lower bound and fails (`IndexError`) exactly when the upper bounds or the symbol arguments are fewer than that. Otherwise it has the union of all groups as its alphabet, defaults to (1, infinity), accepts the empty word, and for disjoint visited groups accepts exactly the words over the visited groups whose tracked runs lie within the bounds. |
| Pattern.StatesMembers | regular_scheduling/standard_rules.py:67-68 | The states are the start state and (i, m) with 1 <= m <= maxi_i. The accepting states are (last, m) with lower_last <= m <= maxi_last. |
| Pattern.PatternStep | regular_scheduling/standard_rules.py:69-70 | From the start only phase-0 symbols move, to (0, 1). Staying extends the run, saturating, while it is below the upper bound. Advancing needs run >= lower_i and a symbol of the next phase and resets to 1. Staying wins when both apply. |
| Pattern.PhaseLanguage | regular_scheduling/standard_rules.py:66-75 | From phase i with run l, the automaton accepts `w` iff `w` completes phase i and then runs through every later phase within its bounds. |
| Pattern.StartLanguage | regular_scheduling/standard_rules.py:69-75 | From the start state a word is accepted iff it splits into non-empty blocks, one per phase in order, each over its phase's symbols with a length within the bounds. |
| Pattern.EmptyRejected | regular_scheduling/standard_rules.py:68-75 | The empty word is never accepted. |
| Pattern.Pattern | regular_scheduling/standard_rules.py:58-76 | `pattern` has one phase per upper bound. It fails (`IndexError`) exactly when there is no phase or the lower bounds or groups of `sequence` are fewer than the phases. Otherwise it takes its alphabet from `symbols`, not from `sequence`, and rejects the empty word; when adjacent phases share no symbol, it accepts exactly the phase-block words over the first groups of `sequence`. |
| FlowNetwork.ArcsAreReachableTransitions | regular_scheduling/mip_regular.py:26-33 | An arc (q1, s, q2) is in layer t iff q1 is reached by some word following the first t step alphabets, `s` is allowed at t, and the unfolded automaton maps (q1, s) to q2. |
| FlowNetwork.IndexesAgree | regular_scheduling/mip_regular.py:28-32 | `delta_plus`, `delta_minus` and `sigma` index the same arc set by source, by target and by symbol. |
| FlowNetwork.NextLevel | regular_scheduling/mip_regular.py:33-33 | The next level is exactly the set of targets of this layer's arcs. |
| FlowNetwork.Earliest | regular_scheduling/mip_regular.py:35-35 | `start` is the smallest time among the decision variables' keys. |
| FlowNetwork.AddRegularConstraint | regular_scheduling/mip_regular.py:15-42 | The compiler fails exactly when there are no decision variables, the horizon is empty, or two times lie a horizon or more apart. On success: the arc layers are the reachable transitions; the supply is `number` out of the initial state; there is one balance per node of the inner layers; there is one link per decision variable at relative time `t - start`; and the unfolded automaton accepts exactly the words of `d` that follow the step alphabets. |
| Decoding.SupplyMembers | regular_scheduling/mip_regular.py:40-40 | An arc is in the supply equation iff it is a layer-0 arc out of the initial state. |
| Decoding.BalanceMembers | regular_scheduling/mip_regular.py:41-41 | An arc appears in a balance equation's outflow iff it leaves that node at that step, and in its inflow iff it enters that node at that step. |
| Decoding.ArcAvailable | regular_scheduling/mip_regular.py:52-52 | Under residual conservation, the current state always has an outgoing arc with flow left, so the `next(...)` search never fails. |
| Decoding.TakeArc | regular_scheduling/mip_regular.py:52-54 | Taking one unit off the chosen arc keeps residual conservation, with the excess moving to the arc's target. |
| Decoding.WalkAccepted | regular_scheduling/mip_regular.py:50-54 | A row walked along arcs from the initial state to the horizon follows the step alphabets and is accepted by the unfolded automaton. |
| Decoding.DecodeRow | regular_scheduling/mip_regular.py:49-54 | A decoded row follows the step alphabets and is accepted. Under residual conservation with supply at least 1, decoding succeeds and leaves residual conservation with one unit less. |
| Decoding.Decode | regular_scheduling/mip_regular.py:44-55 | `post_processing` returns None iff there is no solution. Otherwise it returns `number` rows, each an accepted word following the step alphabets, and it always succeeds on a solution that satisfies the bounds and equations. |
| Registry.Register | regular_scheduling/mip_regular.py:57-59 | The decoder is stored under `ctname` when it is a non-empty name, and always under the printed constraints. Every other key is unchanged. |
| Registry.RegisterThenLookup | regular_scheduling/mip_regular.py:57-69 | After registering, both the printed constraints and the name find the network. Every other key finds what it found before. |
| Registry.GetRegularSolution | regular_scheduling/mip_regular.py:67-69 | `get_regular_solution` fails on an unknown key. Otherwise it runs that constraint's decoder: None without a solution, `number` accepted rows otherwise, and success on any feasible flow. |

## Left out

- `minimize`, `intersection`, `union` and `complementation` are thin wrappers over an automata library whose code is not part of this model. The compiler takes the already-intersected automaton as its input.
- `knapsack`, `__knapsack` and `__universal` rely on floating-point partial sums with rounding, and on the wrapped intersection and complementation.
- The solver plumbing of the `Model` subclass (variable creation, `add_constraint(s)`, `solution.get_value`) is not modelled. The equations are data (`FlowNetwork.Constraint`), and a solution is a map from arcs to integers passed to the decoder. The `round(...)` of floating-point solution values is not modelled: the values are integers already.
- `add_regular_constraint_` passes the model object twice and cannot run. It is left out.
- The rendering `str(flow_constraints)` is a caller-supplied string in `Registry.Register`.
- JSON instance loading (`data/parsing.py`) and the drawing helpers (`tools.py`) are I/O.
- The concrete state numbers chosen by set iteration order are not modelled. Every order is allowed (`Worklist.SetToSeq`, `Worklist.Explore`), and the contracts speak of languages and structure.
- The trivial automaton's accepting states are written `{}` (a dict) in the source. They are the empty set here.
- Windows.Windows: requires a lower bound of at least 0 when the upper bound is infinite. Below 0 the count never equals the lower bound (operations.py:72), so the absorbing state is never entered, although every state accepts, and nothing caps the count: when the count can grow past every value, the source's worklist never ends. When no window of `period` symbols is accepted (for example over an empty alphabet), `unfold` gives the automaton without transitions, every step returns to the initial state, and the source ends after one state and accepts every word over the alphabet; the model does not cover that terminating case. It also requires a period of at least 1, because windows of fewer than one symbol are not modelled.
- PeriodicComposition.Periodic: requires a period of at least 1. With a period of 0 or less and a non-empty alphabet the position counter grows without bound and the worklist never ends. Over an empty alphabet the source ends after one state; the model does not cover that case.
- PeriodicComposition.PeriodicOr: a binary automaton that is given but empty (falsy) is not distinguished from a missing one. `Option` covers only the missing case.
- PeriodicMask.Mask: an empty mask is the error `EmptyMask` where the source raises `IndexError` on the first symbol tried.
- Cardinality.Cardinality: requires distinct groups, because the source keys its bounds by group and merges duplicates. It also requires no negative lower bound and no negative finite upper bound: with those, accepting tuples fall outside the state set or the state set is empty, and the renumbering collides. The language is stated for disjoint groups only, where "the group of a symbol" is unique.
- Stretch.Stretch: requires that no tracked group is listed twice, because the source keys the bounds of tracked groups by group and merges duplicates; untracked groups may repeat. It also requires lower bounds of at least 1 for tracked groups. With a lower bound of 0 the accepting state (k, 0) is not a state and the source's renumbering collides. The language is stated for disjoint groups only.
- Pattern.Pattern: when the bounds can be read, requires every saturation point to be at least 1 and the last lower bound to be at least 1. A phase whose `maxi` is 0 or less has no states, yet the entry advancing into it (standard_rules.py:69, from the start state for phase 0) targets `(i, 1)`, and the renumbering then raises `KeyError` (operations.py:272); the model does not return that error. With a last lower bound of 0 or less, accepting states such as `(last, 0)` are not states and the renumbering collides. Under these requirements, too few groups in `sequence` always raise; without them the source may finish on some such inputs. The language is stated for sequences whose adjacent phases share no symbol, where the split into phases is unique.
- Decoding.Decode: requires a network built by the compiler (`FlowNetwork.WellFormed`) and a solution that values every flow variable. A solver solution always does.
- FlowNetwork.AddRegularConstraint: the source raises on its three failure cases. Those are `min()` of an empty key set, `delta_plus[0]` over an empty horizon, and `sigma[t - start]` past the horizon. They are the `CompileError` values here.
- FlowNetwork.AddRegularConstraint: the flow bounds [0, `number`] are part of the feasibility predicate `Decoding.FlowFeasible` rather than separate equations.

## Findings

| source | as written | input that shows it | evidently intended | confidence | as-written member | corrected member |
|---|---|---|---|---|---|---|
| regular_scheduling/operations.py:82 | For a period of 1 the slice `(w + (s,))[1 - period:]` is `[0:]`, the whole tuple. `w` then keeps the runnable part of the symbols read, trimmed from the front, instead of nothing; while it is non-empty its length is above `period - 1` and no window is counted. So a window is counted only when it is the first of a run of consecutive accepted windows. | The automaton accepting every word over {"a"}, period 1, lower bound 2, infinite upper bound, word "a a". Two windows are accepted, but the count stays at 1 and the word is rejected. | Remember only the last `period - 1` symbols (none for a period of 1), so that every accepted window counts. | not executed | Windows.PeriodOneCounterexample | Windows.Windows |

=== FILE: automata.dfy ===
/** Deterministic finite automata as immutable values, the partial run
    function `__run` every construction is built on, and the two ways the
    constructions define an automaton: a transition map, or a step function
    tabulated over an explored set of states. */
module Automata {
  import opened Wrappers

  /** Symbols are the per-period choices of a schedule ("E", "N", "O", ...). */
  type Sym = string
  type Word = seq<Sym>

  /** A DFA with a partial transition map: a missing (state, symbol) key means
      the word is rejected on that symbol. */
  datatype Dfa<S> = Dfa(
    alphabet: set<Sym>,
    states: set<S>,
    initial: S,
    delta: map<(S, Sym), S>,
    accepting: set<S>)

  /** The structural invariant of the data model: the initial state, the
      accepting states and both ends of every transition are states. */
  predicate Valid<S>(d: Dfa<S>) {
    && d.initial in d.states
    && d.accepting <= d.states
    && (forall k | k in d.delta :: k.0 in d.states && d.delta[k] in d.states)
  }

  /** `dfa["transitions"].get((q, s))`. */
  function Next<S(==)>(d: Dfa<S>, q: S, s: Sym): Option<S> {
    if (q, s) in d.delta then Some(d.delta[(q, s)]) else None
  }

  /** `__run(word, dfa, q)`: follow `w` from `q`, stopping with None at the
      first missing transition. */
  function Run<S(==)>(d: Dfa<S>, w: Word, q: S): Option<S>
    decreases |w|
  {
    if w == [] then Some(q)
    else match Next(d, q, w[0])
      case None => None
      case Some(p) => Run(d, w[1..], p)
  }

  /** Running `w` from `q` ends in an accepting state. */
  predicate AcceptsFrom<S(==)>(d: Dfa<S>, w: Word, q: S) {
    var r := Run(d, w, q);
    r.Some? && r.value in d.accepting
  }

  /** The language of `d`. */
  predicate Accepts<S(==)>(d: Dfa<S>, w: Word) {
    AcceptsFrom(d, w, d.initial)
  }

  /** The integers `lo..hi`, both ends included. */
  function Interval(lo: int, hi: int): (r: set<int>)
    ensures forall i :: i in r <==> lo <= i <= hi
    ensures |r| == if lo <= hi then hi - lo + 1 else 0
    decreases hi - lo
  {
    if lo > hi then {} else {lo} + Interval(lo + 1, hi)
  }

  /** Every symbol of `w` belongs to `a`. */
  predicate AllIn(w: Word, a: set<Sym>) {
    forall i | 0 <= i < |w| :: w[i] in a
  }

  /** A word with one more symbol is over `a` when both parts are. */
  lemma AllInSnoc(w: Word, s: Sym, a: set<Sym>)
    ensures AllIn(w + [s], a) <==> AllIn(w, a) && s in a
  {
    if AllIn(w + [s], a) {
      assert (w + [s])[|w|] == s;
      forall i | 0 <= i < |w| ensures w[i] in a { assert (w + [s])[i] == w[i]; }
    }
  }

  /** A non-empty word is over `a` when its first symbol and the rest are. */
  lemma AllInCons(w: Word, a: set<Sym>)
    requires w != []
    ensures AllIn(w, a) <==> w[0] in a && AllIn(w[1..], a)
  {
    if w[0] in a && AllIn(w[1..], a) {
      forall i | 0 <= i < |w| ensures w[i] in a {
        if i > 0 { assert w[i] == w[1..][i - 1]; }
      }
    }
  }

  /** `__init_dfa(alphabet, initial)`: the empty automaton the worklist
      constructions start from. */
  function InitDfa<S>(alphabet: set<Sym>, initial: S): Dfa<S> {
    Dfa(alphabet, {}, initial, map[], {})
  }

  /** `ones_dfa`: the default secondary automaton of `periodic`, accepting
      exactly the words made of "1"s. */
  const OnesDfa: Dfa<int> := Dfa({"0", "1"}, {0}, 0, map[(0, "1") := 0], {0})

  /** Running a concatenation runs the first part and continues from where it
      stopped. */
  lemma {:induction false} RunAppend<S>(d: Dfa<S>, u: Word, v: Word, q: S)
    ensures Run(d, u + v, q) == (match Run(d, u, q) case None => None case Some(p) => Run(d, v, p))
    decreases |u|
  {
    if u == [] {
      assert u + v == v;
    } else {
      assert (u + v)[0] == u[0];
      assert (u + v)[1..] == u[1..] + v;
      match Next(d, q, u[0]) {
        case None =>
        case Some(p) => RunAppend(d, u[1..], v, p);
      }
    }
  }

  /** A run of one symbol is one transition. */
  lemma RunSingle<S>(d: Dfa<S>, s: Sym, q: S)
    ensures Run(d, [s], q) == Next(d, q, s)
  {
    assert [s][1..] == [];
  }

  /** One more symbol: the run of `w + [s]` is one transition after the run of `w`. */
  lemma RunSnoc<S>(d: Dfa<S>, w: Word, s: Sym, q: S)
    ensures Run(d, w + [s], q) == (match Run(d, w, q) case None => None case Some(p) => Next(d, p, s))
  {
    RunAppend(d, w, [s], q);
    match Run(d, w, q) {
      case None =>
      case Some(p) =>
        assert [s][1..] == [];
    }
  }

  /** `__run` returns None exactly when, at some position, the state reached so
      far has no transition on the next symbol; otherwise it returns the state
      reached after the whole word (the start state for the empty word). */
  lemma {:induction false} RunFailsAtFirstGap<S>(d: Dfa<S>, w: Word, q: S)
    ensures Run(d, w, q).None? <==>
      exists i :: 0 <= i < |w| && Run(d, w[..i], q).Some? && Next(d, Run(d, w[..i], q).value, w[i]).None?
    decreases |w|
  {
    if w != [] {
      assert w[..0] == [];
      match Next(d, q, w[0]) {
        case None =>
        case Some(p) =>
          RunFailsAtFirstGap(d, w[1..], p);
          if Run(d, w, q).None? {
            var j :| 0 <= j < |w[1..]| && Run(d, w[1..][..j], p).Some? && Next(d, Run(d, w[1..][..j], p).value, w[1..][j]).None?;
            assert w[..j + 1] == [w[0]] + w[1..][..j];
            RunAppend(d, [w[0]], w[1..][..j], q);
            assert Run(d, [w[0]], q) == Some(p) by { assert [w[0]][1..] == []; }
          } else {
            forall i | 0 <= i < |w| && Run(d, w[..i], q).Some?
              ensures Next(d, Run(d, w[..i], q).value, w[i]).Some?
            {
              if i > 0 {
                assert w[..i] == [w[0]] + w[1..][..i - 1];
                RunAppend(d, [w[0]], w[1..][..i - 1], q);
                assert Run(d, [w[0]], q) == Some(p) by { assert [w[0]][1..] == []; }
              }
            }
          }
      }
    }
  }

  /** A run depends on the transitions only. */
  lemma {:induction false} RunSameDelta<S>(d: Dfa<S>, e: Dfa<S>, w: Word, q: S)
    requires d.delta == e.delta
    ensures Run(d, w, q) == Run(e, w, q)
    decreases |w|
  {
    if w != [] {
      assert Next(d, q, w[0]) == Next(e, q, w[0]);
      match Next(d, q, w[0]) {
        case None =>
        case Some(p) => RunSameDelta(d, e, w[1..], p);
      }
    }
  }

  /** A valid automaton never leaves its state set. */
  lemma {:induction false} RunStaysInStates<S>(d: Dfa<S>, w: Word, q: S)
    requires Valid(d) && q in d.states
    ensures Run(d, w, q).Some? ==> Run(d, w, q).value in d.states
    decreases |w|
  {
    if w != [] {
      match Next(d, q, w[0]) {
        case None =>
        case Some(p) => RunStaysInStates(d, w[1..], p);
      }
    }
  }

  /** Every symbol of `w` is "1". */
  predicate AllOnes(w: Word) {
    forall i | 0 <= i < |w| :: w[i] == "1"
  }

  /** `ones_dfa` accepts exactly the words whose every symbol is "1". */
  lemma {:induction false} OnesDfaLanguage(w: Word)
    ensures Accepts(OnesDfa, w) <==> AllOnes(w)
    decreases |w|
  {
    if w != [] {
      OnesDfaLanguage(w[1..]);
      if w[0] == "1" {
        assert Next(OnesDfa, 0, w[0]) == Some(0);
        if AllOnes(w[1..]) {
          forall i | 0 <= i < |w| ensures w[i] == "1" {
            if i > 0 { assert w[i] == w[1..][i - 1]; }
          }
        }
        if AllOnes(w) {
          forall i | 0 <= i < |w[1..]| ensures w[1..][i] == "1" {
            assert w[1..][i] == w[i + 1];
          }
        }
      } else {
        assert Next(OnesDfa, 0, w[0]) == None;
      }
    }
  }

  // ---------------------------------------------------------------------
  // Automata given by a step function

  /** The run of a step function; the worklist constructions and the rule
      builders define their automata this way before tabulating them. */
  function RunStep<S>(step: (S, Sym) -> Option<S>, w: Word, q: S): Option<S>
    decreases |w|
  {
    if w == [] then Some(q)
    else match step(q, w[0])
      case None => None
      case Some(p) => RunStep(step, w[1..], p)
  }

  lemma {:induction false} RunStepAppend<S>(step: (S, Sym) -> Option<S>, u: Word, v: Word, q: S)
    ensures RunStep(step, u + v, q) == (match RunStep(step, u, q) case None => None case Some(p) => RunStep(step, v, p))
    decreases |u|
  {
    if u == [] {
      assert u + v == v;
    } else {
      assert (u + v)[0] == u[0];
      assert (u + v)[1..] == u[1..] + v;
      match step(q, u[0]) {
        case None =>
        case Some(p) => RunStepAppend(step, u[1..], v, p);
      }
    }
  }

  lemma RunStepSnoc<S>(step: (S, Sym) -> Option<S>, w: Word, s: Sym, q: S)
    ensures RunStep(step, w + [s], q) == (match RunStep(step, w, q) case None => None case Some(p) => step(p, s))
  {
    RunStepAppend(step, w, [s], q);
    match RunStep(step, w, q) {
      case None =>
      case Some(p) =>
        assert [s][1..] == [];
    }
  }

  /** `R` is closed under `step`, which only moves on symbols of `a`. */
  ghost predicate Closed<S>(r: set<S>, a: set<Sym>, step: (S, Sym) -> Option<S>) {
    forall q, s | q in r && step(q, s).Some? :: s in a && step(q, s).value in r
  }

  /** The transition map a worklist construction records: one entry for each
      explored state and each symbol on which the step is defined. */
  function Tabulate<S(==)>(r: set<S>, a: set<Sym>, step: (S, Sym) -> Option<S>): map<(S, Sym), S> {
    map q, s | q in r && s in a && step(q, s).Some? :: (q, s) := step(q, s).value
  }

  /** A tabulated automaton runs exactly like its step function from any
      explored state, provided the explored set is closed. */
  lemma {:induction false} TabulateRun<S>(d: Dfa<S>, r: set<S>, a: set<Sym>, step: (S, Sym) -> Option<S>, w: Word, q: S)
    requires d.delta == Tabulate(r, a, step)
    requires Closed(r, a, step) && q in r
    ensures Run(d, w, q) == RunStep(step, w, q)
    decreases |w|
  {
    if w != [] {
      assert Next(d, q, w[0]) == step(q, w[0]);
      match step(q, w[0]) {
        case None =>
        case Some(p) => TabulateRun(d, r, a, step, w[1..], p);
      }
    }
  }

  // ---------------------------------------------------------------------
  // Time-expanded automata

  /** `u` is time-expanded over the per-step alphabets `alphabets`: `layer`
      gives every state a time index, the initial state is at time 0, every
      transition goes from time t to time t + 1 on a symbol of
      `alphabets[t]`, no interior state is a dead end, and every state at the
      horizon is accepting. */
  ghost predicate Layered<S>(u: Dfa<S>, alphabets: seq<set<Sym>>, layer: map<S, nat>) {
    && Valid(u)
    && u.states <= layer.Keys
    && layer[u.initial] == 0
    && (forall q | q in u.states :: layer[q] <= |alphabets|)
    && (forall k | k in u.delta ::
          layer[k.0] < |alphabets| && k.1 in alphabets[layer[k.0]] && layer[u.delta[k]] == layer[k.0] + 1)
    && (forall q | q in u.states && 0 < layer[q] < |alphabets| :: exists s :: (q, s) in u.delta)
    && (forall q | q in u.states && layer[q] == |alphabets| :: q in u.accepting)
  }
}

=== FILE: bounds.dfy ===
/** Upper bounds that are either a number or `float("inf")`, and the
    saturation value `maxi` the rule builders derive from a pair of bounds. */
module Bounds {

  /** An upper bound: a number or `float("inf")`. */
  datatype Bound = Finite(limit: int) | Infinite
  {
    /** `m <= upper_bound`. */
    predicate Admits(m: int) {
      Infinite? || m <= limit
    }

    /** `m < upper_bound`. */
    predicate Exceeds(m: int) {
      Infinite? || m < limit
    }
  }

  /** `maxi`: a counter saturates at a finite upper bound, and at the lower
      bound when there is none, since beyond it nothing distinguishes two
      counts. The saturation point is itself an admitted count, and it
      reaches the lower bound exactly when the lower bound is admitted,
      that is when some count satisfies both bounds. */
  function Saturation(lower: int, upper: Bound): (m: int)
    ensures upper.Admits(m)
    ensures lower <= m <==> upper.Admits(lower)
  {
    match upper
    case Finite(limit) => limit
    case Infinite => lower
  }

  /** Below the saturation value the saturated counter is the count itself,
      and the bounds judge both alike: a count `c` within the upper bound lies
      in `[lower, upper]` exactly when its saturated value lies in
      `[lower, maxi]`. */
  lemma SaturatedWithin(lower: int, upper: Bound, c: int)
    requires upper.Admits(c)
    ensures var m := Saturation(lower, upper);
      var sat := if c < m then c else m;
      (lower <= sat <= m) <==> lower <= c
  {
  }

  /** A count saturated at `maxi`: `m + (1 if m < maxi else 0)` applied
      `c` times from 0. */
  function Saturated(lower: int, upper: Bound, c: int): (r: int)
    ensures r <= Saturation(lower, upper)
    ensures c <= Saturation(lower, upper) ==> r == c
  {
    var m := Saturation(lower, upper);
    if c < m then c else m
  }

  /** One more symbol: the saturated counter grows as the builders grow it,
      and may grow at all exactly while the count stays within the upper
      bound. */
  lemma SaturatedStep(lower: int, upper: Bound, c: int)
    requires upper.Admits(c)
    ensures var sat := Saturated(lower, upper, c);
      upper.Exceeds(sat) <==> upper.Admits(c + 1)
    ensures var sat := Saturated(lower, upper, c);
      sat + (if sat < Saturation(lower, upper) then 1 else 0) == Saturated(lower, upper, c + 1)
  {
  }
}

=== FILE: cardinality.dfy ===
/** `cardinality(symbols, lower_bounds, upper_bounds)`: one counter per
    symbol group, counting the group's symbols up to a saturation value; a
    word is accepted when every count lies within its group's bounds. */
module Cardinality {
  import opened Wrappers
  import opened Automata
  import opened Bounds
  import opened RuleGroups
  import opened Construction
  import opened Renaming

  // ---------------------------------------------------------------------
  // Counter tuples

  /** `product(*[range(lo[i], hi[i] + 1) ...])`. */
  function Box(lo: seq<int>, hi: seq<int>): set<seq<int>>
    requires |lo| == |hi|
    decreases |lo|
  {
    if |lo| == 0 then {[]}
    else set c, q | c in Interval(lo[0], hi[0]) && q in Box(lo[1..], hi[1..]) :: [c] + q
  }

  /** Every entry of `q` lies between the matching entries of `lo` and `hi`. */
  ghost predicate InBox(lo: seq<int>, hi: seq<int>, q: seq<int>) {
    |q| == |lo| == |hi| && forall i | 0 <= i < |q| :: lo[i] <= q[i] <= hi[i]
  }

  /** The product holds only tuples within the bounds. */
  lemma {:induction false} BoxOnly(lo: seq<int>, hi: seq<int>, q: seq<int>)
    requires |lo| == |hi| && q in Box(lo, hi)
    ensures InBox(lo, hi, q)
    decreases |lo|
  {
    if |lo| > 0 {
      var c, q' :| c in Interval(lo[0], hi[0]) && q' in Box(lo[1..], hi[1..]) && q == [c] + q';
      BoxOnly(lo[1..], hi[1..], q');
      forall i | 0 <= i < |q| ensures lo[i] <= q[i] <= hi[i] {
        if i > 0 { assert q[i] == q'[i - 1] && lo[i] == lo[1..][i - 1] && hi[i] == hi[1..][i - 1]; }
      }
    }
  }

  /** The product holds every tuple within the bounds. */
  lemma {:induction false} BoxHas(lo: seq<int>, hi: seq<int>, q: seq<int>)
    requires |lo| == |hi| && InBox(lo, hi, q)
    ensures q in Box(lo, hi)
    decreases |lo|
  {
    if |lo| > 0 {
      assert InBox(lo[1..], hi[1..], q[1..]) by {
        forall i | 0 <= i < |q[1..]| ensures lo[1..][i] <= q[1..][i] <= hi[1..][i] {
          assert q[1..][i] == q[i + 1];
        }
      }
      BoxHas(lo[1..], hi[1..], q[1..]);
      assert q == [q[0]] + q[1..];
    }
  }

  /** The product holds exactly the tuples within the bounds. */
  lemma BoxMembers(lo: seq<int>, hi: seq<int>, q: seq<int>)
    requires |lo| == |hi|
    ensures q in Box(lo, hi) <==> InBox(lo, hi, q)
  {
    if q in Box(lo, hi) { BoxOnly(lo, hi, q); }
    if InBox(lo, hi, q) { BoxHas(lo, hi, q); }
  }

  /** `maxi` for every group. */
  function Maxima(lower: seq<int>, upper: seq<Bound>): (m: seq<int>)
    requires |lower| == |upper|
    ensures |m| == |lower| && forall i | 0 <= i < |m| :: m[i] == Saturation(lower[i], upper[i])
  {
    seq(|lower|, i requires 0 <= i < |lower| => Saturation(lower[i], upper[i]))
  }

  function Zeros(n: nat): (z: seq<int>)
    ensures |z| == n && forall i | 0 <= i < n :: z[i] == 0
  {
    seq(n, _ => 0)
  }

  // ---------------------------------------------------------------------
  // Transitions

  /** The group whose entry the transition dictionary keeps for `(q, s)`:
      the comprehension writes one entry per group holding `s` whose
      counter is below its upper bound, and the last one written wins. */
  function LastOpenGroup(groups: seq<seq<Sym>>, upper: seq<Bound>, q: seq<int>, s: Sym, k: nat): (r: Option<nat>)
    requires k <= |groups| && |upper| == |groups| && |q| == |groups|
    ensures r.Some? ==> r.value < k && s in groups[r.value] && upper[r.value].Exceeds(q[r.value])
    ensures r.Some? ==> forall j | r.value < j < k :: !(s in groups[j] && upper[j].Exceeds(q[j]))
    ensures r.None? ==> forall j | 0 <= j < k :: !(s in groups[j] && upper[j].Exceeds(q[j]))
    decreases k
  {
    if k == 0 then None
    else if s in groups[k - 1] && upper[k - 1].Exceeds(q[k - 1]) then Some(k - 1)
    else LastOpenGroup(groups, upper, q, s, k - 1)
  }

  /** The transition on `s` from the counter tuple `q`: the chosen group's
      counter goes up by one unless it has reached `maxi`. */
  function CounterStep(groups: seq<seq<Sym>>, upper: seq<Bound>, maxi: seq<int>, q: seq<int>, s: Sym): Option<seq<int>> {
    if |upper| != |groups| || |maxi| != |groups| || |q| != |groups| then None
    else match LastOpenGroup(groups, upper, q, s, |groups|)
      case None => None
      case Some(i) => Some(q[i := q[i] + (if q[i] < maxi[i] then 1 else 0)])
  }

  /** With disjoint groups, a symbol of group `i` moves exactly while counter
      `i` is below the upper bound, raises that counter alone, and saturates
      it at `maxi`; a symbol of no group has no transition. */
  lemma CounterStepSpec(groups: seq<seq<Sym>>, upper: seq<Bound>, maxi: seq<int>, q: seq<int>, s: Sym)
    requires Disjoint(groups) && |upper| == |groups| && |maxi| == |groups| && |q| == |groups|
    ensures GroupIndex(groups, s).None? ==> CounterStep(groups, upper, maxi, q, s).None?
    ensures GroupIndex(groups, s).Some? ==>
      var i := GroupIndex(groups, s).value;
      (CounterStep(groups, upper, maxi, q, s).Some? <==> upper[i].Exceeds(q[i])) &&
      (upper[i].Exceeds(q[i]) ==>
        var p := CounterStep(groups, upper, maxi, q, s).value;
        |p| == |q| && p[i] == (if q[i] < maxi[i] then q[i] + 1 else q[i]) &&
        forall j | 0 <= j < |q| && j != i :: p[j] == q[j])
  {
    if GroupIndex(groups, s).Some? {
      var i := GroupIndex(groups, s).value;
      var r := LastOpenGroup(groups, upper, q, s, |groups|);
      if r.Some? {
        DisjointIndex(groups, r.value, s);
      }
    }
  }

  /** The automaton the builder writes out before renaming: every counter
      tuple within `maxi` is a state, the all-zero tuple is initial, and the
      tuples within `[lower, maxi]` accept. */
  function CardinalityTable(groups: seq<seq<Sym>>, lower: seq<int>, upper: seq<Bound>): Dfa<seq<int>>
    requires |lower| == |groups| && |upper| == |groups|
  {
    var maxi := Maxima(lower, upper);
    var states := Box(Zeros(|groups|), maxi);
    Dfa(GroupAlphabet(groups), states, Zeros(|groups|),
      Tabulate(states, GroupAlphabet(groups), (q, s) => CounterStep(groups, upper, maxi, q, s)),
      Box(lower, maxi))
  }

  /** What the builder needs of its bounds: a list per group, no negative
      lower bound, no negative finite upper bound. */
  predicate Sensible(groups: seq<seq<Sym>>, lower: seq<int>, upper: seq<Bound>) {
    && |lower| == |groups| && |upper| == |groups|
    && (forall i | 0 <= i < |groups| :: 0 <= lower[i] && (upper[i].Finite? ==> upper[i].limit >= 0))
  }

  /** A transition stays among the counter tuples. */
  lemma CounterStepStays(groups: seq<seq<Sym>>, upper: seq<Bound>, maxi: seq<int>, q: seq<int>, s: Sym)
    requires |upper| == |groups| && |maxi| == |groups|
    requires q in Box(Zeros(|groups|), maxi) && CounterStep(groups, upper, maxi, q, s).Some?
    ensures s in GroupAlphabet(groups) && CounterStep(groups, upper, maxi, q, s).value in Box(Zeros(|groups|), maxi)
  {
    var zeros := Zeros(|groups|);
    var i := LastOpenGroup(groups, upper, q, s, |groups|).value;
    assert s in GroupAlphabet(groups) by {
      assert s in groups[i];
    }
    assert InBox(zeros, maxi, CounterStep(groups, upper, maxi, q, s).value) by {
      BoxMembers(zeros, maxi, q);
      BumpInBox(zeros, maxi, q, i);
    }
    BoxMembers(zeros, maxi, CounterStep(groups, upper, maxi, q, s).value);
  }

  /** Raising one counter below its maximum by one stays in the box. */
  lemma BumpInBox(lo: seq<int>, hi: seq<int>, q: seq<int>, i: nat)
    requires InBox(lo, hi, q) && i < |q|
    ensures InBox(lo, hi, q[i := q[i] + (if q[i] < hi[i] then 1 else 0)])
  {
  }

  /** Every tuple between the lower bounds and `maxi` is a counter tuple. */
  lemma AcceptingCounters(groups: seq<seq<Sym>>, lower: seq<int>, upper: seq<Bound>)
    requires Sensible(groups, lower, upper)
    ensures Box(lower, Maxima(lower, upper)) <= Box(Zeros(|groups|), Maxima(lower, upper))
  {
    var maxi := Maxima(lower, upper);
    var zeros := Zeros(|groups|);
    forall q | q in Box(lower, maxi) ensures q in Box(zeros, maxi) {
      BoxMembers(lower, maxi, q);
      BoxMembers(zeros, maxi, q);
    }
  }

  /** The counter tuples are closed under the transitions. */
  lemma CountersClosed(groups: seq<seq<Sym>>, lower: seq<int>, upper: seq<Bound>)
    requires Sensible(groups, lower, upper)
    ensures Closed(Box(Zeros(|groups|), Maxima(lower, upper)), GroupAlphabet(groups),
      (q, s) => CounterStep(groups, upper, Maxima(lower, upper), q, s))
  {
    var maxi := Maxima(lower, upper);
    var zeros := Zeros(|groups|);
    forall q, s | q in Box(zeros, maxi) && CounterStep(groups, upper, maxi, q, s).Some?
      ensures s in GroupAlphabet(groups) && CounterStep(groups, upper, maxi, q, s).value in Box(zeros, maxi)
    {
      CounterStepStays(groups, upper, maxi, q, s);
    }
  }

  /** The counter tuples are closed under the transitions, and hold the
      initial and the accepting tuples. */
  lemma TableClosed(groups: seq<seq<Sym>>, lower: seq<int>, upper: seq<Bound>)
    requires Sensible(groups, lower, upper)
    ensures var t := CardinalityTable(groups, lower, upper);
      Closed(t.states, GroupAlphabet(groups), (q, s) => CounterStep(groups, upper, Maxima(lower, upper), q, s))
      && t.initial in t.states && t.accepting <= t.states
  {
    CountersClosed(groups, lower, upper);
    AcceptingCounters(groups, lower, upper);
    BoxMembers(Zeros(|groups|), Maxima(lower, upper), Zeros(|groups|));
  }

  // ---------------------------------------------------------------------
  // The counting language

  /** How many symbols of `w` belong to `g`. */
  function Occurrences(w: Word, g: seq<Sym>): nat
    decreases |w|
  {
    if w == [] then 0 else Occurrences(w[..|w| - 1], g) + (if w[|w| - 1] in g then 1 else 0)
  }

  lemma OccurrencesSnoc(w: Word, s: Sym, g: seq<Sym>)
    ensures Occurrences(w + [s], g) == Occurrences(w, g) + (if s in g then 1 else 0)
  {
    assert (w + [s])[..|w|] == w;
  }

  /** The specification: every symbol belongs to a group, and each group's
      symbols occur between its lower and upper bound times. */
  ghost predicate CountsWithin(groups: seq<seq<Sym>>, lower: seq<int>, upper: seq<Bound>, w: Word)
    requires |lower| == |groups| && |upper| == |groups|
  {
    && AllIn(w, GroupAlphabet(groups))
    && forall i | 0 <= i < |groups| :: lower[i] <= Occurrences(w, groups[i]) && upper[i].Admits(Occurrences(w, groups[i]))
  }

  /** The counter tuple after `w`: each group's count, saturated at `maxi`. */
  function Saturated(groups: seq<seq<Sym>>, maxi: seq<int>, w: Word): (q: seq<int>)
    requires |maxi| == |groups|
    ensures |q| == |groups|
  {
    seq(|groups|, i requires 0 <= i < |groups| =>
      if Occurrences(w, groups[i]) < maxi[i] then Occurrences(w, groups[i]) else maxi[i])
  }

  /** No count exceeds its upper bound. */
  ghost predicate WithinUpper(groups: seq<seq<Sym>>, upper: seq<Bound>, w: Word)
    requires |upper| == |groups|
  {
    forall i | 0 <= i < |groups| :: upper[i].Admits(Occurrences(w, groups[i]))
  }

  /** One symbol more: the run continues exactly when the symbol is in the
      alphabet and its group's count stays within the upper bound, and the
      counters then hold the saturated counts. */
  lemma CounterRunSnoc(groups: seq<seq<Sym>>, lower: seq<int>, upper: seq<Bound>, w: Word, s: Sym)
    requires Sensible(groups, lower, upper) && Disjoint(groups)
    requires AllIn(w, GroupAlphabet(groups)) && WithinUpper(groups, upper, w)
    ensures var maxi := Maxima(lower, upper);
      CounterStep(groups, upper, maxi, Saturated(groups, maxi, w), s) ==
        if s in GroupAlphabet(groups) && WithinUpper(groups, upper, w + [s]) then Some(Saturated(groups, maxi, w + [s])) else None
  {
    var maxi := Maxima(lower, upper);
    var q := Saturated(groups, maxi, w);
    AlphabetIsGrouped(groups, s);
    CounterStepSpec(groups, upper, maxi, q, s);
    forall j | 0 <= j < |groups| ensures Occurrences(w + [s], groups[j]) == Occurrences(w, groups[j]) + (if s in groups[j] then 1 else 0) {
      OccurrencesSnoc(w, s, groups[j]);
    }
    if s in GroupAlphabet(groups) {
      var i := GroupIndex(groups, s).value;
      if upper[i].Exceeds(q[i]) {
        var p := CounterStep(groups, upper, maxi, q, s).value;
        assert p == Saturated(groups, maxi, w + [s]);
      } else {
        assert !upper[i].Admits(Occurrences(w + [s], groups[i]));
      }
    }
  }

  /** The run of the counters: it exists exactly while every symbol is in
      the alphabet and no count passes its upper bound, and it holds the
      saturated counts. */
  lemma {:induction false} CounterRun(groups: seq<seq<Sym>>, lower: seq<int>, upper: seq<Bound>, w: Word)
    requires Sensible(groups, lower, upper) && Disjoint(groups)
    ensures var maxi := Maxima(lower, upper);
      RunStep((q, s) => CounterStep(groups, upper, maxi, q, s), w, Zeros(|groups|)) ==
        if AllIn(w, GroupAlphabet(groups)) && WithinUpper(groups, upper, w) then Some(Saturated(groups, maxi, w)) else None
    decreases |w|
  {
    var maxi := Maxima(lower, upper);
    var step := (q, s) => CounterStep(groups, upper, maxi, q, s);
    if w == [] {
      assert Saturated(groups, maxi, w) == Zeros(|groups|);
    } else {
      var w' := w[..|w| - 1];
      var s := w[|w| - 1];
      assert w == w' + [s];
      CounterRun(groups, lower, upper, w');
      RunStepSnoc(step, w', s, Zeros(|groups|));
      AllInSnoc(w', s, GroupAlphabet(groups));
      if AllIn(w', GroupAlphabet(groups)) && WithinUpper(groups, upper, w') {
        CounterRunSnoc(groups, lower, upper, w', s);
      } else if AllIn(w', GroupAlphabet(groups)) {
        var i :| 0 <= i < |groups| && !upper[i].Admits(Occurrences(w', groups[i]));
        OccurrencesSnoc(w', s, groups[i]);
      }
    }
  }

  /** The saturated counts accept exactly when every count reaches its lower
      bound. */
  lemma SaturatedAccepts(groups: seq<seq<Sym>>, lower: seq<int>, upper: seq<Bound>, w: Word)
    requires Sensible(groups, lower, upper) && WithinUpper(groups, upper, w)
    ensures Saturated(groups, Maxima(lower, upper), w) in Box(lower, Maxima(lower, upper)) <==>
      forall i | 0 <= i < |groups| :: lower[i] <= Occurrences(w, groups[i])
  {
    var maxi := Maxima(lower, upper);
    BoxMembers(lower, maxi, Saturated(groups, maxi, w));
    forall i | 0 <= i < |groups|
      ensures (lower[i] <= Saturated(groups, maxi, w)[i] <= maxi[i]) <==> lower[i] <= Occurrences(w, groups[i])
    {
      SaturatedWithin(lower[i], upper[i], Occurrences(w, groups[i]));
    }
  }

  /** The automaton before renaming accepts exactly the words whose group
      counts lie within the bounds. */
  lemma TableLanguageCounts(groups: seq<seq<Sym>>, lower: seq<int>, upper: seq<Bound>, w: Word)
    requires Sensible(groups, lower, upper) && Disjoint(groups)
    ensures Valid(CardinalityTable(groups, lower, upper))
    ensures Accepts(CardinalityTable(groups, lower, upper), w) <==> CountsWithin(groups, lower, upper, w)
  {
    var maxi := Maxima(lower, upper);
    TableClosed(groups, lower, upper);
    TableLanguage(CardinalityTable(groups, lower, upper), GroupAlphabet(groups), (q, s) => CounterStep(groups, upper, maxi, q, s), w);
    CounterRun(groups, lower, upper, w);
    if AllIn(w, GroupAlphabet(groups)) && WithinUpper(groups, upper, w) {
      SaturatedAccepts(groups, lower, upper, w);
    }
  }

  /** The builder reads one lower and one upper bound per group; it raises
      when a given list is shorter, and ignores the rest of a longer one. */
  predicate Readable(args: seq<GroupArg>, lowerArg: seq<int>, upperArg: seq<Bound>) {
    (lowerArg == [] || |lowerArg| >= |args|) && (upperArg == [] || |upperArg| >= |args|)
  }

  /** `cardinality(symbols, lower_bounds, upper_bounds)`: lower bounds
      default to 0 and upper bounds to infinity. The builder fails when a
      bound list is shorter than the symbol arguments. Otherwise the result
      is the renamed counter automaton over the alphabet of every group;
      when no symbol is in two groups, it accepts a word exactly when every
      symbol is in a group and each group's symbols occur within its
      bounds. */
  method Cardinality(args: seq<GroupArg>, lowerArg: seq<int>, upperArg: seq<Bound>) returns (r: Result<Dfa<int>, ReadError>)
    requires Readable(args, lowerArg, upperArg) ==>
      Distinct(NormaliseAll(args)) && Sensible(NormaliseAll(args), BoundsOr(lowerArg, |args|, 0), BoundsOr(upperArg, |args|, Infinite))
    ensures r.Err? <==> !Readable(args, lowerArg, upperArg)
    ensures r.Ok? ==> Valid(r.value) && r.value.initial == 1 && r.value.alphabet == GroupAlphabet(NormaliseAll(args))
    ensures r.Ok? && Disjoint(NormaliseAll(args)) ==> forall w :: Accepts(r.value, w) <==>
      CountsWithin(NormaliseAll(args), BoundsOr(lowerArg, |args|, 0), BoundsOr(upperArg, |args|, Infinite), w)
  {
    if !Readable(args, lowerArg, upperArg) {
      return Err(ReadPastEnd);
    }
    var groups := NormaliseAll(args);
    var lower := BoundsOr(lowerArg, |args|, 0);
    var upper := BoundsOr(upperArg, |args|, Infinite);
    var t := CardinalityTable(groups, lower, upper);
    TableClosed(groups, lower, upper);
    TableLanguage(t, GroupAlphabet(groups), (q, s) => CounterStep(groups, upper, Maxima(lower, upper), q, s), []);
    var d: Dfa<int>;
    ghost var rename;
    d, rename := Canonical(t);
    if Disjoint(groups) {
      forall w ensures Accepts(d, w) <==> CountsWithin(groups, lower, upper, w) {
        TableLanguageCounts(groups, lower, upper, w);
      }
    }
    r := Ok(d);
  }
}

=== FILE: construction.dfy ===
/** The common shape of `mask`, `periodic` and `windows`: start from
    `__init_dfa(alphabet, initial)`, explore the states the step function
    reaches with the `OPEN` worklist, record a transition for every explored
    state and symbol on which the step is defined, mark the explored states
    the acceptance test selects, and renumber the result with `_rename`. */
module Construction {
  import opened Wrappers
  import opened Automata
  import opened Worklist
  import opened Renaming

  /** The automaton the worklist fills in before renaming. */
  function Tabulated<S(==)>(alphabet: set<Sym>, init: S, step: (S, Sym) -> Option<S>, accept: S -> bool, explored: set<S>): Dfa<S> {
    Dfa(alphabet, explored, init, Tabulate(explored, alphabet, step), set q | q in explored && accept(q))
  }

  /** Over a closed explored set holding the start, the filled-in automaton is
      valid and accepts a word exactly when the step function runs through it
      and stops in a state the acceptance test selects. */
  lemma TabulatedLanguage<S>(alphabet: set<Sym>, init: S, step: (S, Sym) -> Option<S>, accept: S -> bool, explored: set<S>, w: Word)
    requires init in explored && Closed(explored, alphabet, step)
    ensures Valid(Tabulated(alphabet, init, step, accept, explored))
    ensures Accepts(Tabulated(alphabet, init, step, accept, explored), w) <==>
      RunStep(step, w, init).Some? && accept(RunStep(step, w, init).value)
  {
    var t := Tabulated(alphabet, init, step, accept, explored);
    assert Valid(t) by {
      forall k | k in t.delta ensures k.0 in t.states && t.delta[k] in t.states {
        assert step(k.0, k.1).Some?;
      }
    }
    TabulateRun(t, explored, alphabet, step, w, init);
    RunStaysInStates(t, w, init);
  }

  /** The rule builders list their states and transitions outright: the
      transitions are the step function on every listed state and on every
      symbol of `symbols`. When the listed states are closed under the step
      and hold the initial and the accepting states, the automaton is valid
      and accepts a word exactly when the step function runs through it to an
      accepting state. */
  lemma TableLanguage<S>(d: Dfa<S>, symbols: set<Sym>, step: (S, Sym) -> Option<S>, w: Word)
    requires d.delta == Tabulate(d.states, symbols, step)
    requires Closed(d.states, symbols, step) && d.initial in d.states && d.accepting <= d.states
    ensures Valid(d)
    ensures Accepts(d, w) <==> RunStep(step, w, d.initial).Some? && RunStep(step, w, d.initial).value in d.accepting
  {
    assert Valid(d) by {
      forall k | k in d.delta ensures k.0 in d.states && d.delta[k] in d.states {
        assert step(k.0, k.1).Some?;
      }
    }
    TabulateRun(d, d.states, symbols, step, w, d.initial);
  }

  /** The worklist construction: explore, tabulate, rename. `universe` is any
      finite set closed under the step that holds the start; it bounds the
      exploration. */
  method Build<S(==)>(alphabet: set<Sym>, init: S, step: (S, Sym) -> Option<S>, accept: S -> bool, ghost universe: set<S>)
    returns (r: Dfa<int>)
    requires init in universe && Closed(universe, alphabet, step)
    ensures Valid(r) && r.initial == 1 && r.alphabet == alphabet
    ensures forall w :: Accepts(r, w) <==> RunStep(step, w, init).Some? && accept(RunStep(step, w, init).value)
  {
    var explored := Explore(init, alphabet, step, universe);
    var t := Tabulated(alphabet, init, step, accept, explored);
    TabulatedLanguage(alphabet, init, step, accept, explored, []);
    ghost var rename;
    r, rename := Canonical(t);
    forall w ensures Accepts(r, w) <==> RunStep(step, w, init).Some? && accept(RunStep(step, w, init).value) {
      TabulatedLanguage(alphabet, init, step, accept, explored, w);
    }
  }
}

=== FILE: decoding.dfy ===
/** `post_processing`: turning integral arc flows back into `number`
    accepted words. Each word starts at the initial state and, step by step,
    takes an outgoing arc that still carries flow and removes one unit from
    it. When the flows satisfy the supply and balance equations, such an arc
    always exists, so every row is completed. */
module Decoding {
  import opened Wrappers
  import opened Automata
  import opened Unfolding
  import opened FlowNetwork

  // ---------------------------------------------------------------------
  // Sums of flows

  /** The value of a flow variable; the solution values every variable. */
  function Val(f: map<FlowVar, int>, v: FlowVar): int {
    if v in f then f[v] else 0
  }

  /** `self.sum(f[v] for v in vs)`. */
  ghost function Sum(vs: set<FlowVar>, f: map<FlowVar, int>): int
    decreases vs
  {
    if vs == {} then 0 else var v :| v in vs; Val(f, v) + Sum(vs - {v}, f)
  }

  /** A sum splits off any of its terms. */
  lemma {:induction false} SumRemove(vs: set<FlowVar>, f: map<FlowVar, int>, v: FlowVar)
    requires v in vs
    ensures Sum(vs, f) == Val(f, v) + Sum(vs - {v}, f)
    decreases vs
  {
    var x :| x in vs && Sum(vs, f) == Val(f, x) + Sum(vs - {x}, f);
    if x != v {
      SumRemove(vs - {x}, f, v);
      SumRemove(vs - {v}, f, x);
      assert vs - {x} - {v} == vs - {v} - {x};
    }
  }

  /** A sum only depends on its terms. */
  lemma {:induction false} SumAgree(vs: set<FlowVar>, f: map<FlowVar, int>, g: map<FlowVar, int>)
    requires forall v | v in vs :: Val(f, v) == Val(g, v)
    ensures Sum(vs, f) == Sum(vs, g)
    decreases vs
  {
    if vs != {} {
      var v :| v in vs;
      SumRemove(vs, f, v);
      SumRemove(vs, g, v);
      SumAgree(vs - {v}, f, g);
    }
  }

  /** A sum of non-negative terms is non-negative, and zero when every term
      is. */
  lemma {:induction false} SumSign(vs: set<FlowVar>, f: map<FlowVar, int>)
    requires forall v | v in vs :: Val(f, v) >= 0
    ensures Sum(vs, f) >= 0
    ensures (forall v | v in vs :: Val(f, v) == 0) ==> Sum(vs, f) == 0
    decreases vs
  {
    if vs != {} {
      var v :| v in vs;
      SumRemove(vs, f, v);
      SumSign(vs - {v}, f);
    }
  }

  /** Taking one unit off `v` takes one unit off every sum over `v`. */
  lemma SumDecrement(vs: set<FlowVar>, f: map<FlowVar, int>, v: FlowVar)
    requires v in f
    ensures Sum(vs, f[v := f[v] - 1]) == Sum(vs, f) - (if v in vs then 1 else 0)
  {
    var g := f[v := f[v] - 1];
    if v in vs {
      SumRemove(vs, f, v);
      SumRemove(vs, g, v);
      SumAgree(vs - {v}, f, g);
    } else {
      SumAgree(vs, f, g);
    }
  }

  // ---------------------------------------------------------------------
  // The solution

  /** An integral solution of the flow part of the model: every variable
      within `[0, number]`, the supply equation and every balance equation
      hold. */
  ghost predicate FlowFeasible(net: Network, f: map<FlowVar, int>) {
    && Vars(net.layers) <= f.Keys
    && (forall v | v in Vars(net.layers) :: 0 <= f[v] <= net.number)
    && net.supply.Supply? && Sum(net.supply.out, f) == net.number
    && forall c | c in net.balances :: c.Balance? && Sum(c.inflow, f) == Sum(c.outflow, f)
  }

  /** What the remaining flows keep while a row is decoded, the row being at
      `q` of step `t`: no flow is negative, `supply` units leave the initial
      state, and every node balances except `q`, which has one unit more out
      than in (the unit the row brought in has been taken off its arc in). */
  ghost predicate Residual(net: Network, g: map<FlowVar, int>, supply: int, t: nat, q: int) {
    && Vars(net.layers) <= g.Keys
    && (forall v | v in Vars(net.layers) :: g[v] >= 0)
    && net.supply.Supply? && Sum(net.supply.out, g) == supply
    && forall c | c in net.balances ::
         c.Balance? && Sum(c.outflow, g) == Sum(c.inflow, g) + (if c.node == q && c.step == t then 1 else 0)
  }

  // ---------------------------------------------------------------------
  // Layering

  /** An arc of step `t` leaves a state reachable at `t` and enters one
      reachable at `t + 1`. */
  lemma ArcEnds(net: Network, t: nat, v: FlowVar)
    requires WellFormed(net) && t < |net.layers| && v in net.layers[t]
    ensures v.from in Layer(net.dfa, net.alphabets, t) && v.to in Layer(net.dfa, net.alphabets, t + 1)
  {
    ArcsAreReachableTransitions(net.dfa, net.alphabets, t, v);
    NextLevel(net.dfa, net.alphabets, t);
  }

  /** No arc belongs to two steps. */
  lemma LayersApart(net: Network, t1: nat, t2: nat, v: FlowVar)
    requires WellFormed(net) && t1 < |net.layers| && t2 < |net.layers| && v in net.layers[t1] && v in net.layers[t2]
    ensures t1 == t2
  {
    ArcEnds(net, t1, v);
    ArcEnds(net, t2, v);
  }

  /** A state reachable at an inner step has an arc out, hence a balance
      equation. */
  lemma InnerNodeBalances(net: Network, t: nat, q: int)
    requires WellFormed(net) && 1 <= t < |net.layers| && q in Layer(net.dfa, net.alphabets, t)
    ensures Balance(q, t, InArcs(net.layers[t - 1], q), OutArcs(net.layers[t], q)) in net.balances
  {
    var u, a := net.dfa, net.alphabets;
    var s :| s in a[t] && (q, s) in u.delta;
    var v := FlowVar(q, s, u.delta[(q, s)]);
    assert v in Arcs(u, a, t);
    IndexesAgree(net.layers[t], q, s, v.to);
  }

  /** Where an arc of step `t` appears in a balance equation: among the arcs
      out of its source at `t` and the arcs into its target at `t + 1`. */
  lemma BalanceMembers(net: Network, t: nat, v: FlowVar, c: Constraint)
    requires WellFormed(net) && t < |net.layers| && v in net.layers[t] && c in net.balances
    ensures c.Balance?
    ensures v in c.outflow <==> c.node == v.from && c.step == t
    ensures v in c.inflow <==> c.node == v.to && c.step == t + 1
  {
    var st, n := BalanceShape(net.layers, c);
    BalanceOut(net, t, v, st, n);
    BalanceIn(net, t, v, st, n);
  }

  lemma BalanceOut(net: Network, t: nat, v: FlowVar, st: nat, n: int)
    requires WellFormed(net) && t < |net.layers| && v in net.layers[t] && 1 <= st < |net.layers|
    ensures v in OutArcs(net.layers[st], n) <==> n == v.from && st == t
  {
    if v in OutArcs(net.layers[st], n) { LayersApart(net, t, st, v); }
  }

  lemma BalanceIn(net: Network, t: nat, v: FlowVar, st: nat, n: int)
    requires WellFormed(net) && t < |net.layers| && v in net.layers[t] && 1 <= st < |net.layers|
    ensures v in InArcs(net.layers[st - 1], n) <==> n == v.to && st == t + 1
  {
    var p := st - 1;
    var arcs := net.layers[p];
    assert v in InArcs(arcs, n) <==> v in arcs && v.to == n;
    if v in arcs { LayersApart(net, t, p, v); }
  }

  /** The supply equation holds the arcs out of the initial state at step 0. */
  lemma SupplyMembers(net: Network, t: nat, v: FlowVar)
    requires WellFormed(net) && t < |net.layers| && v in net.layers[t]
    ensures v in net.supply.out <==> t == 0 && v.from == net.dfa.initial
  {
    if v in net.supply.out { LayersApart(net, t, 0, v); }
  }

  // ---------------------------------------------------------------------
  // One step of a row

  /** While a row is at `q` of step `t`, some arc out of `q` in
      `delta_plus[t]` still carries flow: at step 0 because units are left to
      supply, later because `q` has one unit more out than in. */
  lemma ArcAvailable(net: Network, g: map<FlowVar, int>, supply: int, t: nat, q: int)
    requires WellFormed(net) && t < |net.layers| && q in Layer(net.dfa, net.alphabets, t)
    requires Residual(net, g, supply, t, q)
    requires t == 0 ==> q == net.dfa.initial && supply >= 1
    ensures exists p | p in Get(DeltaPlus(net.layers[t]), q) :: Val(g, FlowVar(q, p.0, p.1)) != 0
  {
    var out := OutArcs(net.layers[t], q);
    forall v | v in out ensures Val(g, v) >= 0 { assert v in Vars(net.layers); }
    if t == 0 {
      SumSign(out, g);
    } else {
      InnerNodeBalances(net, t, q);
      var c := Balance(q, t, InArcs(net.layers[t - 1], q), OutArcs(net.layers[t], q));
      forall v | v in c.inflow ensures Val(g, v) >= 0 { assert v in Vars(net.layers); }
      SumSign(c.inflow, g);
      SumSign(out, g);
    }
    var v :| v in out && Val(g, v) != 0;
    IndexesAgree(net.layers[t], q, v.sym, v.to);
    assert (v.sym, v.to) in Get(DeltaPlus(net.layers[t]), q);
  }

  /** A row that has followed `t` arcs from the initial state: its symbols
      are allowed at their steps and it leads to `q`, reachable at `t`. */
  ghost predicate Walked(net: Network, t: nat, q: int, row: Word) {
    && t <= |net.layers| == |net.alphabets| && |row| == t
    && (forall j | 0 <= j < t :: row[j] in net.alphabets[j])
    && Run(net.dfa, row, net.dfa.initial) == Some(q) && q in Layer(net.dfa, net.alphabets, t)
  }

  /** Following an arc of `delta_plus[t][q]` extends the walk. */
  lemma WalkStep(net: Network, t: nat, q: int, row: Word, p: (Sym, int))
    requires WellFormed(net) && t < |net.layers| && Walked(net, t, q, row)
    requires p in Get(DeltaPlus(net.layers[t]), q)
    ensures FlowVar(q, p.0, p.1) in net.layers[t] && FlowVar(q, p.0, p.1) in Vars(net.layers)
    ensures Walked(net, t + 1, p.1, row + [p.0])
  {
    var v := FlowVar(q, p.0, p.1);
    IndexesAgree(net.layers[t], q, p.0, p.1);
    ArcEnds(net, t, v);
    ArcsAreReachableTransitions(net.dfa, net.alphabets, t, v);
    RunSnoc(net.dfa, row, p.0, net.dfa.initial);
    assert (row + [p.0])[t] == p.0;
    forall j | 0 <= j < t ensures (row + [p.0])[j] in net.alphabets[j] { assert (row + [p.0])[j] == row[j]; }
  }

  /** A completed walk is an accepted word allowed step by step. */
  lemma WalkAccepted(net: Network, q: int, row: Word)
    requires WellFormed(net) && Walked(net, |net.layers|, q, row)
    ensures Follows(row, net.alphabets) && Accepts(net.dfa, row)
  {
    HorizonAccepts(net, row);
  }

  /** Taking one unit off an arc out of `q` moves the imbalance to the arc's
      target at the next step, and at step 0 uses up one unit of supply. */
  lemma TakeArc(net: Network, g: map<FlowVar, int>, supply: int, t: nat, q: int, v: FlowVar)
    requires WellFormed(net) && t < |net.layers| && v in net.layers[t] && v.from == q
    requires Residual(net, g, supply, t, q) && g[v] != 0
    requires t == 0 ==> q == net.dfa.initial
    ensures Residual(net, g[v := g[v] - 1], supply - (if t == 0 then 1 else 0), t + 1, v.to)
  {
    var g' := g[v := g[v] - 1];
    assert v in Vars(net.layers);
    SupplyMembers(net, t, v);
    SumDecrement(net.supply.out, g, v);
    forall c | c in net.balances
      ensures c.Balance? && Sum(c.outflow, g') == Sum(c.inflow, g') + (if c.node == v.to && c.step == t + 1 then 1 else 0)
    {
      BalanceMembers(net, t, v, c);
      SumDecrement(c.outflow, g, v);
      SumDecrement(c.inflow, g, v);
    }
  }

  /** After the last step no node is out of balance. */
  lemma RowEnds(net: Network, g: map<FlowVar, int>, supply: int, q: int)
    requires WellFormed(net) && Residual(net, g, supply, |net.layers|, q)
    ensures Residual(net, g, supply, 0, net.dfa.initial)
  {
    forall c | c in net.balances ensures c.Balance? && c.step != 0 && c.step != |net.layers| {
      var st, n := BalanceShape(net.layers, c);
    }
  }

  /** Every state reached after all steps accepts. */
  lemma HorizonAccepts(net: Network, w: Word)
    requires WellFormed(net) && Follows(w, net.alphabets) && Run(net.dfa, w, net.dfa.initial).Some?
    ensures Accepts(net.dfa, w)
  {
    var q := Run(net.dfa, w, net.dfa.initial).value;
    assert net.alphabets[..|w|] == net.alphabets;
    WordInLayer(net.dfa, net.alphabets, w, q);
  }

  // ---------------------------------------------------------------------
  // The decoder

  /** Why `post_processing` raises: `next` found no arc with flow left. */
  datatype DecodeError = NoArcWithFlow(row: nat, step: nat)

  /** One step of a row: at `q` of step `t`, take some arc of
      `delta_plus[t][q]` whose remaining flow is non-zero and take one unit
      off it. The walk grows by the arc's symbol; when the remaining flows
      are balanced as a row at `q` leaves them, the step always succeeds and
      leaves them balanced at the arc's target, still non-negative. */
  method TakeStep(net: Network, rest: map<FlowVar, int>, t: nat, q: int, row: Word, i: nat, ghost left: int)
    returns (r: Result<(map<FlowVar, int>, int, Word), DecodeError>)
    requires WellFormed(net) && t < |net.layers| && Walked(net, t, q, row) && Vars(net.layers) <= rest.Keys
    ensures r.Ok? ==> var (rest', q', row') := r.value;
      Walked(net, t + 1, q', row') && rest'.Keys == rest.Keys
    ensures r.Err? ==> r.error == NoArcWithFlow(i, t)
    ensures Residual(net, rest, left, t, q) && (t == 0 ==> q == net.dfa.initial && left >= 1) ==>
      r.Ok? && Residual(net, r.value.0, left - (if t == 0 then 1 else 0), t + 1, r.value.1)
  {
    var out := Get(DeltaPlus(net.layers[t]), q);
    if !exists p | p in out :: Val(rest, FlowVar(q, p.0, p.1)) != 0 {
      if Residual(net, rest, left, t, q) && (t == 0 ==> q == net.dfa.initial && left >= 1) {
        ArcAvailable(net, rest, left, t, q);
      }
      return Err(NoArcWithFlow(i, t));
    }
    var p :| p in out && Val(rest, FlowVar(q, p.0, p.1)) != 0;
    var v := FlowVar(q, p.0, p.1);
    WalkStep(net, t, q, row, p);
    if Residual(net, rest, left, t, q) && (t == 0 ==> q == net.dfa.initial && left >= 1) {
      TakeArc(net, rest, left, t, q, v);
    }
    return Ok((rest[v := rest[v] - 1], p.1, row + [p.0]));
  }

  /** One row of `post_processing`: from the initial state, one step per
      time step. The row, when completed, is an accepted word allowed step by
      step; when the remaining flows are balanced with `supply >= 1` units
      left, the row is always completed and the flows left are balanced with
      one unit less and still non-negative. */
  method DecodeRow(net: Network, g: map<FlowVar, int>, i: nat, ghost supply: int)
    returns (r: Result<(Word, map<FlowVar, int>), DecodeError>)
    requires WellFormed(net) && Vars(net.layers) <= g.Keys
    ensures r.Ok? ==> var (row, g') := r.value;
      Follows(row, net.alphabets) && Accepts(net.dfa, row) && g'.Keys == g.Keys
    ensures r.Err? ==> r.error.row == i
    ensures Residual(net, g, supply, 0, net.dfa.initial) && supply >= 1 ==>
      r.Ok? && Residual(net, r.value.1, supply - 1, 0, net.dfa.initial)
  {
    ghost var balanced := Residual(net, g, supply, 0, net.dfa.initial) && supply >= 1;
    var q := net.dfa.initial;
    var row: Word := [];
    var rest := g;
    var t := 0;
    assert Walked(net, 0, q, row);
    while t < |net.layers|
      invariant Walked(net, t, q, row) && rest.Keys == g.Keys
      invariant balanced ==> Residual(net, rest, if t == 0 then supply else supply - 1, t, q)
      invariant t == 0 ==> q == net.dfa.initial
    {
      var step := TakeStep(net, rest, t, q, row, i, if t == 0 then supply else supply - 1);
      if step.Err? {
        return Err(step.error);
      }
      rest, q, row := step.value.0, step.value.1, step.value.2;
      t := t + 1;
    }
    if balanced {
      RowEnds(net, rest, supply - 1, q);
    }
    WalkAccepted(net, q, row);
    return Ok((row, rest));
  }

  /** Every row is an accepted word allowed step by step. */
  ghost predicate AllAccepted(net: Network, rows: seq<Word>) {
    forall j | 0 <= j < |rows| :: Follows(rows[j], net.alphabets) && Accepts(net.dfa, rows[j])
  }

  lemma AllAcceptedSnoc(net: Network, rows: seq<Word>, row: Word)
    requires AllAccepted(net, rows) && Follows(row, net.alphabets) && Accepts(net.dfa, row)
    ensures AllAccepted(net, rows + [row])
  {
    forall j | 0 <= j < |rows| + 1 ensures Follows((rows + [row])[j], net.alphabets) && Accepts(net.dfa, (rows + [row])[j]) {
      if j < |rows| { assert (rows + [row])[j] == rows[j]; }
    }
  }

  /** `post_processing()`: None without a solution; otherwise `number` rows,
      each an accepted word allowed step by step. When the solution's flows
      satisfy the bounds, the supply equation and the balance equations, it
      never raises. */
  method Decode(net: Network, solution: Option<map<FlowVar, int>>) returns (r: Result<Option<seq<Word>>, DecodeError>)
    requires WellFormed(net)
    requires solution.Some? ==> Vars(net.layers) <= solution.value.Keys
    ensures solution.None? <==> r == Ok(None)
    ensures r.Ok? && r.value.Some? ==>
      |r.value.value| == (if net.number < 0 then 0 else net.number)
      && forall i | 0 <= i < |r.value.value| :: Follows(r.value.value[i], net.alphabets) && Accepts(net.dfa, r.value.value[i])
    ensures solution.Some? && FlowFeasible(net, solution.value) ==> r.Ok? && r.value.Some?
  {
    if solution.None? {
      return Ok(None);
    }
    var f := solution.value;
    var rest := map v | v in Vars(net.layers) :: f[v];
    ghost var feasible := FlowFeasible(net, f);
    if feasible {
      SumAgree(net.supply.out, f, rest);
      forall c | c in net.balances ensures c.Balance? && Sum(c.outflow, rest) == Sum(c.inflow, rest) {
        SumAgree(c.inflow, f, rest);
        SumAgree(c.outflow, f, rest);
      }
    }
    var rows: seq<Word> := [];
    var i := 0;
    while i < net.number
      invariant 0 <= i <= (if net.number < 0 then 0 else net.number) && |rows| == i
      invariant Vars(net.layers) <= rest.Keys
      invariant AllAccepted(net, rows)
      invariant feasible ==> Residual(net, rest, net.number - i, 0, net.dfa.initial)
    {
      var step := DecodeRow(net, rest, i, net.number - i);
      if step.Err? {
        return Err(step.error);
      }
      AllAcceptedSnoc(net, rows, step.value.0);
      rows := rows + [step.value.0];
      rest := step.value.1;
      i := i + 1;
    }
    return Ok(Some(rows));
  }
}

=== FILE: flow.dfy ===
/** `add_regular_constraint`: the flow network over the unfolded automaton.
    The solver calls are replaced by data: the arcs of each time step (one
    flow variable each, ranging over `[0, number]`), the supply equation at
    the initial state, one balance equation per node of the inner steps, and
    one linking equation per decision variable `x[t, s]`. */
module FlowNetwork {
  import opened Wrappers
  import opened Automata
  import opened Unfolding

  /** The flow variable `f[q1, s, q2]` of the arc from `q1` to `q2` on `s`. */
  datatype FlowVar = FlowVar(from: int, sym: Sym, to: int)

  /** The arcs recorded at step `t`: from every state reachable at step `t`
      (the `level` of the source) on every symbol allowed at `t` on which the
      unfolded automaton has a transition. */
  function Arcs(u: Dfa<int>, a: seq<set<Sym>>, t: nat): set<FlowVar>
    requires t < |a|
  {
    set q, s | q in Layer(u, a, t) && s in a[t] && (q, s) in u.delta :: FlowVar(q, s, u.delta[(q, s)])
  }

  /** The level of the next step is the set of targets of this step's arcs
      (`delta_minus[t].keys()`). */
  lemma NextLevel(u: Dfa<int>, a: seq<set<Sym>>, t: nat)
    requires t < |a|
    ensures Layer(u, a, t + 1) == set v | v in Arcs(u, a, t) :: v.to
  {
    var targets := set v | v in Arcs(u, a, t) :: v.to;
    forall q | q in Layer(u, a, t + 1) ensures q in targets {
      var p, s := Predecessor(u, a, t + 1, q);
      assert FlowVar(p, s, q) in Arcs(u, a, t);
    }
  }

  /** A state of a later level is the target of a transition from the level
      before it. */
  lemma Predecessor<S>(d: Dfa<S>, a: seq<set<Sym>>, t: nat, q: S) returns (p: S, s: Sym)
    requires 0 < t <= |a| && q in Layer(d, a, t)
    ensures p in Layer(d, a, t - 1) && s in a[t - 1] && (p, s) in d.delta && d.delta[(p, s)] == q
  {
    p, s :| p in Layer(d, a, t - 1) && s in a[t - 1] && (p, s) in d.delta && d.delta[(p, s)] == q;
  }

  // ---------------------------------------------------------------------
  // The three indexes of an arc set

  /** `defaultdict(set)` lookup: a missing key reads as the empty set. */
  function Get<K, V>(m: map<K, set<V>>, k: K): set<V> {
    if k in m then m[k] else {}
  }

  /** `delta_plus[t]`: the (symbol, target) pairs of each source. */
  function DeltaPlus(arcs: set<FlowVar>): map<int, set<(Sym, int)>> {
    var sources := set v | v in arcs :: v.from;
    map q | q in sources :: set v | v in arcs && v.from == q :: (v.sym, v.to)
  }

  /** `delta_minus[t]`: the (source, symbol) pairs of each target. */
  function DeltaMinus(arcs: set<FlowVar>): map<int, set<(int, Sym)>> {
    var targets := set v | v in arcs :: v.to;
    map q | q in targets :: set v | v in arcs && v.to == q :: (v.from, v.sym)
  }

  /** `sigma[t]`: the (source, target) pairs of each symbol. */
  function Sigma(arcs: set<FlowVar>): map<Sym, set<(int, int)>> {
    var symbols := set v | v in arcs :: v.sym;
    map s | s in symbols :: set v | v in arcs && v.sym == s :: (v.from, v.to)
  }

  /** The three indexes hold the same arcs: each arc is found under its
      source, under its target and under its symbol, and nothing else is. */
  lemma IndexesAgree(arcs: set<FlowVar>, q1: int, s: Sym, q2: int)
    ensures (s, q2) in Get(DeltaPlus(arcs), q1) <==> FlowVar(q1, s, q2) in arcs
    ensures (q1, s) in Get(DeltaMinus(arcs), q2) <==> FlowVar(q1, s, q2) in arcs
    ensures (q1, q2) in Get(Sigma(arcs), s) <==> FlowVar(q1, s, q2) in arcs
  {
    var v := FlowVar(q1, s, q2);
    if v in arcs {
      assert q1 in set v | v in arcs :: v.from;
      assert q2 in set v | v in arcs :: v.to;
      assert s in set v | v in arcs :: v.sym;
    }
  }

  /** The outgoing arcs of `q` read from `delta_plus`. */
  function OutArcs(arcs: set<FlowVar>, q: int): (r: set<FlowVar>)
    ensures forall v :: v in r <==> v in arcs && v.from == q
  {
    var r := set p | p in Get(DeltaPlus(arcs), q) :: FlowVar(q, p.0, p.1);
    assert forall v | v in arcs && v.from == q :: v in r by {
      forall v | v in arcs && v.from == q ensures v in r {
        IndexesAgree(arcs, q, v.sym, v.to);
      }
    }
    assert forall v | v in r :: v in arcs && v.from == q by {
      forall v | v in r ensures v in arcs && v.from == q {
        IndexesAgree(arcs, q, v.sym, v.to);
      }
    }
    r
  }

  /** The incoming arcs of `q` read from `delta_minus`. */
  function InArcs(arcs: set<FlowVar>, q: int): (r: set<FlowVar>)
    ensures forall v :: v in r <==> v in arcs && v.to == q
  {
    var r := set p | p in Get(DeltaMinus(arcs), q) :: FlowVar(p.0, p.1, q);
    assert forall v | v in arcs && v.to == q :: v in r by {
      forall v | v in arcs && v.to == q ensures v in r {
        IndexesAgree(arcs, v.from, v.sym, q);
      }
    }
    assert forall v | v in r :: v in arcs && v.to == q by {
      forall v | v in r ensures v in arcs && v.to == q {
        IndexesAgree(arcs, v.from, v.sym, q);
      }
    }
    r
  }

  /** The arcs labelled `s` read from `sigma`. */
  function LabelArcs(arcs: set<FlowVar>, s: Sym): (r: set<FlowVar>)
    ensures forall v :: v in r <==> v in arcs && v.sym == s
  {
    var r := set p | p in Get(Sigma(arcs), s) :: FlowVar(p.0, s, p.1);
    assert forall v | v in arcs && v.sym == s :: v in r by {
      forall v | v in arcs && v.sym == s ensures v in r {
        IndexesAgree(arcs, v.from, s, v.to);
      }
    }
    assert forall v | v in r :: v in arcs && v.sym == s by {
      forall v | v in r ensures v in arcs && v.sym == s {
        IndexesAgree(arcs, v.from, s, v.to);
      }
    }
    r
  }

  // ---------------------------------------------------------------------
  // Reachability

  /** Every state of a level is reached from the initial state by a word
      allowed at the steps before it. */
  lemma {:induction false} LayerHasWord(u: Dfa<int>, a: seq<set<Sym>>, t: nat, q: int) returns (w: Word)
    requires t <= |a| && q in Layer(u, a, t)
    ensures Follows(w, a[..t]) && Run(u, w, u.initial) == Some(q)
  {
    if t == 0 {
      w := [];
    } else {
      var p, s := Predecessor(u, a, t, q);
      var v := LayerHasWord(u, a, t - 1, p);
      w := v + [s];
      RunSnoc(u, v, s, u.initial);
      forall j | 0 <= j < |w| ensures w[j] in a[..t][j] {
        if j < t - 1 { assert w[j] == v[j] && a[..t][j] == a[..t - 1][j]; }
      }
    }
  }

  /** Every word allowed at the first steps leads into the level after
      them, unless it gets stuck. */
  lemma {:induction false} WordInLayer(u: Dfa<int>, a: seq<set<Sym>>, w: Word, q: int)
    requires |w| <= |a| && Follows(w, a[..|w|]) && Run(u, w, u.initial) == Some(q)
    ensures q in Layer(u, a, |w|)
    decreases |w|
  {
    if w != [] {
      var v := w[..|w| - 1];
      var s := w[|w| - 1];
      assert w == v + [s];
      RunSnoc(u, v, s, u.initial);
      var p := Run(u, v, u.initial).value;
      assert Follows(v, a[..|v|]) by {
        forall j | 0 <= j < |v| ensures v[j] in a[..|v|][j] { assert v[j] == w[j] && a[..|w|][j] == a[j]; }
      }
      WordInLayer(u, a, v, p);
      assert s in a[|v|] by { assert a[..|w|][|v|] == a[|v|]; }
      LayerStep(u, a, |v|, p, s);
    }
  }

  /** An arc `(q1, s, q2)` is recorded at step `t` exactly when `q1` is
      reachable by a word allowed at the steps before `t`, `s` is allowed at
      `t`, and the unfolded automaton moves from `q1` to `q2` on `s`. */
  lemma ArcsAreReachableTransitions(u: Dfa<int>, a: seq<set<Sym>>, t: nat, v: FlowVar)
    requires t < |a|
    ensures v in Arcs(u, a, t) <==>
      (exists w :: Follows(w, a[..t]) && Run(u, w, u.initial) == Some(v.from))
      && v.sym in a[t] && Next(u, v.from, v.sym) == Some(v.to)
  {
    if v in Arcs(u, a, t) {
      var w := LayerHasWord(u, a, t, v.from);
    }
    if exists w :: Follows(w, a[..t]) && Run(u, w, u.initial) == Some(v.from) {
      var w :| Follows(w, a[..t]) && Run(u, w, u.initial) == Some(v.from);
      WordInLayer(u, a, w, v.from);
    }
  }

  // ---------------------------------------------------------------------
  // The equations as data

  /** A linear equation of the flow model. */
  datatype Constraint =
      /** The flows out of the initial state at step 0 sum to `amount`. */
      Supply(out: set<FlowVar>, amount: int)
      /** At `node` of step `step`, the flows in equal the flows out. */
    | Balance(node: int, step: nat, inflow: set<FlowVar>, outflow: set<FlowVar>)
      /** `x[time, sym]` equals the sum of the flows on `arcs`. */
    | Link(time: int, sym: Sym, arcs: set<FlowVar>)

  /** What `add_regular_constraint` sets up: the unfolded automaton and its
      per-step alphabets, the arcs of each step, the flow bound `number`, the
      earliest time of `x`, and the equations. */
  datatype Network = Network(
    dfa: Dfa<int>,
    alphabets: seq<set<Sym>>,
    layers: seq<set<FlowVar>>,
    number: int,
    start: int,
    supply: Constraint,
    balances: set<Constraint>,
    links: set<Constraint>)

  /** The flow variables: one per arc of any step. */
  function Vars(layers: seq<set<FlowVar>>): (r: set<FlowVar>)
    ensures forall t, v | 0 <= t < |layers| && v in layers[t] :: v in r
    ensures forall v | v in r :: exists t | 0 <= t < |layers| :: v in layers[t]
  {
    set t, v | 0 <= t < |layers| && v in layers[t] :: v
  }

  /** One balance equation for each node with outgoing arcs at each inner
      step `1..T-1`: its arcs in from the previous step against its arcs out. */
  function Balances(layers: seq<set<FlowVar>>): set<Constraint> {
    set t, q | 1 <= t < |layers| && q in DeltaPlus(layers[t]) :: Balance(q, t, InArcs(layers[t - 1], q), OutArcs(layers[t], q))
  }

  /** Every balance equation is that of a node with arcs out at an inner
      step. */
  lemma BalanceShape(layers: seq<set<FlowVar>>, c: Constraint) returns (t: nat, q: int)
    requires c in Balances(layers)
    ensures 1 <= t < |layers| && q in DeltaPlus(layers[t])
    ensures c == Balance(q, t, InArcs(layers[t - 1], q), OutArcs(layers[t], q))
  {
    t, q :| 1 <= t < |layers| && q in DeltaPlus(layers[t]) && c == Balance(q, t, InArcs(layers[t - 1], q), OutArcs(layers[t], q));
  }

  /** One linking equation per key `(t, s)` of `x`, over the arcs labelled
      `s` at step `t - start`. */
  function Links(layers: seq<set<FlowVar>>, start: int, times: set<(int, Sym)>): set<Constraint>
    requires forall k | k in times :: 0 <= k.0 - start < |layers|
  {
    set k | k in times :: Link(k.0, k.1, LabelArcs(layers[k.0 - start], k.1))
  }

  /** The shape every compiled network has, which the decoder relies on. */
  ghost predicate WellFormed(net: Network) {
    && |net.layers| == |net.alphabets| >= 1
    && (forall t {:trigger Arcs(net.dfa, net.alphabets, t)} | 0 <= t < |net.layers| :: net.layers[t] == Arcs(net.dfa, net.alphabets, t))
    && net.supply == Supply(OutArcs(net.layers[0], net.dfa.initial), net.number)
    && net.balances == Balances(net.layers)
    && Stratified(net.dfa, net.alphabets)
  }

  /** What the decoder needs of the unfolded automaton's layering: a state
      is reachable at one step only, a state reachable at an inner step has
      a transition on a symbol allowed there, and every state reachable at
      the horizon accepts. */
  ghost predicate Stratified(u: Dfa<int>, a: seq<set<Sym>>) {
    && (forall t1, t2, q | 0 <= t1 <= |a| && 0 <= t2 <= |a| && q in Layer(u, a, t1) && q in Layer(u, a, t2) :: t1 == t2)
    && (forall t, q | 0 < t < |a| && q in Layer(u, a, t) :: exists s :: s in a[t] && (q, s) in u.delta)
    && (forall q | q in Layer(u, a, |a|) :: q in u.accepting)
  }

  /** Under layering, a state reachable at step `t` sits at step `t`. */
  lemma {:induction false} LevelAtStep(u: Dfa<int>, a: seq<set<Sym>>, layer: map<int, nat>, t: nat, q: int)
    requires Layered(u, a, layer) && t <= |a| && q in Layer(u, a, t)
    ensures q in u.states && layer[q] == t
  {
    if t > 0 {
      var p, s := Predecessor(u, a, t, q);
      LevelAtStep(u, a, layer, t - 1, p);
      assert (p, s) in u.delta;
    }
  }

  /** A time-expanded automaton, such as `unfold` returns, is stratified. */
  lemma LayeredStratified(u: Dfa<int>, a: seq<set<Sym>>, layer: map<int, nat>)
    requires Layered(u, a, layer)
    ensures Stratified(u, a)
  {
    forall t1, t2, q | 0 <= t1 <= |a| && 0 <= t2 <= |a| && q in Layer(u, a, t1) && q in Layer(u, a, t2)
      ensures t1 == t2
    {
      LevelAtStep(u, a, layer, t1, q);
      LevelAtStep(u, a, layer, t2, q);
    }
    forall t, q | 0 < t < |a| && q in Layer(u, a, t) ensures exists s :: s in a[t] && (q, s) in u.delta {
      LevelAtStep(u, a, layer, t, q);
      var s :| (q, s) in u.delta;
      assert s in a[layer[q]];
    }
    forall q | q in Layer(u, a, |a|) ensures q in u.accepting {
      LevelAtStep(u, a, layer, |a|, q);
    }
  }

  /** Why `add_regular_constraint` raises. */
  datatype CompileError =
      /** `min` over the keys of an empty `x`. */
      NoDecisionVariables
      /** `delta_plus[0]` with a horizon of 0 steps. */
    | EmptyHorizon
      /** `sigma[t - start]` past the last step. */
    | TimeOutsideHorizon(time: int)

  /** `min(t for t, _ in x.keys())`. */
  method Earliest(keys: set<(int, Sym)>) returns (m: int)
    requires keys != {}
    ensures (exists k | k in keys :: k.0 == m) && forall k | k in keys :: m <= k.0
  {
    var k0 :| k0 in keys;
    m := k0.0;
    var rest := keys - {k0};
    while rest != {}
      invariant rest <= keys
      invariant exists k | k in keys :: k.0 == m
      invariant forall k | k in keys - rest :: m <= k.0
      decreases |rest|
    {
      var k :| k in rest;
      if k.0 < m { m := k.0; }
      rest := rest - {k};
    }
  }

  /** `add_regular_constraint(x, number, sequence, dfa)` with `x` given by its
      keys and `dfa` the already intersected automaton. It fails exactly when
      `x` has no keys, the horizon has no step, or two times of `x` lie a
      horizon or more apart; otherwise the network is well formed, its
      automaton accepts exactly the words of `dfa` allowed step by step, its
      arcs are those of the reachable states, and every key of `x` is linked
      to the arcs of its symbol at its step. */
  method AddRegularConstraint<S(==)>(d: Dfa<S>, h: Horizon, number: int, keys: set<(int, Sym)>)
    returns (r: Result<Network, CompileError>)
    requires Valid(d)
    ensures keys == {} <==> r == Err(NoDecisionVariables)
    ensures keys != {} && |StepAlphabets(d, h)| == 0 <==> r == Err(EmptyHorizon)
    ensures r.Err? && r.error.TimeOutsideHorizon? ==>
      keys != {} && |StepAlphabets(d, h)| >= 1
      && exists k1, k2 | k1 in keys && k2 in keys :: k1.0 == r.error.time && k1.0 - k2.0 >= |StepAlphabets(d, h)|
    ensures r.Ok? <==> keys != {} && forall k1, k2 | k1 in keys && k2 in keys :: k1.0 - k2.0 < |StepAlphabets(d, h)|
    ensures r.Ok? ==> var net := r.value;
      && WellFormed(net)
      && net.alphabets == StepAlphabets(d, h) && net.number == number
      && (forall w :: Accepts(net.dfa, w) <==> Follows(w, net.alphabets) && Accepts(d, w))
      && (exists k | k in keys :: k.0 == net.start) && (forall k | k in keys :: net.start <= k.0 < net.start + |net.layers|)
      && net.links == Links(net.layers, net.start, keys)
  {
    var u := Unfold(d, h);
    var a := StepAlphabets(d, h);
    if keys == {} {
      return Err(NoDecisionVariables);
    }
    var start := Earliest(keys);
    if |a| == 0 {
      return Err(EmptyHorizon);
    }
    if exists k | k in keys :: k.0 - start >= |a| {
      var k :| k in keys && k.0 - start >= |a|;
      return Err(TimeOutsideHorizon(k.0));
    }
    ghost var layer :| Layered(u, a, layer);
    LayeredStratified(u, a, layer);
    var net := Assemble(u, a, number, start, keys);
    return Ok(net);
  }

  /** The network of a stratified automaton over a non-empty horizon: the
      arc layers, the supply out of the initial state, one balance per inner
      node and one link per decision variable. */
  function Assemble(u: Dfa<int>, a: seq<set<Sym>>, number: int, start: int, keys: set<(int, Sym)>): (net: Network)
    requires |a| >= 1 && Stratified(u, a)
    requires forall k | k in keys :: 0 <= k.0 - start < |a|
    ensures WellFormed(net)
    ensures net.dfa == u && net.alphabets == a && net.number == number && net.start == start
    ensures net.links == Links(net.layers, start, keys)
  {
    var layers := seq(|a|, t requires 0 <= t < |a| => Arcs(u, a, t));
    Network(u, a, layers, number, start,
      Supply(OutArcs(layers[0], u.initial), number), Balances(layers), Links(layers, start, keys))
  }
}

=== FILE: groups.dfy ===
/** The argument handling the rule builders share: each symbol argument
    becomes a tuple of symbols (a string stands for one symbol, not for its
    characters), the alphabet is the union of the groups, and missing bound
    lists take their defaults. */
module RuleGroups {
  import opened Wrappers
  import opened Automata
  import opened Bounds

  /** A symbol argument: one symbol given as a string, or a collection of
      symbols. */
  datatype GroupArg = One(symbol: Sym) | Several(symbols: seq<Sym>)

  /** The `IndexError` a builder raises when it reads a bound list or the
      symbol arguments past their end. */
  datatype ReadError = ReadPastEnd

  /** `tuple(k) if type(k) != str else (k,)`. */
  function Normalise(arg: GroupArg): seq<Sym> {
    match arg
    case One(s) => [s]
    case Several(xs) => xs
  }

  /** Every symbol argument, normalised in place. */
  function NormaliseAll(args: seq<GroupArg>): seq<seq<Sym>> {
    seq(|args|, i requires 0 <= i < |args| => Normalise(args[i]))
  }

  /** `set(s for k in symbols for s in k)`. */
  function GroupAlphabet(groups: seq<seq<Sym>>): set<Sym> {
    set i, s | 0 <= i < |groups| && s in groups[i] :: s
  }

  /** The first group holding `s`, if any. */
  function GroupIndex(groups: seq<seq<Sym>>, s: Sym): (r: Option<nat>)
    ensures r.Some? ==> r.value < |groups| && s in groups[r.value] && forall j | 0 <= j < r.value :: s !in groups[j]
    ensures r.None? ==> forall j | 0 <= j < |groups| :: s !in groups[j]
    decreases |groups|
  {
    if |groups| == 0 then None
    else if s in groups[|groups| - 1] then
      match GroupIndex(groups[..|groups| - 1], s)
      case Some(i) => Some(i)
      case None => Some(|groups| - 1)
    else GroupIndex(groups[..|groups| - 1], s)
  }

  /** The alphabet holds exactly the symbols that belong to a group. */
  lemma AlphabetIsGrouped(groups: seq<seq<Sym>>, s: Sym)
    ensures s in GroupAlphabet(groups) <==> GroupIndex(groups, s).Some?
  {
    if GroupIndex(groups, s).Some? {
      var i := GroupIndex(groups, s).value;
      assert s in groups[i];
    }
  }

  /** A string argument is one symbol, not the characters of the string:
      the alphabet of the normalised arguments holds exactly the symbols the
      arguments name. */
  lemma NormalisedAlphabet(args: seq<GroupArg>, s: Sym)
    ensures s in GroupAlphabet(NormaliseAll(args)) <==>
      exists i | 0 <= i < |args| :: (args[i].One? && args[i].symbol == s) || (args[i].Several? && s in args[i].symbols)
  {
    var groups := NormaliseAll(args);
    if s in GroupAlphabet(groups) {
      var i :| 0 <= i < |groups| && s in groups[i];
      assert groups[i] == Normalise(args[i]);
    }
    if exists i | 0 <= i < |args| :: (args[i].One? && args[i].symbol == s) || (args[i].Several? && s in args[i].symbols) {
      var i :| 0 <= i < |args| && ((args[i].One? && args[i].symbol == s) || (args[i].Several? && s in args[i].symbols));
      assert s in groups[i];
    }
  }

  /** No symbol belongs to two groups. */
  predicate Disjoint(groups: seq<seq<Sym>>) {
    forall i, j, s | 0 <= i < j < |groups| && s in groups[i] :: s !in groups[j]
  }

  /** No group is listed twice: the source keys its bound dictionaries by
      group, so a repeated group would silently merge. */
  predicate Distinct(groups: seq<seq<Sym>>) {
    forall i, j | 0 <= i < j < |groups| :: groups[i] != groups[j]
  }

  /** In disjoint groups, the group of a symbol is the one holding it. */
  lemma DisjointIndex(groups: seq<seq<Sym>>, i: nat, s: Sym)
    requires Disjoint(groups) && i < |groups| && s in groups[i]
    ensures GroupIndex(groups, s) == Some(i)
  {
  }

  /** `if not lower_bounds: lower_bounds = (default,) * len(symbols)`; a
      given list is read at the first `n` positions. */
  function BoundsOr<T>(given: seq<T>, n: nat, default: T): seq<T>
    requires given == [] || |given| >= n
  {
    if given == [] then seq(n, _ => default) else given[..n]
  }
}

=== FILE: mask.dfy ===
/** `mask(dfa, binary_mask)`, the periodic-mask operation: a phase counter
    runs along the mask, and the automaton reads only the symbols that fall
    on a "1" of the mask; at a "0" it stays where it is. */
module PeriodicMask {
  import opened Wrappers
  import opened Automata
  import opened Worklist
  import opened Construction

  /** Indexing an empty mask raises as soon as a symbol is tried. */
  datatype MaskError = EmptyMask

  /** One step of the worklist from `(q, l)` on `s`. */
  function MaskStep<S(==)>(d: Dfa<S>, m: string, st: (S, int), s: Sym): Option<(S, int)> {
    if s !in d.alphabet || !(0 <= st.1 < |m|) then None
    else
      var next := if m[st.1] == '1' then Next(d, st.0, s) else Some(st.0);
      match next
      case None => None
      case Some(p) => Some((p, (st.1 + 1) % |m|))
  }

  /** The symbols of `w` that fall on a "1" of the mask, the first symbol
      being read at phase `l`. */
  function Masked(w: Word, m: string, l: int): (r: Word)
    requires 0 <= l < |m|
    ensures |r| <= |w|
    decreases |w|
  {
    if w == [] then []
    else (if m[l] == '1' then [w[0]] else []) + Masked(w[1..], m, (l + 1) % |m|)
  }

  /** The masked word of `mask`'s language; an empty mask reads nothing. */
  function MaskedWord(w: Word, m: string): Word {
    if |m| == 0 then [] else Masked(w, m, 0)
  }

  /** From `(q, l)`, the worklist step runs through `w` exactly when every
      symbol is in the alphabet and `d` runs through the masked word from
      `q`; it then stops at the state `d` reaches, with a phase of the mask. */
  lemma {:induction false} MaskRun<S>(d: Dfa<S>, m: string, w: Word, q: S, l: int)
    requires 0 <= l < |m|
    ensures RunStep((st, s) => MaskStep(d, m, st, s), w, (q, l)).Some? <==>
      AllIn(w, d.alphabet) && Run(d, Masked(w, m, l), q).Some?
    ensures RunStep((st, s) => MaskStep(d, m, st, s), w, (q, l)).Some? ==>
      RunStep((st, s) => MaskStep(d, m, st, s), w, (q, l)).value.0 == Run(d, Masked(w, m, l), q).value &&
      0 <= RunStep((st, s) => MaskStep(d, m, st, s), w, (q, l)).value.1 < |m|
    decreases |w|
  {
    var step := (st, s) => MaskStep(d, m, st, s);
    if w != [] {
      var s := w[0];
      var l' := (l + 1) % |m|;
      var rest := Masked(w[1..], m, l');
      AllInCons(w, d.alphabet);
      if s in d.alphabet {
        if m[l] == '1' {
          assert Masked(w, m, l) == [s] + rest;
          assert ([s] + rest)[1..] == rest;
          match Next(d, q, s) {
            case None =>
            case Some(p) => MaskRun(d, m, w[1..], p, l');
          }
        } else {
          assert Masked(w, m, l) == rest;
          MaskRun(d, m, w[1..], q, l');
        }
      }
    }
  }

  /** The states a run can visit: a state of `d` and a phase of the mask. */
  function MaskUniverse<S(==)>(d: Dfa<S>, m: string): set<(S, int)> {
    set q, l | q in d.states && 0 <= l < |m| :: (q, l)
  }

  lemma MaskClosed<S>(d: Dfa<S>, m: string)
    requires Valid(d)
    ensures Closed(MaskUniverse(d, m), d.alphabet, (st, s) => MaskStep(d, m, st, s))
  {
    forall st, s | st in MaskUniverse(d, m) && MaskStep(d, m, st, s).Some?
      ensures s in d.alphabet && MaskStep(d, m, st, s).value in MaskUniverse(d, m)
    {
      var p := MaskStep(d, m, st, s).value;
      assert p == (p.0, p.1);
    }
  }

  /** `mask(dfa, binary_mask)`: a word is accepted exactly when all its
      symbols are in the alphabet and `d` accepts its masked word. An empty
      mask fails as soon as there is a symbol to try. */
  method Mask<S(==)>(d: Dfa<S>, m: string) returns (r: Result<Dfa<int>, MaskError>)
    requires Valid(d)
    ensures r.Err? <==> |m| == 0 && d.alphabet != {}
    ensures r.Ok? ==> Valid(r.value) && r.value.initial == 1 && r.value.alphabet == d.alphabet
    ensures r.Ok? ==> forall w :: Accepts(r.value, w) <==> AllIn(w, d.alphabet) && Accepts(d, MaskedWord(w, m))
  {
    if |m| == 0 && d.alphabet != {} {
      return Err(EmptyMask);
    }
    var step := (st, s) => MaskStep(d, m, st, s);
    var accept := (st: (S, int)) => st.0 in d.accepting;
    ghost var universe := if |m| == 0 then {(d.initial, 0)} else MaskUniverse(d, m);
    if |m| > 0 {
      MaskClosed(d, m);
    }
    var u := Build(d.alphabet, (d.initial, 0), step, accept, universe);
    r := Ok(u);
    forall w ensures Accepts(u, w) <==> AllIn(w, d.alphabet) && Accepts(d, MaskedWord(w, m)) {
      if |m| > 0 {
        MaskRun(d, m, w, d.initial, 0);
      } else if w != [] {
        assert !AllIn(w, d.alphabet) by { assert w[0] !in d.alphabet; }
      }
    }
  }
}

=== FILE: pattern.dfy ===
/** `pattern(symbols, sequence, lower_bounds, upper_bounds)`: the word is a
    succession of phases, one per group of `sequence`, each a run of that
    group's symbols whose length lies within the phase's bounds. */
module Pattern {
  import opened Wrappers
  import opened Automata
  import opened Bounds
  import opened RuleGroups
  import opened Construction
  import opened Renaming

  /** `(-1, inf)` before the first symbol, or `(i, m)`: in phase `i` after a
      run of `m` symbols (saturated at `maxi`). */
  datatype PatternState = Start | Phase(index: nat, run: int)

  /** What the builder needs of its bounds: at least one phase, a bound
      pair per phase, every phase able to hold a run of 1 (`maxi >= 1`, else
      the first symbol of the phase would lead to a state that is not
      listed), and a last phase whose lower bound is at least 1 (else an
      accepting `(i, 0)` would not be a state). */
  predicate Saturating(lower: seq<int>, upper: seq<Bound>) {
    && |lower| >= 1 && |upper| == |lower|
    && (forall i | 0 <= i < |lower| :: Saturation(lower[i], upper[i]) >= 1)
    && lower[|lower| - 1] >= 1
  }

  /** The same, with one symbol group per phase. */
  predicate Sensible(phases: seq<seq<Sym>>, lower: seq<int>, upper: seq<Bound>) {
    |lower| == |phases| && Saturating(lower, upper)
  }

  /** `(-1, inf)` and `(i, m)` for every phase and `1 <= m <= maxi`. */
  function PatternStates(lower: seq<int>, upper: seq<Bound>): set<PatternState>
    requires |lower| == |upper|
  {
    {Start} + set i, m | 0 <= i < |lower| && m in Interval(1, Saturation(lower[i], upper[i])) :: Phase(i, m)
  }

  /** `(last, m)` for `lower_last <= m <= maxi_last`. */
  function PatternFinals(lower: seq<int>, upper: seq<Bound>): set<PatternState>
    requires 1 <= |lower| == |upper|
  {
    var last := |lower| - 1;
    set m | m in Interval(lower[last], Saturation(lower[last], upper[last])) :: Phase(last, m)
  }

  lemma StatesMembers(lower: seq<int>, upper: seq<Bound>, q: PatternState)
    requires 1 <= |lower| == |upper|
    ensures q in PatternStates(lower, upper) <==>
      q.Start? || (q.index < |lower| && 1 <= q.run <= Saturation(lower[q.index], upper[q.index]))
    ensures q in PatternFinals(lower, upper) <==>
      q.Phase? && q.index == |lower| - 1 && lower[q.index] <= q.run <= Saturation(lower[q.index], upper[q.index])
  {
  }

  /** The transition dictionary of the source. From `(i, m)` on a symbol of
      phase `i`, while `m < upper_i`, the run continues (saturating at
      `maxi_i`); this entry is merged last and wins. Otherwise, on a symbol
      of phase `i + 1`, once `m >= lower_i`, the next phase starts with a run
      of 1. From `(-1, inf)` only the advance to phase 0 applies: the source
      reads `lower_bounds[-1]`, which infinity always meets, and
      `upper_bounds[-1]`, which infinity never is below. */
  function PatternStep(phases: seq<seq<Sym>>, lower: seq<int>, upper: seq<Bound>, q: PatternState, s: Sym): (r: Option<PatternState>)
    requires |lower| == |phases| && |upper| == |phases|
    ensures r.Some? ==> r.value.Phase? && (q.Start? || q.run >= 1 ==> r.value.run >= 1)
    ensures q.Start? ==> (r.Some? <==> |phases| > 0 && s in phases[0]) && (r.Some? ==> r.value == Phase(0, 1))
    ensures r.Some? && q.Phase? && r.value.index == q.index ==>
      q.index < |phases| && s in phases[q.index] && upper[q.index].Exceeds(q.run) && q.run <= r.value.run <= q.run + 1
      && r.value.run <= (if q.run < Saturation(lower[q.index], upper[q.index]) then Saturation(lower[q.index], upper[q.index]) else q.run)
    ensures r.Some? && q.Phase? && r.value.index != q.index ==>
      r.value == Phase(q.index + 1, 1) && q.index + 1 < |phases| && q.run >= lower[q.index] && s in phases[q.index + 1]
    ensures q.Phase? && q.index < |phases| && s in phases[q.index] && upper[q.index].Exceeds(q.run) ==>
      r.Some? && r.value.index == q.index
  {
    match q
    case Start => if |phases| > 0 && s in phases[0] then Some(Phase(0, 1)) else None
    case Phase(i, m) =>
      if i < |phases| && s in phases[i] && upper[i].Exceeds(m) then
        Some(Phase(i, m + (if m < Saturation(lower[i], upper[i]) then 1 else 0)))
      else if i + 1 < |phases| && m >= lower[i] && s in phases[i + 1] then Some(Phase(i + 1, 1))
      else None
  }

  /** The automaton the builder writes out before renaming; its alphabet is
      that of `symbols`, while its transitions are on the symbols of the
      phases. */
  function PatternTable(alphabet: set<Sym>, phases: seq<seq<Sym>>, lower: seq<int>, upper: seq<Bound>): Dfa<PatternState>
    requires 1 <= |phases| && |lower| == |phases| && |upper| == |phases|
  {
    var states := PatternStates(lower, upper);
    Dfa(alphabet, states, Start,
      Tabulate(states, GroupAlphabet(phases), (q, s) => PatternStep(phases, lower, upper, q, s)),
      PatternFinals(lower, upper))
  }

  lemma PatternStepStays(phases: seq<seq<Sym>>, lower: seq<int>, upper: seq<Bound>, q: PatternState, s: Sym)
    requires Sensible(phases, lower, upper)
    requires q in PatternStates(lower, upper) && PatternStep(phases, lower, upper, q, s).Some?
    ensures s in GroupAlphabet(phases) && PatternStep(phases, lower, upper, q, s).value in PatternStates(lower, upper)
  {
    var p := PatternStep(phases, lower, upper, q, s).value;
    StatesMembers(lower, upper, q);
    StatesMembers(lower, upper, p);
    if q.Start? {
      assert s in phases[0];
    } else if p.index == q.index {
      StaysInPhase(phases, lower, upper, q, s);
    } else {
      assert s in phases[q.index + 1];
    }
  }

  /** Staying in a phase keeps the run within `1..maxi`. */
  lemma StaysInPhase(phases: seq<seq<Sym>>, lower: seq<int>, upper: seq<Bound>, q: PatternState, s: Sym)
    requires Sensible(phases, lower, upper) && q.Phase? && q.index < |phases| && q.run >= 1
    requires q.run <= Saturation(lower[q.index], upper[q.index])
    requires PatternStep(phases, lower, upper, q, s).Some? && PatternStep(phases, lower, upper, q, s).value.index == q.index
    ensures s in phases[q.index]
    ensures 1 <= PatternStep(phases, lower, upper, q, s).value.run <= Saturation(lower[q.index], upper[q.index])
  {
  }

  lemma TableClosed(alphabet: set<Sym>, phases: seq<seq<Sym>>, lower: seq<int>, upper: seq<Bound>)
    requires Sensible(phases, lower, upper)
    ensures var t := PatternTable(alphabet, phases, lower, upper);
      Closed(t.states, GroupAlphabet(phases), (q, s) => PatternStep(phases, lower, upper, q, s))
      && t.initial in t.states && t.accepting <= t.states
  {
    StatesClosed(phases, lower, upper);
  }

  /** The states are closed under the step, hold the start state and every
      accepting state. */
  lemma StatesClosed(phases: seq<seq<Sym>>, lower: seq<int>, upper: seq<Bound>)
    requires Sensible(phases, lower, upper)
    ensures Closed(PatternStates(lower, upper), GroupAlphabet(phases), (q, s) => PatternStep(phases, lower, upper, q, s))
    ensures Start in PatternStates(lower, upper) && PatternFinals(lower, upper) <= PatternStates(lower, upper)
  {
    StepsStay(phases, lower, upper);
  }

  /** Every step from a state leads to a state, on a symbol of a phase; the
      start and accepting states are states. */
  lemma StepsStay(phases: seq<seq<Sym>>, lower: seq<int>, upper: seq<Bound>)
    requires Sensible(phases, lower, upper)
    ensures forall q, s | q in PatternStates(lower, upper) && PatternStep(phases, lower, upper, q, s).Some? ::
      s in GroupAlphabet(phases) && PatternStep(phases, lower, upper, q, s).value in PatternStates(lower, upper)
    ensures Start in PatternStates(lower, upper) && PatternFinals(lower, upper) <= PatternStates(lower, upper)
  {
    forall q, s | q in PatternStates(lower, upper) && PatternStep(phases, lower, upper, q, s).Some?
      ensures s in GroupAlphabet(phases) && PatternStep(phases, lower, upper, q, s).value in PatternStates(lower, upper)
    {
      PatternStepStays(phases, lower, upper, q, s);
    }
    forall q | q in PatternFinals(lower, upper) ensures q in PatternStates(lower, upper) {
      StatesMembers(lower, upper, q);
    }
  }

  // ---------------------------------------------------------------------
  // The phase language

  /** Consecutive phases share no symbol, so each symbol says whether the
      phase continues or the next one starts. */
  ghost predicate AdjacentDisjoint(phases: seq<seq<Sym>>) {
    forall i, j, s | 0 <= i && j == i + 1 && j < |phases| && s in phases[i] :: s !in phases[j]
  }

  /** Every symbol of `x` belongs to `g`. */
  predicate Over(x: Word, g: seq<Sym>) {
    forall j | 0 <= j < |x| :: x[j] in g
  }

  /** The first `k` symbols of `w` are phase `i`'s and finish its block,
      which already holds `l` symbols, within the phase's bounds. */
  predicate Fits(phases: seq<seq<Sym>>, lower: seq<int>, upper: seq<Bound>, i: nat, l: int, w: Word, k: int)
    requires |lower| == |phases| && |upper| == |phases| && i < |phases|
  {
    0 <= k <= |w| && lower[i] <= l + k && upper[i].Admits(l + k) && Over(w[..k], phases[i])
  }

  /** The specification: `w` splits into one nonempty block per phase from
      `i` on, block `j` made of phase `j`'s symbols and its length within
      phase `j`'s bounds. */
  ghost predicate Blocks(phases: seq<seq<Sym>>, lower: seq<int>, upper: seq<Bound>, i: nat, w: Word)
    requires |lower| == |phases| && |upper| == |phases| && i <= |phases|
    decreases |phases| - i
  {
    if i == |phases| then w == []
    else exists k | 1 <= k :: Fits(phases, lower, upper, i, 0, w, k) && Blocks(phases, lower, upper, i + 1, w[k..])
  }

  /** The first `k` symbols of `w` finish the block of phase `i`, and the
      rest splits into the later phases. */
  ghost predicate Splits(phases: seq<seq<Sym>>, lower: seq<int>, upper: seq<Bound>, i: nat, l: int, w: Word, k: int)
    requires |lower| == |phases| && |upper| == |phases| && i < |phases|
  {
    Fits(phases, lower, upper, i, l, w, k) && Blocks(phases, lower, upper, i + 1, w[k..])
  }

  /** `w` finishes phase `i`, whose block already holds `l` symbols, and
      then splits into the blocks of the later phases. */
  ghost predicate Continues(phases: seq<seq<Sym>>, lower: seq<int>, upper: seq<Bound>, i: nat, l: int, w: Word)
    requires |lower| == |phases| && |upper| == |phases| && i < |phases|
  {
    exists k :: Splits(phases, lower, upper, i, l, w, k)
  }

  lemma BlocksSplits(phases: seq<seq<Sym>>, lower: seq<int>, upper: seq<Bound>, i: nat, w: Word)
    requires |lower| == |phases| && |upper| == |phases| && i < |phases|
    ensures Blocks(phases, lower, upper, i, w) <==> exists k | 1 <= k :: Splits(phases, lower, upper, i, 0, w, k)
  {
    if Blocks(phases, lower, upper, i, w) {
      var k :| 1 <= k && Fits(phases, lower, upper, i, 0, w, k) && Blocks(phases, lower, upper, i + 1, w[k..]);
      assert Splits(phases, lower, upper, i, 0, w, k);
    }
    if exists k | 1 <= k :: Splits(phases, lower, upper, i, 0, w, k) {
      var k :| 1 <= k && Splits(phases, lower, upper, i, 0, w, k);
      assert Fits(phases, lower, upper, i, 0, w, k) && Blocks(phases, lower, upper, i + 1, w[k..]);
    }
  }

  lemma OverCons(s: Sym, v: Word, g: seq<Sym>)
    ensures Over([s] + v, g) <==> s in g && Over(v, g)
  {
    if Over([s] + v, g) {
      assert ([s] + v)[0] == s;
      forall j | 0 <= j < |v| ensures v[j] in g { assert v[j] == ([s] + v)[j + 1]; }
    }
  }

  /** Taking one more symbol into the block of phase `i`. */
  lemma SplitsCons(phases: seq<seq<Sym>>, lower: seq<int>, upper: seq<Bound>, i: nat, l: int, s: Sym, w: Word, k: int)
    requires |lower| == |phases| && |upper| == |phases| && i < |phases| && 1 <= k
    ensures Splits(phases, lower, upper, i, l, [s] + w, k) <==>
      s in phases[i] && Splits(phases, lower, upper, i, l + 1, w, k - 1)
  {
    var x := [s] + w;
    if k <= |x| {
      assert x[k..] == w[k - 1..];
      assert x[..k] == [s] + w[..k - 1];
      OverCons(s, w[..k - 1], phases[i]);
    }
  }

  /** Phase `i` begins with `s`, and the rest continues it. */
  lemma BlocksCons(phases: seq<seq<Sym>>, lower: seq<int>, upper: seq<Bound>, i: nat, s: Sym, w: Word)
    requires |lower| == |phases| && |upper| == |phases| && i < |phases|
    ensures Blocks(phases, lower, upper, i, [s] + w) <==> s in phases[i] && Continues(phases, lower, upper, i, 1, w)
  {
    BlocksSplits(phases, lower, upper, i, [s] + w);
    if Blocks(phases, lower, upper, i, [s] + w) {
      BlocksConsFirst(phases, lower, upper, i, s, w);
    }
    if s in phases[i] && Continues(phases, lower, upper, i, 1, w) {
      BlocksConsRest(phases, lower, upper, i, s, w);
    }
  }

  lemma BlocksConsFirst(phases: seq<seq<Sym>>, lower: seq<int>, upper: seq<Bound>, i: nat, s: Sym, w: Word)
    requires |lower| == |phases| && |upper| == |phases| && i < |phases|
    requires exists k | 1 <= k :: Splits(phases, lower, upper, i, 0, [s] + w, k)
    ensures s in phases[i] && Continues(phases, lower, upper, i, 1, w)
  {
    var k :| 1 <= k && Splits(phases, lower, upper, i, 0, [s] + w, k);
    SplitsCons(phases, lower, upper, i, 0, s, w, k);
  }

  lemma BlocksConsRest(phases: seq<seq<Sym>>, lower: seq<int>, upper: seq<Bound>, i: nat, s: Sym, w: Word)
    requires |lower| == |phases| && |upper| == |phases| && i < |phases|
    requires s in phases[i] && Continues(phases, lower, upper, i, 1, w)
    ensures exists k | 1 <= k :: Splits(phases, lower, upper, i, 0, [s] + w, k)
  {
    var k :| Splits(phases, lower, upper, i, 1, w, k);
    SplitsCons(phases, lower, upper, i, 0, s, w, k + 1);
  }

  /** A phase's symbol cannot start the next phase. */
  lemma NoNextBlock(phases: seq<seq<Sym>>, lower: seq<int>, upper: seq<Bound>, i: nat, s: Sym, w: Word)
    requires |lower| == |phases| && |upper| == |phases| && i < |phases| && AdjacentDisjoint(phases)
    requires s in phases[i]
    ensures !Blocks(phases, lower, upper, i + 1, [s] + w)
  {
    if i + 1 < |phases| {
      assert s !in phases[i + 1];
      BlocksCons(phases, lower, upper, i + 1, s, w);
    }
  }

  /** A symbol of phase `i` extends its block. */
  lemma ContinuesCons(phases: seq<seq<Sym>>, lower: seq<int>, upper: seq<Bound>, i: nat, l: int, s: Sym, w: Word)
    requires |lower| == |phases| && |upper| == |phases| && i < |phases| && AdjacentDisjoint(phases)
    requires s in phases[i]
    ensures Continues(phases, lower, upper, i, l, [s] + w) <==> Continues(phases, lower, upper, i, l + 1, w)
  {
    if Continues(phases, lower, upper, i, l, [s] + w) {
      var k :| Splits(phases, lower, upper, i, l, [s] + w, k);
      assert k != 0 by {
        if k == 0 {
          assert ([s] + w)[0..] == [s] + w;
          NoNextBlock(phases, lower, upper, i, s, w);
        }
      }
      SplitsCons(phases, lower, upper, i, l, s, w, k);
    }
    if Continues(phases, lower, upper, i, l + 1, w) {
      var k :| Splits(phases, lower, upper, i, l + 1, w, k);
      SplitsCons(phases, lower, upper, i, l, s, w, k + 1);
    }
  }

  /** A symbol outside phase `i` closes its block: the word continues only
      as the later phases. */
  lemma ContinuesClose(phases: seq<seq<Sym>>, lower: seq<int>, upper: seq<Bound>, i: nat, l: int, s: Sym, w: Word)
    requires |lower| == |phases| && |upper| == |phases| && i < |phases|
    requires s !in phases[i]
    ensures Continues(phases, lower, upper, i, l, [s] + w) <==>
      lower[i] <= l && upper[i].Admits(l) && Blocks(phases, lower, upper, i + 1, [s] + w)
  {
    var x := [s] + w;
    if Continues(phases, lower, upper, i, l, x) {
      var k :| Splits(phases, lower, upper, i, l, x, k);
      if k > 0 { SplitsCons(phases, lower, upper, i, l, s, w, k); }
      assert x[0..] == x;
    }
    if lower[i] <= l && upper[i].Admits(l) && Blocks(phases, lower, upper, i + 1, x) {
      assert x[..0] == [] && x[0..] == x;
      assert Splits(phases, lower, upper, i, l, x, 0);
    }
  }

  /** A block already past the upper bound cannot be finished. */
  lemma NoContinuationPastUpper(phases: seq<seq<Sym>>, lower: seq<int>, upper: seq<Bound>, i: nat, l: int, w: Word)
    requires |lower| == |phases| && |upper| == |phases| && i < |phases| && !upper[i].Admits(l)
    ensures !Continues(phases, lower, upper, i, l, w)
  {
  }

  /** Running `w` from `q` ends in an accepting state of the builder's
      automaton. */
  ghost predicate AcceptsAfter(phases: seq<seq<Sym>>, lower: seq<int>, upper: seq<Bound>, q: PatternState, w: Word)
    requires 1 <= |phases| && |lower| == |phases| && |upper| == |phases|
  {
    var r := RunStep((q, s) => PatternStep(phases, lower, upper, q, s), w, q);
    r.Some? && r.value in PatternFinals(lower, upper)
  }

  lemma AcceptsAfterCons(phases: seq<seq<Sym>>, lower: seq<int>, upper: seq<Bound>, q: PatternState, s: Sym, w: Word)
    requires 1 <= |phases| && |lower| == |phases| && |upper| == |phases|
    ensures AcceptsAfter(phases, lower, upper, q, [s] + w) <==>
      var p := PatternStep(phases, lower, upper, q, s);
      p.Some? && AcceptsAfter(phases, lower, upper, p.value, w)
  {
    assert ([s] + w)[0] == s && ([s] + w)[1..] == w;
  }

  /** The empty rest: accepting exactly in the last phase with its lower
      bound met. */
  lemma PhaseLanguageEmpty(phases: seq<seq<Sym>>, lower: seq<int>, upper: seq<Bound>, i: nat, l: int)
    requires Sensible(phases, lower, upper)
    requires i < |phases| && 1 <= l && upper[i].Admits(l)
    ensures AcceptsAfter(phases, lower, upper, Phase(i, Saturated(lower[i], upper[i], l)), []) <==>
      Continues(phases, lower, upper, i, l, [])
  {
    var w: Word := [];
    SaturatedWithin(lower[i], upper[i], l);
    StatesMembers(lower, upper, Phase(i, Saturated(lower[i], upper[i], l)));
    if Continues(phases, lower, upper, i, l, w) {
      var k :| Splits(phases, lower, upper, i, l, w, k);
      assert k == 0 && w[0..] == [];
    }
    if i + 1 == |phases| && lower[i] <= l {
      assert w[..0] == [] && w[0..] == [];
      assert Splits(phases, lower, upper, i, l, w, 0);
    }
  }

  /** A symbol of phase `i` from `(i, m)`. */
  lemma PhaseLanguageOwn(phases: seq<seq<Sym>>, lower: seq<int>, upper: seq<Bound>, i: nat, l: int, s: Sym, w: Word)
    requires Sensible(phases, lower, upper) && AdjacentDisjoint(phases)
    requires i < |phases| && 1 <= l && upper[i].Admits(l) && s in phases[i]
    requires upper[i].Admits(l + 1) ==>
      (AcceptsAfter(phases, lower, upper, Phase(i, Saturated(lower[i], upper[i], l + 1)), w) <==>
       Continues(phases, lower, upper, i, l + 1, w))
    ensures AcceptsAfter(phases, lower, upper, Phase(i, Saturated(lower[i], upper[i], l)), [s] + w) <==>
      Continues(phases, lower, upper, i, l, [s] + w)
  {
    AcceptsAfterCons(phases, lower, upper, Phase(i, Saturated(lower[i], upper[i], l)), s, w);
    ContinuesCons(phases, lower, upper, i, l, s, w);
    SaturatedStep(lower[i], upper[i], l);
    if !upper[i].Admits(l + 1) {
      NoContinuationPastUpper(phases, lower, upper, i, l + 1, w);
      if i + 1 < |phases| { assert s !in phases[i + 1]; }
    }
  }

  /** A symbol outside phase `i` from `(i, m)`. */
  lemma PhaseLanguageOther(phases: seq<seq<Sym>>, lower: seq<int>, upper: seq<Bound>, i: nat, l: int, s: Sym, w: Word)
    requires Sensible(phases, lower, upper)
    requires i < |phases| && 1 <= l && upper[i].Admits(l) && s !in phases[i]
    requires i + 1 < |phases| ==>
      (AcceptsAfter(phases, lower, upper, Phase(i + 1, 1), w) <==> Continues(phases, lower, upper, i + 1, 1, w))
    ensures AcceptsAfter(phases, lower, upper, Phase(i, Saturated(lower[i], upper[i], l)), [s] + w) <==>
      Continues(phases, lower, upper, i, l, [s] + w)
  {
    var sat := Saturated(lower[i], upper[i], l);
    AcceptsAfterCons(phases, lower, upper, Phase(i, sat), s, w);
    ContinuesClose(phases, lower, upper, i, l, s, w);
    SaturatedWithin(lower[i], upper[i], l);
    assert sat >= lower[i] <==> lower[i] <= l;
    if i + 1 < |phases| {
      BlocksCons(phases, lower, upper, i + 1, s, w);
      if s in phases[i + 1] && lower[i] <= l {
        assert PatternStep(phases, lower, upper, Phase(i, sat), s) == Some(Phase(i + 1, 1));
      } else {
        assert PatternStep(phases, lower, upper, Phase(i, sat), s) == None;
      }
    } else {
      assert PatternStep(phases, lower, upper, Phase(i, sat), s) == None;
      assert !Blocks(phases, lower, upper, i + 1, [s] + w);
    }
  }

  /** `(i, m)` is accepting after the rest of the word exactly when the rest
      finishes phase `i` (whose block holds `l` symbols, `m` being `l`
      saturated at `maxi_i`) and splits into the later phases. */
  lemma {:induction false} PhaseLanguage(phases: seq<seq<Sym>>, lower: seq<int>, upper: seq<Bound>, i: nat, l: int, w: Word)
    requires Sensible(phases, lower, upper) && AdjacentDisjoint(phases)
    requires i < |phases| && 1 <= l && upper[i].Admits(l)
    ensures AcceptsAfter(phases, lower, upper, Phase(i, Saturated(lower[i], upper[i], l)), w) <==>
      Continues(phases, lower, upper, i, l, w)
    decreases |w|
  {
    if w == [] {
      PhaseLanguageEmpty(phases, lower, upper, i, l);
    } else {
      var s := w[0];
      assert w == [s] + w[1..];
      if s in phases[i] {
        if upper[i].Admits(l + 1) {
          PhaseLanguage(phases, lower, upper, i, l + 1, w[1..]);
        }
        PhaseLanguageOwn(phases, lower, upper, i, l, s, w[1..]);
      } else {
        if i + 1 < |phases| {
          assert Saturated(lower[i + 1], upper[i + 1], 1) == 1;
          PhaseLanguage(phases, lower, upper, i + 1, 1, w[1..]);
        }
        PhaseLanguageOther(phases, lower, upper, i, l, s, w[1..]);
      }
    }
  }

  /** The automaton before renaming accepts exactly the words that split
      into the phases; in particular it never accepts the empty word. */
  lemma StartLanguage(phases: seq<seq<Sym>>, lower: seq<int>, upper: seq<Bound>, w: Word)
    requires Sensible(phases, lower, upper) && AdjacentDisjoint(phases)
    ensures var r := RunStep((q, s) => PatternStep(phases, lower, upper, q, s), w, Start);
      (r.Some? && r.value in PatternFinals(lower, upper)) <==> Blocks(phases, lower, upper, 0, w)
  {
    StatesMembers(lower, upper, Start);
    if w != [] {
      var s := w[0];
      assert w == [s] + w[1..];
      BlocksCons(phases, lower, upper, 0, s, w[1..]);
      if s in phases[0] {
        PhaseLanguage(phases, lower, upper, 0, 1, w[1..]);
      }
    }
  }

  /** The empty word is never accepted: the initial state is not accepting. */
  lemma EmptyRejected(alphabet: set<Sym>, phases: seq<seq<Sym>>, lower: seq<int>, upper: seq<Bound>)
    requires Sensible(phases, lower, upper)
    ensures !Accepts(PatternTable(alphabet, phases, lower, upper), [])
  {
    StatesMembers(lower, upper, Start);
  }

  /** How many phases the builder makes: one per upper bound, and one per
      group of `sequence` when the upper bounds are left to their default. */
  function PhaseCount(sequence: seq<GroupArg>, upperArg: seq<Bound>): nat {
    if upperArg == [] then |sequence| else |upperArg|
  }

  /** The builder reads the bound pairs of the phases before any group of
      `sequence`; it raises when there is no phase (`maxi[-1]`) or when the
      lower bounds are fewer than the phases (`lower_bounds[len(maxi)-1]`). */
  predicate BoundsRead(sequence: seq<GroupArg>, lowerArg: seq<int>, upperArg: seq<Bound>) {
    var n := PhaseCount(sequence, upperArg);
    n >= 1 && (if lowerArg == [] then |sequence| else |lowerArg|) >= n
  }

  /** It then reads the symbol group of every phase. */
  predicate Readable(sequence: seq<GroupArg>, lowerArg: seq<int>, upperArg: seq<Bound>) {
    BoundsRead(sequence, lowerArg, upperArg) && |sequence| >= PhaseCount(sequence, upperArg)
  }

  /** The bounds of the phases, defaults filled in. */
  function PhaseLower(sequence: seq<GroupArg>, lowerArg: seq<int>, upperArg: seq<Bound>): seq<int>
    requires BoundsRead(sequence, lowerArg, upperArg)
  {
    BoundsOr(lowerArg, PhaseCount(sequence, upperArg), 1)
  }

  function PhaseUpper(sequence: seq<GroupArg>, upperArg: seq<Bound>): seq<Bound> {
    BoundsOr(upperArg, PhaseCount(sequence, upperArg), Infinite)
  }

  /** The symbol groups of the phases, in order. */
  function PhaseGroups(sequence: seq<GroupArg>, upperArg: seq<Bound>): seq<seq<Sym>>
    requires |sequence| >= PhaseCount(sequence, upperArg)
  {
    NormaliseAll(sequence)[..PhaseCount(sequence, upperArg)]
  }

  /** `pattern(symbols, sequence, lower_bounds, upper_bounds)`: lower bounds
      default to 1 and upper bounds to infinity, one per group of
      `sequence`; there is one phase per upper bound. The builder fails
      when there is no phase, or when the lower bounds or the groups of
      `sequence` are fewer than the phases; further groups and bounds are
      ignored. Otherwise the alphabet is that of `symbols`, the renamed
      automaton never accepts the empty word, and when consecutive phases
      share no symbol it accepts exactly the words that split into one
      block per phase, each within its bounds. */
  method Pattern(symbols: seq<GroupArg>, sequence: seq<GroupArg>, lowerArg: seq<int>, upperArg: seq<Bound>)
    returns (r: Result<Dfa<int>, ReadError>)
    requires BoundsRead(sequence, lowerArg, upperArg) ==>
      Saturating(PhaseLower(sequence, lowerArg, upperArg), PhaseUpper(sequence, upperArg))
    ensures r.Err? <==> !Readable(sequence, lowerArg, upperArg)
    ensures r.Ok? ==> Valid(r.value) && r.value.initial == 1 && r.value.alphabet == GroupAlphabet(NormaliseAll(symbols))
    ensures r.Ok? ==> !Accepts(r.value, [])
    ensures r.Ok? && AdjacentDisjoint(PhaseGroups(sequence, upperArg)) ==> forall w :: Accepts(r.value, w) <==>
      Blocks(PhaseGroups(sequence, upperArg), PhaseLower(sequence, lowerArg, upperArg), PhaseUpper(sequence, upperArg), 0, w)
  {
    if !Readable(sequence, lowerArg, upperArg) {
      return Err(ReadPastEnd);
    }
    var phases := PhaseGroups(sequence, upperArg);
    var lower := PhaseLower(sequence, lowerArg, upperArg);
    var upper := PhaseUpper(sequence, upperArg);
    var alphabet := GroupAlphabet(NormaliseAll(symbols));
    var t := PatternTable(alphabet, phases, lower, upper);
    var step := (q, s) => PatternStep(phases, lower, upper, q, s);
    TableClosed(alphabet, phases, lower, upper);
    TableLanguage(t, GroupAlphabet(phases), step, []);
    var d: Dfa<int>;
    ghost var rename;
    d, rename := Canonical(t);
    EmptyRejected(alphabet, phases, lower, upper);
    if AdjacentDisjoint(phases) {
      forall w ensures Accepts(d, w) <==> Blocks(phases, lower, upper, 0, w) {
        TableLanguage(t, GroupAlphabet(phases), step, w);
        StartLanguage(phases, lower, upper, w);
      }
    }
    r := Ok(d);
  }
}

=== FILE: periodic.dfy ===
/** `periodic(dfa, period, binary_dfa)`, the periodic-composition operation:
    the word is cut into consecutive blocks of `period` symbols; each complete
    block is judged by `dfa` (through `unfold(dfa, period)`), and the verdicts,
    written "1" for accepted and "0" for rejected, are read by the binary
    automaton, whose acceptance decides. */
module PeriodicComposition {
  import opened Wrappers
  import opened Automata
  import opened Worklist
  import opened Unfolding
  import opened Construction

  /** A run of `u` from an optional state; None stays None, as `__run` and
      `transitions.get` do on a None state. */
  function OptRun(u: Dfa<int>, q: Option<int>, w: Word): Option<int> {
    match q
    case None => None
    case Some(x) => Run(u, w, x)
  }

  /** One step of the worklist from `(q, q01, l)` on `s`: before the last
      position of a block the block automaton moves (possibly to None); on
      the last position the binary automaton reads the block's verdict and
      the block starts again. */
  function PeriodicStep<B(==)>(u: Dfa<int>, period: int, b: Dfa<B>, st: (Option<int>, B, int), s: Sym): Option<(Option<int>, B, int)> {
    if s !in u.alphabet then None
    else if st.2 == period - 1 then
      var bit := if OptRun(u, st.0, [s]).Some? && OptRun(u, st.0, [s]).value in u.accepting then "1" else "0";
      match Next(b, st.1, bit)
      case None => None
      case Some(b') => Some((Some(u.initial), b', 0))
    else Some((OptRun(u, st.0, [s]), st.1, st.2 + 1))
  }

  /** The verdict of `e` on one block. */
  function Bit<S(==)>(e: Dfa<S>, x: Word): Sym {
    if Accepts(e, x) then "1" else "0"
  }

  /** The verdicts of `e` on the complete blocks of `w`. */
  function Bits<S(==)>(e: Dfa<S>, period: int, w: Word): (r: Word)
    requires period >= 1
    ensures |r| <= |w|
    decreases |w|
  {
    if |w| < period then [] else [Bit(e, w[..period])] + Bits(e, period, w[period..])
  }

  /** The symbols of the last, incomplete block of `w`. */
  function Tail(period: int, w: Word): (r: Word)
    requires period >= 1
    ensures |r| < period
    decreases |w|
  {
    if |w| < period then w else Tail(period, w[period..])
  }

  /** One more symbol either extends the incomplete block or completes it. */
  lemma {:induction false} TailSnoc(period: int, w: Word, s: Sym)
    requires period >= 1
    ensures Tail(period, w + [s]) == if |Tail(period, w)| == period - 1 then [] else Tail(period, w) + [s]
    decreases |w|
  {
    if |w| >= period {
      assert (w + [s])[period..] == w[period..] + [s];
      TailSnoc(period, w[period..], s);
    } else if |w| == period - 1 {
      assert (w + [s])[period..] == [];
    }
  }

  /** Completing a block appends its verdict; otherwise the verdicts stay. */
  lemma {:induction false} BitsSnoc<S>(e: Dfa<S>, period: int, w: Word, s: Sym)
    requires period >= 1
    ensures Bits(e, period, w + [s]) ==
      if |Tail(period, w)| == period - 1 then Bits(e, period, w) + [Bit(e, Tail(period, w) + [s])] else Bits(e, period, w)
    decreases |w|
  {
    if |w| >= period {
      assert (w + [s])[..period] == w[..period];
      assert (w + [s])[period..] == w[period..] + [s];
      BitsSnoc(e, period, w[period..], s);
    } else if |w| == period - 1 {
      assert (w + [s])[..period] == w + [s];
      assert (w + [s])[period..] == [];
    }
  }

  /** The state the worklist step should reach from the start after `w`:
      the block automaton after the incomplete block, the binary automaton
      after the verdicts of the complete blocks, and the position in the
      block; None once a symbol is outside the alphabet or the binary
      automaton has no transition. */
  function Expected<B(==)>(u: Dfa<int>, period: int, b: Dfa<B>, w: Word): Option<(Option<int>, B, int)>
    requires period >= 1
  {
    if !AllIn(w, u.alphabet) then None
    else match Run(b, Bits(u, period, w), b.initial)
      case None => None
      case Some(y) => Some((Run(u, Tail(period, w), u.initial), y, |Tail(period, w)|))
  }

  /** One symbol after a run of the block automaton. */
  lemma OptRunSnoc(u: Dfa<int>, t: Word, s: Sym)
    ensures OptRun(u, Run(u, t, u.initial), [s]) == Run(u, t + [s], u.initial)
  {
    RunSnoc(u, t, s, u.initial);
    match Run(u, t, u.initial) {
      case None =>
      case Some(x) => RunSingle(u, s, x);
    }
  }

  /** The expected state after one more symbol is one worklist step after
      the expected state. */
  lemma ExpectedSnoc<B>(u: Dfa<int>, period: int, b: Dfa<B>, v: Word, s: Sym)
    requires period >= 1
    ensures Expected(u, period, b, v + [s]) ==
      match Expected(u, period, b, v) case None => None case Some(st) => PeriodicStep(u, period, b, st, s)
  {
    AllInSnoc(v, s, u.alphabet);
    if AllIn(v, u.alphabet) && s in u.alphabet {
      var t := Tail(period, v);
      TailSnoc(period, v, s);
      BitsSnoc(u, period, v, s);
      OptRunSnoc(u, t, s);
      if |t| == period - 1 {
        RunSnoc(b, Bits(u, period, v), Bit(u, t + [s]), b.initial);
      }
    }
  }

  /** The worklist step reaches the expected state. */
  lemma {:induction false} PeriodicRun<B>(u: Dfa<int>, period: int, b: Dfa<B>, w: Word)
    requires period >= 1
    ensures RunStep((st, s) => PeriodicStep(u, period, b, st, s), w, (Some(u.initial), b.initial, 0)) == Expected(u, period, b, w)
    decreases |w|
  {
    var step := (st, s) => PeriodicStep(u, period, b, st, s);
    if w == [] {
      assert AllIn(w, u.alphabet);
    } else {
      var v := w[..|w| - 1];
      var s := w[|w| - 1];
      assert w == v + [s];
      PeriodicRun(u, period, b, v);
      RunStepSnoc(step, v, s, (Some(u.initial), b.initial, 0));
      ExpectedSnoc(u, period, b, v, s);
    }
  }

  /** On a word over the alphabet, the verdicts of the unfolded automaton are
      the verdicts of `d`, since every block has exactly `period` symbols. */
  lemma {:induction false} BitsUnfolded<S>(d: Dfa<S>, u: Dfa<int>, period: int, w: Word)
    requires period >= 1 && AllIn(w, d.alphabet)
    requires forall x :: Accepts(u, x) <==> Follows(x, StepAlphabets(d, Steps(period))) && Accepts(d, x)
    ensures Bits(u, period, w) == Bits(d, period, w)
    decreases |w|
  {
    if |w| >= period {
      var x := w[..period];
      assert Follows(x, StepAlphabets(d, Steps(period))) by {
        forall j | 0 <= j < |x| ensures x[j] in StepAlphabets(d, Steps(period))[j] {
          assert x[j] == w[j];
        }
      }
      assert AllIn(w[period..], d.alphabet) by {
        forall j | 0 <= j < |w[period..]| ensures w[period..][j] in d.alphabet {
          assert w[period..][j] == w[j + period];
        }
      }
      BitsUnfolded(d, u, period, w[period..]);
    }
  }

  /** The block states: None or a state of `u`. */
  function OptStates(u: Dfa<int>): set<Option<int>> {
    {None} + set x | x in u.states :: Some(x)
  }

  lemma OptStatesHas(u: Dfa<int>, o: Option<int>)
    requires o.Some? ==> o.value in u.states
    ensures o in OptStates(u)
  {
    if o.Some? {
      var x := o.value;
      assert Some(x) in set x | x in u.states :: Some(x);
    }
  }

  /** The states a run can visit. */
  function PeriodicUniverse<B(==)>(u: Dfa<int>, period: int, b: Dfa<B>): set<(Option<int>, B, int)> {
    set q, y, l | q in OptStates(u) && y in b.states && 0 <= l < period :: (q, y, l)
  }

  lemma PeriodicClosed<B>(u: Dfa<int>, period: int, b: Dfa<B>)
    requires Valid(u) && Valid(b) && period >= 1
    ensures Closed(PeriodicUniverse(u, period, b), u.alphabet, (st, s) => PeriodicStep(u, period, b, st, s))
  {
    forall st, s | st in PeriodicUniverse(u, period, b) && PeriodicStep(u, period, b, st, s).Some?
      ensures s in u.alphabet && PeriodicStep(u, period, b, st, s).value in PeriodicUniverse(u, period, b)
    {
      var p := PeriodicStep(u, period, b, st, s).value;
      var q, y, l :| q in OptStates(u) && y in b.states && 0 <= l < period && st == (q, y, l);
      var next := OptRun(u, st.0, [s]);
      if q.Some? {
        RunSingle(u, s, q.value);
        assert q.value in u.states;
      }
      assert next.Some? ==> next.value in u.states;
      OptStatesHas(u, next);
      OptStatesHas(u, Some(u.initial));
      assert p.0 in OptStates(u) && p.1 in b.states && 0 <= p.2 < period;
      assert p == (p.0, p.1, p.2);
    }
  }

  /** `periodic(dfa, period, binary_dfa)`: a word is accepted exactly when
      all its symbols are in the alphabet and the binary automaton accepts
      the verdicts of `d` on its complete blocks; the incomplete last block
      does not matter. */
  method Periodic<S(==), B(==)>(d: Dfa<S>, period: int, b: Dfa<B>) returns (r: Dfa<int>)
    requires Valid(d) && Valid(b) && period >= 1
    ensures Valid(r) && r.initial == 1 && r.alphabet == d.alphabet
    ensures forall w :: Accepts(r, w) <==> AllIn(w, d.alphabet) && Accepts(b, Bits(d, period, w))
  {
    var u := Unfold(d, Steps(period));
    var step := (st, s) => PeriodicStep(u, period, b, st, s);
    var accept := (st: (Option<int>, B, int)) => st.1 in b.accepting;
    PeriodicClosed(u, period, b);
    OptStatesHas(u, Some(u.initial));
    r := Build(u.alphabet, (Some(u.initial), b.initial, 0), step, accept, PeriodicUniverse(u, period, b));
    forall w ensures Accepts(r, w) <==> AllIn(w, d.alphabet) && Accepts(b, Bits(d, period, w)) {
      PeriodicRun(u, period, b, w);
      if AllIn(w, d.alphabet) {
        BitsUnfolded(d, u, period, w);
      }
    }
  }

  /** `periodic` with its optional binary automaton: a given one is used
      as is; without one it uses `ones_dfa`, so every complete block must be
      accepted by `d`. */
  method PeriodicOr<S(==)>(d: Dfa<S>, period: int, b: Option<Dfa<int>>) returns (r: Dfa<int>)
    requires Valid(d) && Valid(b.GetOr(OnesDfa)) && period >= 1
    ensures Valid(r) && r.initial == 1 && r.alphabet == d.alphabet
    ensures b.Some? ==> forall w :: Accepts(r, w) <==> AllIn(w, d.alphabet) && Accepts(b.value, Bits(d, period, w))
    ensures b.None? ==> forall w :: Accepts(r, w) <==> AllIn(w, d.alphabet) && AllOnes(Bits(d, period, w))
  {
    r := Periodic(d, period, b.GetOr(OnesDfa));
    if b.None? {
      assert b.GetOr(OnesDfa) == OnesDfa;
      forall w ensures Accepts(r, w) <==> AllIn(w, d.alphabet) && AllOnes(Bits(d, period, w)) {
        OnesDfaLanguage(Bits(d, period, w));
      }
    }
  }
}

=== FILE: registry.dfy ===
/** The model's registry of posted regular constraints: each call of
    `add_regular_constraint` stores its decoder under the constraint's name,
    when it has one, and under the printed form of the flow constraints it
    returns; `get_regular_solution` looks a decoder up by the printed form of
    its argument and runs it on the current solution. A decoder is fully
    determined by the network it closes over, so the registry maps keys to
    networks. */
module Registry {
  import opened Wrappers
  import opened Automata
  import opened Unfolding
  import opened FlowNetwork
  import opened Decoding

  type Registry = map<string, Network>

  /** `if ctname:` — Python's `None` and the empty string are both falsy. */
  predicate Named(ctname: Option<string>) {
    ctname.Some? && ctname.value != ""
  }

  /** Records the decoder of `net` under `ctname` (when it is a non-empty name)
      and then under `printed`, the rendering of the returned constraint list. */
  function Register(reg: Registry, ctname: Option<string>, printed: string, net: Network): (r: Registry)
    ensures printed in r && r[printed] == net
    ensures Named(ctname) ==> ctname.value in r && r[ctname.value] == net
    ensures r.Keys == reg.Keys + {printed} + (if Named(ctname) then {ctname.value} else {})
    ensures forall k | k in reg && k != printed && !(Named(ctname) && k == ctname.value) :: r[k] == reg[k]
  {
    var named := if Named(ctname) then reg[ctname.value := net] else reg;
    named[printed := net]
  }

  /** Looking up a key that was never registered raises `KeyError`. */
  datatype LookupError = UnknownKey(key: string)

  /** `self.regular_solutions[str(regular_ct)]`. */
  function Lookup(reg: Registry, key: string): Result<Network, LookupError> {
    if key in reg then Ok(reg[key]) else Err(UnknownKey(key))
  }

  /** A constraint is found again under its printed form and under its name,
      and registering it leaves every other key's decoder in place. */
  lemma RegisterThenLookup(reg: Registry, ctname: Option<string>, printed: string, net: Network, key: string)
    ensures key == printed ==> Lookup(Register(reg, ctname, printed, net), key) == Ok(net)
    ensures Named(ctname) && key == ctname.value ==> Lookup(Register(reg, ctname, printed, net), key) == Ok(net)
    ensures key != printed && !(Named(ctname) && key == ctname.value) ==>
      Lookup(Register(reg, ctname, printed, net), key) == Lookup(reg, key)
  {
  }

  /** Why `get_regular_solution` can fail: an unknown key, or a decoder that
      finds no arc with flow left. */
  datatype SolutionError = NotRegistered(LookupError) | DecodeFailed(DecodeError)

  /** The registry only holds networks built by `add_regular_constraint`. */
  ghost predicate AllWellFormed(reg: Registry) {
    forall k | k in reg :: WellFormed(reg[k])
  }

  /** Registering a well-formed network keeps the registry well-formed. */
  lemma RegisterWellFormed(reg: Registry, ctname: Option<string>, printed: string, net: Network)
    requires AllWellFormed(reg) && WellFormed(net)
    ensures AllWellFormed(Register(reg, ctname, printed, net))
  {
  }

  /** `get_regular_solution(regular_ct)`: look the decoder up and run it on
      `solution`, the model's current solution (`None` when it has none). */
  method GetRegularSolution(reg: Registry, key: string, solution: Option<map<FlowVar, int>>)
    returns (r: Result<Option<seq<Word>>, SolutionError>)
    requires AllWellFormed(reg)
    requires key in reg && solution.Some? ==> Vars(reg[key].layers) <= solution.value.Keys
    ensures key !in reg <==> r == Err(NotRegistered(UnknownKey(key)))
    ensures key in reg && solution.None? ==> r == Ok(None)
    ensures key in reg && r.Ok? && r.value.Some? ==>
      var net := reg[key];
      && |r.value.value| == (if net.number < 0 then 0 else net.number)
      && forall j | 0 <= j < |r.value.value| :: Follows(r.value.value[j], net.alphabets) && Accepts(net.dfa, r.value.value[j])
    ensures key in reg && solution.Some? && FlowFeasible(reg[key], solution.value) ==> r.Ok? && r.value.Some?
  {
    match Lookup(reg, key) {
      case Err(e) =>
        r := Err(NotRegistered(e));
      case Ok(net) =>
        var d := Decode(net, solution);
        match d {
          case Ok(rows) => r := Ok(rows);
          case Err(e) => r := Err(DecodeFailed(e));
        }
    }
  }
}

=== FILE: renaming.dfy ===
/** `_rename`: the canonical renumbering every construction ends with. The
    initial state becomes 1, the other non-accepting states follow from 2 on,
    and the other accepting states take the highest numbers, counting down from
    the number of states. The two set iteration orders that decide the numbers
    inside each group are explicit enumerations here. */
module Renaming {
  import opened Wrappers
  import opened Automata
  import opened Worklist

  /** `Q.update({q: first + i * step for i, q in enumerate(xs)})`. */
  function Update<S(==)>(m: map<S, int>, xs: seq<S>, first: int, step: int): map<S, int>
    decreases |xs|
  {
    if xs == [] then m else Update(m[xs[0] := first], xs[1..], first + step, step)
  }

  /** After the update, the listed keys carry their numbers and the other keys
      keep theirs. */
  lemma {:induction false} UpdateAt<S>(m: map<S, int>, xs: seq<S>, first: int, step: int)
    requires forall i, j | 0 <= i < j < |xs| :: xs[i] != xs[j]
    ensures forall k | k in Update(m, xs, first, step) :: k in m || k in xs
    ensures forall k | k in m || k in xs :: k in Update(m, xs, first, step)
    ensures forall i | 0 <= i < |xs| :: Update(m, xs, first, step)[xs[i]] == first + i * step
    ensures forall k | k in m && k !in xs :: Update(m, xs, first, step)[k] == m[k]
    decreases |xs|
  {
    if xs != [] {
      var rest := xs[1..];
      var m' := m[xs[0] := first];
      assert xs[0] !in rest by {
        forall j | 0 <= j < |rest| ensures rest[j] != xs[0] {
          assert rest[j] == xs[j + 1];
        }
      }
      UpdateAt(m', rest, first + step, step);
      var u := Update(m, xs, first, step);
      assert u == Update(m', rest, first + step, step);
      forall i | 0 <= i < |xs| ensures xs[i] in u && u[xs[i]] == first + i * step {
        if i > 0 {
          assert xs[i] == rest[i - 1];
        }
      }
      forall k | k in m || k in xs ensures k in u {
        if k in xs && k != xs[0] {
          var i :| 0 <= i < |xs| && xs[i] == k;
          assert rest[i - 1] == k;
        }
      }
    }
  }

  /** The numbering `Q` of `_rename`, built in the same three steps: the
      initial state, then the others from 2 upwards, then the finals from the
      number of states downwards. */
  function Numbering<S(==)>(d: Dfa<S>, others: seq<S>, finals: seq<S>): map<S, int> {
    Update(Update(map[d.initial := 1], others, 2, 1), finals, |d.states|, -1)
  }

  /** The orders `_rename` iterates in: the non-accepting states other than the
      initial one, then the accepting states other than the initial one. */
  predicate RenameOrders<S(==)>(d: Dfa<S>, others: seq<S>, finals: seq<S>) {
    && Enumerates(others, d.states - d.accepting - {d.initial})
    && Enumerates(finals, d.accepting - {d.initial})
  }

  /** `r` is `d` with every state `q` renamed `rename[q]`, one-to-one. */
  ghost predicate IsImage<S, T>(d: Dfa<S>, r: Dfa<T>, rename: map<S, T>) {
    && Valid(d)
    && rename.Keys == d.states
    && (forall p, q | p in rename && q in rename && rename[p] == rename[q] :: p == q)
    && r.alphabet == d.alphabet
    && r.states == rename.Values
    && r.initial == rename[d.initial]
    && r.accepting <= r.states
    && (forall q | q in d.states :: (rename[q] in r.accepting <==> q in d.accepting))
    && (forall k | k in r.delta :: k.0 in r.states)
    && (forall q, s | q in d.states ::
          Next(r, rename[q], s) == (match Next(d, q, s) case None => None case Some(p) => Some(rename[p])))
  }

  /** The initial state, the other non-accepting states and the other
      accepting states partition the states. */
  lemma PartitionSize<S>(d: Dfa<S>, others: seq<S>, finals: seq<S>)
    requires Valid(d) && RenameOrders(d, others, finals)
    ensures |d.states| == 1 + |others| + |finals|
  {
    var o := d.states - d.accepting - {d.initial};
    var f := d.accepting - {d.initial};
    EnumerationSize(others, o);
    EnumerationSize(finals, f);
    ThreeWaySize(d.states, d.accepting, d.initial);
  }

  /** A state set splits into one state, the rest of `acc`, and the rest. */
  lemma ThreeWaySize<S>(states: set<S>, acc: set<S>, x: S)
    requires x in states && acc <= states
    ensures |states| == 1 + |states - acc - {x}| + |acc - {x}|
  {
    var o := states - acc - {x};
    var f := acc - {x};
    assert states == {x} + o + f;
    assert |{x} + o| == 1 + |o|;
    assert |({x} + o) + f| == |{x} + o| + |f|;
  }

  /** Where `Q` sends each kind of state. */
  lemma NumberingValues<S>(d: Dfa<S>, others: seq<S>, finals: seq<S>)
    requires Valid(d) && RenameOrders(d, others, finals)
    ensures d.initial in Numbering(d, others, finals) && Numbering(d, others, finals)[d.initial] == 1
    ensures forall i | 0 <= i < |others| :: others[i] in Numbering(d, others, finals) && Numbering(d, others, finals)[others[i]] == i + 2
    ensures forall i | 0 <= i < |finals| :: finals[i] in Numbering(d, others, finals) && Numbering(d, others, finals)[finals[i]] == |d.states| - i
  {
    var m := Update(map[d.initial := 1], others, 2, 1);
    UpdateAt(map[d.initial := 1], others, 2, 1);
    UpdateAt(m, finals, |d.states|, -1);
    forall i | 0 <= i < |others| ensures others[i] !in finals {
      assert others[i] in d.states - d.accepting - {d.initial};
    }
    assert d.initial !in others && d.initial !in finals;
  }

  /** `Q` is defined exactly on the states, and numbers them 1..|states|. */
  lemma NumberingKeys<S>(d: Dfa<S>, others: seq<S>, finals: seq<S>)
    requires Valid(d) && RenameOrders(d, others, finals)
    ensures Numbering(d, others, finals).Keys == d.states
    ensures forall x | x in d.states :: 1 <= Numbering(d, others, finals)[x] <= |d.states|
    ensures forall x | x in d.states :: (Numbering(d, others, finals)[x] == 1 <==> x == d.initial)
  {
    var q := Numbering(d, others, finals);
    NumberingValues(d, others, finals);
    PartitionSize(d, others, finals);
    UpdateAt(map[d.initial := 1], others, 2, 1);
    UpdateAt(Update(map[d.initial := 1], others, 2, 1), finals, |d.states|, -1);
    forall k | k in q ensures k in d.states {
      var m := Update(map[d.initial := 1], others, 2, 1);
      assert k in m || k in finals;
      if k in m {
        assert k in map[d.initial := 1] || k in others;
      }
    }
    forall x | x in d.states ensures x in q && 1 <= q[x] <= |d.states| && (q[x] == 1 <==> x == d.initial) {
      if x != d.initial {
        if x in d.accepting {
          assert x in d.accepting - {d.initial};
          var i :| 0 <= i < |finals| && finals[i] == x;
        } else {
          assert x in d.states - d.accepting - {d.initial};
          var i :| 0 <= i < |others| && others[i] == x;
        }
      }
    }
  }

  /** The position of a non-initial state in the enumeration of its group,
      mapped to the number `_rename` gives it. */
  lemma NumberingOf<S>(d: Dfa<S>, others: seq<S>, finals: seq<S>, x: S)
    returns (i: int)
    requires Valid(d) && RenameOrders(d, others, finals) && x in d.states && x != d.initial
    ensures x in Numbering(d, others, finals)
    ensures x in d.accepting ==> 0 <= i < |finals| && finals[i] == x && Numbering(d, others, finals)[x] == |d.states| - i
    ensures x !in d.accepting ==> 0 <= i < |others| && others[i] == x && Numbering(d, others, finals)[x] == i + 2
  {
    NumberingValues(d, others, finals);
    if x in d.accepting {
      assert x in d.accepting - {d.initial};
      i :| 0 <= i < |finals| && finals[i] == x;
    } else {
      assert x in d.states - d.accepting - {d.initial};
      i :| 0 <= i < |others| && others[i] == x;
    }
  }

  /** `Q` is one-to-one. */
  lemma NumberingInjective<S>(d: Dfa<S>, others: seq<S>, finals: seq<S>)
    requires Valid(d) && RenameOrders(d, others, finals)
    ensures forall x, y | x in Numbering(d, others, finals) && y in Numbering(d, others, finals) &&
      Numbering(d, others, finals)[x] == Numbering(d, others, finals)[y] :: x == y
  {
    var q := Numbering(d, others, finals);
    NumberingKeys(d, others, finals);
    PartitionSize(d, others, finals);
    forall x, y | x in q && y in q && q[x] == q[y] ensures x == y {
      if x != d.initial && y != d.initial {
        var i := NumberingOf(d, others, finals, x);
        var j := NumberingOf(d, others, finals, y);
      }
    }
  }

  /** `Q` is onto 1..|states|. */
  lemma NumberingOnto<S>(d: Dfa<S>, others: seq<S>, finals: seq<S>)
    requires Valid(d) && RenameOrders(d, others, finals)
    ensures Numbering(d, others, finals).Values == Interval(1, |d.states|)
  {
    var q := Numbering(d, others, finals);
    var n := |d.states|;
    NumberingKeys(d, others, finals);
    NumberingValues(d, others, finals);
    PartitionSize(d, others, finals);
    forall j | j in Interval(1, n) ensures j in q.Values {
      if j == 1 {
        assert q[d.initial] == j;
      } else if j <= |others| + 1 {
        assert q[others[j - 2]] == j;
      } else {
        assert q[finals[n - j]] == j;
      }
    }
  }

  /** `_rename(dfa)` for given iteration orders. */
  function Rename<S(==)>(d: Dfa<S>, others: seq<S>, finals: seq<S>): (r: Dfa<int>)
    requires Valid(d) && RenameOrders(d, others, finals)
  {
    var q := Numbering(d, others, finals);
    NumberingKeys(d, others, finals);
    NumberingInjective(d, others, finals);
    Dfa(d.alphabet,
        Interval(1, |q|),
        q[d.initial],
        (map k | k in d.delta :: (q[k.0], k.1) := q[d.delta[k]]),
        (set p | p in d.accepting :: q[p]))
  }

  /** `_rename` makes the states exactly 1..|states| and sends the initial
      state to 1. */
  lemma RenameStates<S>(d: Dfa<S>, others: seq<S>, finals: seq<S>)
    requires Valid(d) && RenameOrders(d, others, finals)
    ensures Rename(d, others, finals).initial == 1
    ensures Rename(d, others, finals).states == Interval(1, |d.states|)
    ensures Rename(d, others, finals).states == Numbering(d, others, finals).Values
  {
    var q := Numbering(d, others, finals);
    NumberingKeys(d, others, finals);
    NumberingOnto(d, others, finals);
    assert |q| == |q.Keys|;
  }

  /** The accepting states other than the initial one take the highest
      numbers; the initial state keeps number 1 and is accepting exactly when
      it was. */
  lemma RenameAccepting<S>(d: Dfa<S>, others: seq<S>, finals: seq<S>)
    requires Valid(d) && RenameOrders(d, others, finals)
    ensures Rename(d, others, finals).accepting - {1} == Interval(|d.states| - |finals| + 1, |d.states|)
    ensures 1 in Rename(d, others, finals).accepting <==> d.initial in d.accepting
  {
    var q := Numbering(d, others, finals);
    var r := Rename(d, others, finals);
    var n := |d.states|;
    NumberingKeys(d, others, finals);
    NumberingValues(d, others, finals);
    PartitionSize(d, others, finals);
    forall j | j in r.accepting - {1} ensures j in Interval(n - |finals| + 1, n) {
      var p :| p in d.accepting && q[p] == j;
      var i := NumberingOf(d, others, finals, p);
    }
    forall j | j in Interval(n - |finals| + 1, n) ensures j in r.accepting - {1} {
      var p := finals[n - j];
      assert p in finals;
      assert p in d.accepting && q[p] == j;
    }
  }

  /** `_rename` is a one-to-one image of its input. */
  lemma RenameIsImage<S>(d: Dfa<S>, others: seq<S>, finals: seq<S>)
    requires Valid(d) && RenameOrders(d, others, finals)
    ensures IsImage(d, Rename(d, others, finals), Numbering(d, others, finals))
  {
    var q := Numbering(d, others, finals);
    var r := Rename(d, others, finals);
    NumberingKeys(d, others, finals);
    NumberingInjective(d, others, finals);
    RenameStates(d, others, finals);
    forall x, s | x in d.states
      ensures Next(r, q[x], s) == (match Next(d, x, s) case None => None case Some(p) => Some(q[p]))
    {
      if (x, s) in d.delta {
        assert (q[x], s) in r.delta;
      }
    }
    forall x | x in d.states ensures (q[x] in r.accepting <==> x in d.accepting) {
      if q[x] in r.accepting {
        var p :| p in d.accepting && q[p] == q[x];
      }
    }
  }

  /** An image runs like the original, state for state. */
  lemma {:induction false} ImageRun<S, T>(d: Dfa<S>, r: Dfa<T>, rename: map<S, T>, w: Word, q: S)
    requires Valid(d) && IsImage(d, r, rename) && q in d.states
    ensures Run(d, w, q).Some? ==> Run(d, w, q).value in d.states
    ensures Run(r, w, rename[q]) == (match Run(d, w, q) case None => None case Some(p) => Some(rename[p]))
    decreases |w|
  {
    RunStaysInStates(d, w, q);
    if w != [] {
      match Next(d, q, w[0]) {
        case None =>
        case Some(p) => ImageRun(d, r, rename, w[1..], p);
      }
    }
  }

  /** Renaming does not change the language. */
  lemma ImageAccepts<S, T>(d: Dfa<S>, r: Dfa<T>, rename: map<S, T>, w: Word)
    requires Valid(d) && IsImage(d, r, rename)
    ensures Accepts(r, w) <==> Accepts(d, w)
  {
    ImageRun(d, r, rename, w, d.initial);
    RunStaysInStates(d, w, d.initial);
  }

  /** An image of a valid automaton is valid. */
  lemma ImageValid<S, T>(d: Dfa<S>, r: Dfa<T>, rename: map<S, T>)
    requires Valid(d) && IsImage(d, r, rename)
    ensures Valid(r)
  {
    forall k | k in r.delta ensures r.delta[k] in r.states {
      var x :| x in d.states && rename[x] == k.0;
      assert Next(r, rename[x], k.1).Some?;
    }
  }

  /** A symbol on which `q` has a transition. */
  ghost function SomeArc<S>(d: Dfa<S>, q: S): (s: Sym)
    requires exists s :: (q, s) in d.delta
    ensures (q, s) in d.delta
  {
    var s :| (q, s) in d.delta; s
  }

  /** The state renamed to `j`. */
  ghost function Preimage<S, T>(rename: map<S, T>, j: T): (q: S)
    requires j in rename.Values
    ensures q in rename && rename[q] == j
  {
    var q :| q in rename && rename[q] == j; q
  }

  /** Renaming keeps a time-expanded automaton time-expanded, each state
      keeping the time index of the state it renames. */
  lemma ImageLayered<S, T>(d: Dfa<S>, r: Dfa<T>, rename: map<S, T>, alphabets: seq<set<Sym>>, layer: map<S, nat>)
    requires IsImage(d, r, rename) && Layered(d, alphabets, layer)
    ensures Layered(r, alphabets, map j | j in r.states :: layer[Preimage(rename, j)])
  {
    var layer' := map j | j in r.states :: layer[Preimage(rename, j)];
    forall q | q in d.states ensures rename[q] in layer' && layer'[rename[q]] == layer[q] {
      assert Preimage(rename, rename[q]) == q;
    }
    ImageLayeredBy(d, r, rename, alphabets, layer, layer');
  }

  /** `ImageLayered` for any time index of the image that agrees with
      `layer` through `rename`. */
  lemma ImageLayeredBy<S, T>(d: Dfa<S>, r: Dfa<T>, rename: map<S, T>, alphabets: seq<set<Sym>>, layer: map<S, nat>, layer': map<T, nat>)
    requires IsImage(d, r, rename) && Layered(d, alphabets, layer)
    requires forall q | q in d.states :: rename[q] in layer' && layer'[rename[q]] == layer[q]
    ensures Layered(r, alphabets, layer')
  {
    ImageValid(d, r, rename);
    forall k | k in r.delta
      ensures layer'[k.0] < |alphabets| && k.1 in alphabets[layer'[k.0]] && layer'[r.delta[k]] == layer'[k.0] + 1
    {
      var x := Preimage(rename, k.0);
      assert Next(r, rename[x], k.1).Some?;
      assert (x, k.1) in d.delta;
    }
    forall j | j in r.states && 0 < layer'[j] < |alphabets| ensures exists s :: (j, s) in r.delta {
      var x := Preimage(rename, j);
      var s := SomeArc(d, x);
      assert Next(d, x, s).Some?;
      assert (j, s) in r.delta;
    }
    forall j | j in r.states && layer'[j] == |alphabets| ensures j in r.accepting {
      var x := Preimage(rename, j);
    }
  }

  /** `_rename(dfa)`, iterating the sets in an unspecified order: the initial
      state becomes 1, the states become 1..|states|, the accepting non-initial
      states get the highest numbers, and the language is unchanged. `rename`
      is the numbering used. */
  method Canonical<S(==)>(d: Dfa<S>) returns (r: Dfa<int>, ghost rename: map<S, int>)
    requires Valid(d)
    ensures Valid(r) && IsImage(d, r, rename)
    ensures r.initial == 1 && r.alphabet == d.alphabet
    ensures r.states == Interval(1, |d.states|)
    ensures r.accepting - {1} == Interval(|d.states| - |d.accepting - {d.initial}| + 1, |d.states|)
    ensures 1 in r.accepting <==> d.initial in d.accepting
    ensures forall w :: Accepts(r, w) <==> Accepts(d, w)
  {
    var others := SetToSeq(d.states - d.accepting - {d.initial});
    var finals := SetToSeq(d.accepting - {d.initial});
    r := Rename(d, others, finals);
    rename := Numbering(d, others, finals);
    RenameStates(d, others, finals);
    RenameAccepting(d, others, finals);
    RenameIsImage(d, others, finals);
    EnumerationSize(finals, d.accepting - {d.initial});
    ImageValid(d, r, rename);
    forall w ensures Accepts(r, w) <==> Accepts(d, w) {
      ImageAccepts(d, r, rename, w);
    }
  }
}

=== FILE: side.dfy ===
/** `side(dfa, left, right)`, the side-hypothesis operation: the same
    automaton started after `left`, accepting where `right` leads to
    acceptance. */
module SideHypothesis {
  import opened Wrappers
  import opened Automata

  /** `d` with its transitions kept, started at `start`, and accepting the
      states from which `right` leads to acceptance. */
  function Hypothesis<S(==)>(d: Dfa<S>, start: S, right: Word): Dfa<S> {
    Dfa(d.alphabet, d.states, start, d.delta, set q | q in d.states && AcceptsFrom(d, right, q))
  }

  /** The side hypothesis on one word: starting after `left` and accepting
      before `right`, `w` is accepted exactly when `d` accepts
      `left + w + right`; the automaton is valid whenever `left` can be
      run. */
  lemma SideLanguage<S>(d: Dfa<S>, left: Word, right: Word, w: Word)
    requires Valid(d)
    ensures var o := Run(d, left, d.initial);
      o.Some? ==> Valid(Hypothesis(d, o.value, right))
    ensures var o := Run(d, left, d.initial);
      (o.Some? && Accepts(Hypothesis(d, o.value, right), w)) <==> Accepts(d, left + w + right)
  {
    RunAppend(d, left + w, right, d.initial);
    RunAppend(d, left, w, d.initial);
    RunStaysInStates(d, left, d.initial);
    var o := Run(d, left, d.initial);
    if o.Some? {
      var start := o.value;
      RunStaysInStates(d, w, start);
      assert Run(d, left + w, d.initial) == Run(d, w, start);
      RunSameDelta(d, Hypothesis(d, start, right), w, start);
    }
  }

  /** The side hypothesis on every word. */
  lemma SideWords<S>(d: Dfa<S>, left: Word, right: Word)
    ensures var o := Run(d, left, d.initial);
      Valid(d) && o.Some? ==> Valid(Hypothesis(d, o.value, right))
    ensures var o := Run(d, left, d.initial);
      Valid(d) ==> forall w :: (o.Some? && Accepts(Hypothesis(d, o.value, right), w)) <==> Accepts(d, left + w + right)
  {
    if Valid(d) {
      SideLanguage(d, left, right, []);
      forall w ensures var o := Run(d, left, d.initial);
        (o.Some? && Accepts(Hypothesis(d, o.value, right), w)) <==> Accepts(d, left + w + right)
      {
        SideLanguage(d, left, right, w);
      }
    }
  }

  /** The language of a `side` result; None accepts nothing. */
  predicate SideAccepts<S(==)>(r: Option<Dfa<S>>, w: Word) {
    r.Some? && Accepts(r.value, w)
  }

  /** The result of `side`. When `left` cannot be run the source stores None
      as the initial state; such an automaton accepts nothing, and the model
      returns None. The result accepts `w` exactly when `d` accepts
      `left + w + right`, and it keeps the alphabet, the states and the
      transitions. */
  function Side<S(==)>(d: Dfa<S>, left: Word, right: Word): (r: Option<Dfa<S>>)
    ensures r.None? <==> Run(d, left, d.initial).None?
    ensures r.Some? ==> r.value.alphabet == d.alphabet && r.value.states == d.states && r.value.delta == d.delta
    ensures r.Some? ==> Some(r.value.initial) == Run(d, left, d.initial)
    ensures r.Some? ==> forall q | q in r.value.accepting :: q in d.states && AcceptsFrom(d, right, q)
    ensures r.Some? ==> forall q | q in d.states && AcceptsFrom(d, right, q) :: q in r.value.accepting
    ensures Valid(d) && r.Some? ==> Valid(r.value)
    ensures Valid(d) ==> forall w :: SideAccepts(r, w) <==> Accepts(d, left + w + right)
  {
    SideWords(d, left, right);
    match Run(d, left, d.initial)
    case None => None
    case Some(start) => Some(Hypothesis(d, start, right))
  }
}

=== FILE: stretch.dfy ===
/** `stretch(symbols, lower_bounds, upper_bounds)`: every maximal run of
    consecutive symbols from one tracked group must be between the group's
    bounds. Groups whose bounds are the defaults (1, infinity) are not
    tracked; their symbols return the automaton to a neutral state. */
module Stretch {
  import opened Wrappers
  import opened Automata
  import opened Bounds
  import opened RuleGroups
  import opened Construction
  import opened Renaming

  /** `(("",), 0)`, or `(k, m)`: inside a run of group `k` of length `m`
      (saturated at `maxi`). */
  datatype StretchState = Neutral | InRun(group: nat, length: int)

  /** A group with bounds other than `(1, inf)` is tracked. */
  predicate Tracked(lower: seq<int>, upper: seq<Bound>, i: int)
    requires 0 <= i < |lower| == |upper|
  {
    !(lower[i] == 1 && upper[i].Infinite?)
  }

  /** The neutral state and `(k, m)` for every tracked group and
      `1 <= m <= maxi`. */
  function StretchStates(lower: seq<int>, upper: seq<Bound>): set<StretchState>
    requires |lower| == |upper|
  {
    {Neutral} + set i, m | 0 <= i < |lower| && Tracked(lower, upper, i) && m in Interval(1, Saturation(lower[i], upper[i])) :: InRun(i, m)
  }

  /** The neutral state and `(k, m)` for every tracked group and
      `lower <= m <= maxi`. */
  function StretchFinals(lower: seq<int>, upper: seq<Bound>): set<StretchState>
    requires |lower| == |upper|
  {
    {Neutral} + set i, m | 0 <= i < |lower| && Tracked(lower, upper, i) && m in Interval(lower[i], Saturation(lower[i], upper[i])) :: InRun(i, m)
  }

  /** Membership in `StretchFinals`, as a test. */
  predicate IsFinal(lower: seq<int>, upper: seq<Bound>, q: StretchState)
    requires |lower| == |upper|
  {
    match q
    case Neutral => true
    case InRun(i, m) => i < |lower| && Tracked(lower, upper, i) && lower[i] <= m <= Saturation(lower[i], upper[i])
  }

  lemma StatesMembers(lower: seq<int>, upper: seq<Bound>, q: StretchState)
    requires |lower| == |upper|
    ensures q in StretchStates(lower, upper) <==>
      q.Neutral? || (q.group < |lower| && Tracked(lower, upper, q.group) && 1 <= q.length <= Saturation(lower[q.group], upper[q.group]))
    ensures q in StretchFinals(lower, upper) <==> IsFinal(lower, upper, q)
  {
  }

  /** The symbols of the untracked groups. */
  function Untracked(groups: seq<seq<Sym>>, lower: seq<int>, upper: seq<Bound>): set<Sym>
    requires |lower| == |groups| && |upper| == |groups|
  {
    set i, s | 0 <= i < |groups| && !Tracked(lower, upper, i) && s in groups[i] :: s
  }

  /** The run length `(k1, m)` carries into group `k`: `m` when `k` is its
      own group, 0 when switching. */
  function Carried(q: StretchState, k: nat): int {
    if q.InRun? && q.group == k then q.length else 0
  }

  /** The source writes an entry for `((k1, m), s)` for every tracked group
      `k2` holding `s` while the carried run is below `k2`'s upper bound and
      `(k1, m)` is accepting or `k1 == k2`; the last group written wins. */
  predicate Opens(groups: seq<seq<Sym>>, lower: seq<int>, upper: seq<Bound>, q: StretchState, s: Sym, k: nat)
    requires k < |groups| && |lower| == |groups| && |upper| == |groups|
  {
    && Tracked(lower, upper, k) && s in groups[k]
    && upper[k].Exceeds(Carried(q, k))
    && (IsFinal(lower, upper, q) || (q.InRun? && q.group == k))
  }

  function LastRunGroup(groups: seq<seq<Sym>>, lower: seq<int>, upper: seq<Bound>, q: StretchState, s: Sym, k: nat): (r: Option<nat>)
    requires k <= |groups| && |lower| == |groups| && |upper| == |groups|
    ensures r.Some? ==> r.value < k && Opens(groups, lower, upper, q, s, r.value)
    ensures r.Some? ==> forall j | r.value < j < k :: !Opens(groups, lower, upper, q, s, j)
    ensures r.None? ==> forall j | 0 <= j < k :: !Opens(groups, lower, upper, q, s, j)
    decreases k
  {
    if k == 0 then None
    else if Opens(groups, lower, upper, q, s, k - 1) then Some(k - 1)
    else LastRunGroup(groups, lower, upper, q, s, k - 1)
  }

  /** The transition dictionary of the source: the entries into the neutral
      state (from the neutral state, and from every accepting state, on
      untracked symbols) are merged last and win; otherwise the run of the
      chosen group continues or starts, saturating at `maxi`. */
  function StretchStep(groups: seq<seq<Sym>>, lower: seq<int>, upper: seq<Bound>, q: StretchState, s: Sym): Option<StretchState> {
    if |lower| != |groups| || |upper| != |groups| then None
    else if s in Untracked(groups, lower, upper) && IsFinal(lower, upper, q) then Some(Neutral)
    else match LastRunGroup(groups, lower, upper, q, s, |groups|)
      case None => None
      case Some(k) =>
        var m := Carried(q, k);
        Some(InRun(k, m + (if m < Saturation(lower[k], upper[k]) then 1 else 0)))
  }

  /** The automaton the builder writes out before renaming. */
  function StretchTable(alphabet: set<Sym>, groups: seq<seq<Sym>>, lower: seq<int>, upper: seq<Bound>): Dfa<StretchState>
    requires |lower| == |groups| && |upper| == |groups|
  {
    var states := StretchStates(lower, upper);
    Dfa(alphabet, states, Neutral,
      Tabulate(states, GroupAlphabet(groups), (q, s) => StretchStep(groups, lower, upper, q, s)),
      StretchFinals(lower, upper))
  }

  /** What the builder needs of its bounds: a list per group, and a lower
      bound of at least 1 for every tracked group (with 0, the accepting
      `(k, 0)` would not be a state). */
  predicate Sensible(groups: seq<seq<Sym>>, lower: seq<int>, upper: seq<Bound>) {
    && |lower| == |groups| && |upper| == |groups|
    && forall i | 0 <= i < |groups| && Tracked(lower, upper, i) :: lower[i] >= 1
  }

  /** A transition stays among the states. */
  lemma StretchStepStays(groups: seq<seq<Sym>>, lower: seq<int>, upper: seq<Bound>, q: StretchState, s: Sym)
    requires Sensible(groups, lower, upper)
    requires q in StretchStates(lower, upper) && StretchStep(groups, lower, upper, q, s).Some?
    ensures s in GroupAlphabet(groups) && StretchStep(groups, lower, upper, q, s).value in StretchStates(lower, upper)
  {
    StatesMembers(lower, upper, q);
    var p := StretchStep(groups, lower, upper, q, s).value;
    StatesMembers(lower, upper, p);
    if !(s in Untracked(groups, lower, upper) && IsFinal(lower, upper, q)) {
      var k := LastRunGroup(groups, lower, upper, q, s, |groups|).value;
      assert s in groups[k];
    } else {
      var i :| 0 <= i < |groups| && !Tracked(lower, upper, i) && s in groups[i];
    }
  }

  lemma TableClosed(alphabet: set<Sym>, groups: seq<seq<Sym>>, lower: seq<int>, upper: seq<Bound>)
    requires Sensible(groups, lower, upper)
    ensures var t := StretchTable(alphabet, groups, lower, upper);
      Closed(t.states, GroupAlphabet(groups), (q, s) => StretchStep(groups, lower, upper, q, s))
      && t.initial in t.states && t.accepting <= t.states
  {
    forall q, s | q in StretchStates(lower, upper) && StretchStep(groups, lower, upper, q, s).Some?
      ensures s in GroupAlphabet(groups) && StretchStep(groups, lower, upper, q, s).value in StretchStates(lower, upper)
    {
      StretchStepStays(groups, lower, upper, q, s);
    }
    forall q | q in StretchFinals(lower, upper) ensures q in StretchStates(lower, upper) {
      StatesMembers(lower, upper, q);
    }
  }

  // ---------------------------------------------------------------------
  // The run-length language

  /** The group of `w[j]` is the group of `w[j - 1]`. */
  predicate SameGroupAsPrevious(groups: seq<seq<Sym>>, w: Word, j: int)
    requires 0 <= j < |w|
  {
    j > 0 && GroupIndex(groups, w[j - 1]) == GroupIndex(groups, w[j])
  }

  /** The length of the run of one group that ends at position `j`. */
  function RunLength(groups: seq<seq<Sym>>, w: Word, j: int): nat
    requires 0 <= j < |w|
    decreases j
  {
    if SameGroupAsPrevious(groups, w, j) then RunLength(groups, w, j - 1) + 1 else 1
  }

  /** Symbol `j` belongs to a group, and, when that group is tracked, the run
      through `j` is within the upper bound and, if the next symbol starts
      another group's run, at least the lower bound. */
  predicate Fits(groups: seq<seq<Sym>>, lower: seq<int>, upper: seq<Bound>, w: Word, j: int)
    requires |lower| == |groups| && |upper| == |groups| && 0 <= j < |w|
  {
    match GroupIndex(groups, w[j])
    case None => false
    case Some(i) =>
      Tracked(lower, upper, i) ==>
        upper[i].Admits(RunLength(groups, w, j)) &&
        (j + 1 < |w| && GroupIndex(groups, w[j + 1]) != Some(i) ==> lower[i] <= RunLength(groups, w, j))
  }

  /** Every position of `w` fits. */
  predicate AllFit(groups: seq<seq<Sym>>, lower: seq<int>, upper: seq<Bound>, w: Word)
    requires |lower| == |groups| && |upper| == |groups|
  {
    forall j | 0 <= j < |w| :: Fits(groups, lower, upper, w, j)
  }

  /** The run the word ends with, if of a tracked group, reached its lower
      bound. */
  predicate LastRunClosed(groups: seq<seq<Sym>>, lower: seq<int>, upper: seq<Bound>, w: Word)
    requires |lower| == |groups| && |upper| == |groups|
  {
    w == [] ||
    match GroupIndex(groups, w[|w| - 1])
    case None => false
    case Some(i) => Tracked(lower, upper, i) ==> lower[i] <= RunLength(groups, w, |w| - 1)
  }

  /** The specification: every symbol belongs to a group, no run of a tracked
      group is longer than its upper bound, and every run of a tracked group
      (whether another group's symbol or the end of the word closes it) is
      at least its lower bound. */
  predicate RunsWithin(groups: seq<seq<Sym>>, lower: seq<int>, upper: seq<Bound>, w: Word)
    requires |lower| == |groups| && |upper| == |groups|
  {
    AllFit(groups, lower, upper, w) && LastRunClosed(groups, lower, upper, w)
  }

  /** The state the automaton should be in after `w`. */
  function Expected(groups: seq<seq<Sym>>, lower: seq<int>, upper: seq<Bound>, w: Word): StretchState
    requires |lower| == |groups| && |upper| == |groups|
  {
    if w == [] then Neutral
    else match GroupIndex(groups, w[|w| - 1])
      case None => Neutral
      case Some(i) =>
        if Tracked(lower, upper, i) then
          var l := RunLength(groups, w, |w| - 1);
          var m := Saturation(lower[i], upper[i]);
          InRun(i, if l < m then l else m)
        else Neutral
  }

  /** Run lengths only look back. */
  lemma {:induction false} RunLengthSnoc(groups: seq<seq<Sym>>, w: Word, s: Sym, j: int)
    requires 0 <= j < |w|
    ensures RunLength(groups, w + [s], j) == RunLength(groups, w, j)
    decreases j
  {
    assert (w + [s])[j] == w[j];
    if j > 0 {
      assert (w + [s])[j - 1] == w[j - 1];
      RunLengthSnoc(groups, w, s, j - 1);
    }
  }

  /** One more symbol: the earlier positions fit as before, except that the
      run `w` ends with is now closed when `s` starts another group. */
  lemma AllFitSnoc(groups: seq<seq<Sym>>, lower: seq<int>, upper: seq<Bound>, w: Word, s: Sym)
    requires |lower| == |groups| && |upper| == |groups|
    ensures AllFit(groups, lower, upper, w + [s]) <==>
      && AllFit(groups, lower, upper, w)
      && Fits(groups, lower, upper, w + [s], |w|)
      && (w != [] && GroupIndex(groups, w[|w| - 1]) != GroupIndex(groups, s) ==> LastRunClosed(groups, lower, upper, w))
  {
    var w' := w + [s];
    forall j | 0 <= j < |w| - 1 ensures Fits(groups, lower, upper, w', j) == Fits(groups, lower, upper, w, j) {
      RunLengthSnoc(groups, w, s, j);
      assert w'[j] == w[j] && w'[j + 1] == w[j + 1];
    }
    if w != [] {
      FitsLastSnoc(groups, lower, upper, w, s);
    }
    if AllFit(groups, lower, upper, w') {
      assert Fits(groups, lower, upper, w', |w|);
      forall j | 0 <= j < |w| ensures Fits(groups, lower, upper, w, j) {
        assert Fits(groups, lower, upper, w', j);
      }
    }
  }

  /** The last position of `w`, once `s` follows it. */
  lemma FitsLastSnoc(groups: seq<seq<Sym>>, lower: seq<int>, upper: seq<Bound>, w: Word, s: Sym)
    requires |lower| == |groups| && |upper| == |groups| && w != []
    ensures Fits(groups, lower, upper, w + [s], |w| - 1) <==>
      Fits(groups, lower, upper, w, |w| - 1) &&
      (GroupIndex(groups, w[|w| - 1]) != GroupIndex(groups, s) ==> LastRunClosed(groups, lower, upper, w))
  {
    var j := |w| - 1;
    RunLengthSnoc(groups, w, s, j);
    assert (w + [s])[j] == w[j] && (w + [s])[j + 1] == s;
  }

  /** The expected state accepts exactly when the last run is closed. */
  lemma ExpectedFinal(groups: seq<seq<Sym>>, lower: seq<int>, upper: seq<Bound>, w: Word)
    requires Sensible(groups, lower, upper) && AllFit(groups, lower, upper, w)
    ensures IsFinal(lower, upper, Expected(groups, lower, upper, w)) <==> LastRunClosed(groups, lower, upper, w)
  {
    if w != [] {
      var j := |w| - 1;
      assert Fits(groups, lower, upper, w, j);
      var i := GroupIndex(groups, w[j]).value;
      if Tracked(lower, upper, i) {
        SaturatedWithin(lower[i], upper[i], RunLength(groups, w, j));
      }
    }
  }

  /** In disjoint groups, only the group of `s` can open on `s`, and a
      tracked group's symbol is not an untracked symbol. */
  lemma OnlyOwnGroupOpens(groups: seq<seq<Sym>>, lower: seq<int>, upper: seq<Bound>, q: StretchState, s: Sym, k: nat)
    requires Sensible(groups, lower, upper) && Disjoint(groups) && GroupIndex(groups, s) == Some(k)
    ensures Tracked(lower, upper, k) ==> s !in Untracked(groups, lower, upper)
    ensures LastRunGroup(groups, lower, upper, q, s, |groups|) == if Opens(groups, lower, upper, q, s, k) then Some(k) else None
  {
    forall i | 0 <= i < |groups| && s in groups[i] ensures i == k {
      DisjointIndex(groups, i, s);
    }
  }

  /** A symbol of the group of the current run extends it. */
  lemma StretchExtends(groups: seq<seq<Sym>>, lower: seq<int>, upper: seq<Bound>, w: Word, s: Sym, k: nat)
    requires Sensible(groups, lower, upper) && Disjoint(groups) && AllFit(groups, lower, upper, w)
    requires w != [] && GroupIndex(groups, s) == Some(k) && Tracked(lower, upper, k)
    requires GroupIndex(groups, w[|w| - 1]) == Some(k)
    ensures RunLength(groups, w + [s], |w|) == RunLength(groups, w, |w| - 1) + 1
    ensures StretchStep(groups, lower, upper, Expected(groups, lower, upper, w), s) ==
      if upper[k].Admits(RunLength(groups, w + [s], |w|)) then Some(Expected(groups, lower, upper, w + [s])) else None
  {
    var w' := w + [s];
    assert w'[|w|] == s && w'[|w| - 1] == w[|w| - 1];
    RunLengthSnoc(groups, w, s, |w| - 1);
    assert Fits(groups, lower, upper, w, |w| - 1);
    OnlyOwnGroupOpens(groups, lower, upper, Expected(groups, lower, upper, w), s, k);
  }

  /** A symbol of another tracked group starts a run of 1, provided the
      current state accepts. */
  lemma StretchSwitches(groups: seq<seq<Sym>>, lower: seq<int>, upper: seq<Bound>, w: Word, s: Sym, k: nat)
    requires Sensible(groups, lower, upper) && Disjoint(groups) && AllFit(groups, lower, upper, w)
    requires GroupIndex(groups, s) == Some(k) && Tracked(lower, upper, k)
    requires w == [] || GroupIndex(groups, w[|w| - 1]) != Some(k)
    ensures RunLength(groups, w + [s], |w|) == 1
    ensures StretchStep(groups, lower, upper, Expected(groups, lower, upper, w), s) ==
      if upper[k].Admits(1) && LastRunClosed(groups, lower, upper, w) then Some(Expected(groups, lower, upper, w + [s])) else None
  {
    RestartsRun(groups, w, s, k);
    ExpectedFinal(groups, lower, upper, w);
    OnlyOwnGroupOpens(groups, lower, upper, Expected(groups, lower, upper, w), s, k);
  }

  /** After a symbol of another group, the run of `s` has length 1. */
  lemma RestartsRun(groups: seq<seq<Sym>>, w: Word, s: Sym, k: nat)
    requires GroupIndex(groups, s) == Some(k)
    requires w == [] || GroupIndex(groups, w[|w| - 1]) != Some(k)
    ensures RunLength(groups, w + [s], |w|) == 1
  {
    var w' := w + [s];
    assert w'[|w|] == s;
    if w != [] { assert w'[|w| - 1] == w[|w| - 1]; }
  }

  /** A symbol of an untracked group returns to the neutral state, provided
      the current state accepts; a symbol of no group stops the run. */
  lemma StretchNeutral(groups: seq<seq<Sym>>, lower: seq<int>, upper: seq<Bound>, w: Word, s: Sym)
    requires Sensible(groups, lower, upper) && Disjoint(groups) && AllFit(groups, lower, upper, w)
    requires GroupIndex(groups, s).None? || !Tracked(lower, upper, GroupIndex(groups, s).value)
    ensures StretchStep(groups, lower, upper, Expected(groups, lower, upper, w), s) ==
      if GroupIndex(groups, s).Some? && LastRunClosed(groups, lower, upper, w) then Some(Expected(groups, lower, upper, w + [s])) else None
  {
    assert (w + [s])[|w|] == s;
    ExpectedFinal(groups, lower, upper, w);
    match GroupIndex(groups, s) {
      case None =>
      case Some(k) =>
        assert s in Untracked(groups, lower, upper);
        OnlyOwnGroupOpens(groups, lower, upper, Expected(groups, lower, upper, w), s, k);
    }
  }

  /** One transition from the expected state. */
  lemma StretchRunSnoc(groups: seq<seq<Sym>>, lower: seq<int>, upper: seq<Bound>, w: Word, s: Sym)
    requires Sensible(groups, lower, upper) && Disjoint(groups) && AllFit(groups, lower, upper, w)
    ensures StretchStep(groups, lower, upper, Expected(groups, lower, upper, w), s) ==
      if AllFit(groups, lower, upper, w + [s]) then Some(Expected(groups, lower, upper, w + [s])) else None
  {
    AllFitSnoc(groups, lower, upper, w, s);
    assert (w + [s])[|w|] == s;
    match GroupIndex(groups, s) {
      case None =>
        StretchNeutral(groups, lower, upper, w, s);
      case Some(k) =>
        if !Tracked(lower, upper, k) {
          StretchNeutral(groups, lower, upper, w, s);
          if w != [] && GroupIndex(groups, w[|w| - 1]) == Some(k) {
            assert LastRunClosed(groups, lower, upper, w);
          }
        } else if w != [] && GroupIndex(groups, w[|w| - 1]) == Some(k) {
          StretchExtends(groups, lower, upper, w, s, k);
        } else {
          StretchSwitches(groups, lower, upper, w, s, k);
        }
    }
  }

  /** The run of the automaton before renaming follows `Expected` while
      every position fits, and stops otherwise. */
  lemma {:induction false} StretchRun(groups: seq<seq<Sym>>, lower: seq<int>, upper: seq<Bound>, w: Word)
    requires Sensible(groups, lower, upper) && Disjoint(groups)
    ensures RunStep((q, s) => StretchStep(groups, lower, upper, q, s), w, Neutral) ==
      if AllFit(groups, lower, upper, w) then Some(Expected(groups, lower, upper, w)) else None
    decreases |w|
  {
    var step := (q, s) => StretchStep(groups, lower, upper, q, s);
    if w != [] {
      var w' := w[..|w| - 1];
      var s := w[|w| - 1];
      assert w == w' + [s];
      StretchRun(groups, lower, upper, w');
      RunStepSnoc(step, w', s, Neutral);
      AllFitSnoc(groups, lower, upper, w', s);
      if AllFit(groups, lower, upper, w') {
        StretchRunSnoc(groups, lower, upper, w', s);
      }
    }
  }

  /** The expected state is among the accepting states exactly when the
      last run is closed. */
  lemma ExpectedAccepts(groups: seq<seq<Sym>>, lower: seq<int>, upper: seq<Bound>, w: Word)
    requires Sensible(groups, lower, upper) && AllFit(groups, lower, upper, w)
    ensures Expected(groups, lower, upper, w) in StretchFinals(lower, upper) <==> LastRunClosed(groups, lower, upper, w)
  {
    StatesMembers(lower, upper, Expected(groups, lower, upper, w));
    ExpectedFinal(groups, lower, upper, w);
  }

  lemma TableLanguageRuns(alphabet: set<Sym>, groups: seq<seq<Sym>>, lower: seq<int>, upper: seq<Bound>, w: Word)
    requires Sensible(groups, lower, upper) && Disjoint(groups)
    ensures Valid(StretchTable(alphabet, groups, lower, upper))
    ensures Accepts(StretchTable(alphabet, groups, lower, upper), w) <==> RunsWithin(groups, lower, upper, w)
  {
    TableClosed(alphabet, groups, lower, upper);
    TableLanguage(StretchTable(alphabet, groups, lower, upper), GroupAlphabet(groups), (q, s) => StretchStep(groups, lower, upper, q, s), w);
    StretchRun(groups, lower, upper, w);
    if AllFit(groups, lower, upper, w) {
      ExpectedAccepts(groups, lower, upper, w);
    }
  }

  /** How many groups the builder visits: one per lower bound, and one per
      group when the lower bounds are left to their default. */
  function Visited(args: seq<GroupArg>, lowerArg: seq<int>): nat {
    if lowerArg == [] then |args| else |lowerArg|
  }

  /** The builder reads `upper_bounds[i]` and the `i`-th group for every
      visited `i`; it raises when either list is too short. */
  predicate Readable(args: seq<GroupArg>, lowerArg: seq<int>, upperArg: seq<Bound>) {
    Visited(args, lowerArg) <= |args| && (upperArg == [] || |upperArg| >= Visited(args, lowerArg))
  }

  /** The visited groups, in order. */
  function VisitedGroups(args: seq<GroupArg>, lowerArg: seq<int>): seq<seq<Sym>>
    requires Visited(args, lowerArg) <= |args|
  {
    NormaliseAll(args)[..Visited(args, lowerArg)]
  }

  /** The bounds of the visited groups, defaults filled in. */
  function VisitedLower(args: seq<GroupArg>, lowerArg: seq<int>): seq<int> {
    BoundsOr(lowerArg, Visited(args, lowerArg), 1)
  }

  function VisitedUpper(args: seq<GroupArg>, lowerArg: seq<int>, upperArg: seq<Bound>): seq<Bound>
    requires Readable(args, lowerArg, upperArg)
  {
    BoundsOr(upperArg, Visited(args, lowerArg), Infinite)
  }

  /** No tracked group is listed twice: the source keys the bounds of the
      tracked groups by group, so a repeated tracked group would silently
      merge. Untracked groups are only iterated and may repeat. */
  predicate TrackedDistinct(groups: seq<seq<Sym>>, lower: seq<int>, upper: seq<Bound>)
    requires |lower| == |groups| && |upper| == |groups|
  {
    forall i, j | 0 <= i < j < |groups| && Tracked(lower, upper, i) && Tracked(lower, upper, j) :: groups[i] != groups[j]
  }

  /** `stretch(symbols, lower_bounds, upper_bounds)`: lower bounds default
      to 1 and upper bounds to infinity. The builder visits one group per
      lower bound and fails when the upper bounds or the groups run out
      first. Otherwise the alphabet is that of every group, and when no
      symbol is in two visited groups the renamed automaton accepts exactly
      the words whose every symbol is in a visited group and whose runs of
      tracked groups are within their bounds; symbols only of groups past
      the last lower bound have no transition. */
  method Stretch(args: seq<GroupArg>, lowerArg: seq<int>, upperArg: seq<Bound>) returns (r: Result<Dfa<int>, ReadError>)
    requires Readable(args, lowerArg, upperArg) ==>
      var groups := VisitedGroups(args, lowerArg);
      var lower := VisitedLower(args, lowerArg);
      var upper := VisitedUpper(args, lowerArg, upperArg);
      Sensible(groups, lower, upper) && TrackedDistinct(groups, lower, upper)
    ensures r.Err? <==> !Readable(args, lowerArg, upperArg)
    ensures r.Ok? ==> Valid(r.value) && r.value.initial == 1 && r.value.alphabet == GroupAlphabet(NormaliseAll(args))
    ensures r.Ok? ==> 1 in r.value.accepting
    ensures r.Ok? && Disjoint(VisitedGroups(args, lowerArg)) ==> forall w :: Accepts(r.value, w) <==>
      RunsWithin(VisitedGroups(args, lowerArg), VisitedLower(args, lowerArg), VisitedUpper(args, lowerArg, upperArg), w)
  {
    if !Readable(args, lowerArg, upperArg) {
      return Err(ReadPastEnd);
    }
    var groups := VisitedGroups(args, lowerArg);
    var lower := VisitedLower(args, lowerArg);
    var upper := VisitedUpper(args, lowerArg, upperArg);
    var alphabet := GroupAlphabet(NormaliseAll(args));
    var t := StretchTable(alphabet, groups, lower, upper);
    TableClosed(alphabet, groups, lower, upper);
    TableLanguage(t, GroupAlphabet(groups), (q, s) => StretchStep(groups, lower, upper, q, s), []);
    var d: Dfa<int>;
    ghost var rename;
    d, rename := Canonical(t);
    if Disjoint(groups) {
      forall w ensures Accepts(d, w) <==> RunsWithin(groups, lower, upper, w) {
        TableLanguageRuns(alphabet, groups, lower, upper, w);
      }
    }
    r := Ok(d);
  }
}

=== FILE: unfolding.dfy ===
/** `unfold`: the time-expanded automaton over a horizon. A forward pass
    collects the states reachable at each time step; the states at the horizon
    that accept are merged into one final class; a backward pass keeps, at each
    step, the states with at least one arc into a kept class of the next step,
    and merges the kept states whose outgoing arcs (symbol, next class) are
    identical. A class is named here by the set of states it merges, paired
    with its time step. */
module Unfolding {
  import opened Wrappers
  import opened Automata
  import opened Renaming

  /** The second argument of `unfold`: a number of steps, each allowing the
      whole alphabet, or one allowed alphabet per step. */
  datatype Horizon = Steps(count: int) | PerStep(alphabets: seq<set<Sym>>)

  /** The per-step alphabets of a horizon; `[alphabet] * count` is empty for a
      negative count. */
  function StepAlphabets<S>(d: Dfa<S>, h: Horizon): seq<set<Sym>> {
    match h
    case Steps(c) => seq(if c < 0 then 0 else c, _ => d.alphabet)
    case PerStep(a) => a
  }

  /** `w` has one symbol per step, each allowed at its step. */
  predicate Follows(w: Word, a: seq<set<Sym>>) {
    |w| == |a| && forall j | 0 <= j < |w| :: w[j] in a[j]
  }

  /** `w`, read from `q` at step `i`, fills the remaining steps with allowed
      symbols and ends in an accepting state of `d`. */
  predicate Future<S(==)>(d: Dfa<S>, a: seq<set<Sym>>, i: nat, q: S, w: Word)
    requires i <= |a|
  {
    && |w| == |a| - i
    && (forall j | 0 <= j < |w| :: w[j] in a[i + j])
    && AcceptsFrom(d, w, q)
  }

  // ---------------------------------------------------------------------
  // The forward pass

  /** `current_layer` after `i` steps. */
  function Layer<S(==)>(d: Dfa<S>, a: seq<set<Sym>>, i: nat): set<S>
    requires i <= |a|
  {
    if i == 0 then {d.initial}
    else set q, s | q in Layer(d, a, i - 1) && s in a[i - 1] && (q, s) in d.delta :: d.delta[(q, s)]
  }

  /** `final_states`: the accepting states reached at the horizon. */
  function Final<S(==)>(d: Dfa<S>, a: seq<set<Sym>>): set<S> {
    Layer(d, a, |a|) * d.accepting
  }

  // ---------------------------------------------------------------------
  // The backward pass

  /** The filtered `children[i][q]`: the arcs of `q` at step `i` that lead to
      a kept state of step `i + 1`, each with the class it leads to. */
  function Sig<S(==)>(d: Dfa<S>, a: seq<set<Sym>>, i: nat, q: S): map<Sym, set<S>>
    requires i < |a|
    decreases |a| - i, 0
  {
    map s | s in a[i] && (q, s) in d.delta && d.delta[(q, s)] in Alive(d, a, i + 1) :: Class(d, a, i + 1, d.delta[(q, s)])
  }

  /** The states kept at step `i`: the final states at the horizon, and before
      it the reachable states with at least one filtered arc. */
  function Alive<S(==)>(d: Dfa<S>, a: seq<set<Sym>>, i: nat): set<S>
    requires i <= |a|
    decreases |a| - i, 1
  {
    if i == |a| then Final(d, a)
    else set q | q in Layer(d, a, i) && Sig(d, a, i, q) != map[]
  }

  /** The class `new_state[q]` of a kept state at step `i`: the kept states
      with the same filtered arcs; at the horizon, all final states. */
  function Class<S(==)>(d: Dfa<S>, a: seq<set<Sym>>, i: nat, q: S): set<S>
    requires i <= |a|
    decreases |a| - i, 2
  {
    if i == |a| then Final(d, a)
    else set p | p in Alive(d, a, i) && Sig(d, a, i, p) == Sig(d, a, i, q)
  }

  /** A kept state belongs to its own class. */
  lemma ClassMember<S>(d: Dfa<S>, a: seq<set<Sym>>, i: nat, q: S)
    requires i <= |a| && q in Alive(d, a, i)
    ensures q in Class(d, a, i, q)
  {
  }

  /** States merged into one class have the same filtered arcs. */
  lemma ClassSig<S>(d: Dfa<S>, a: seq<set<Sym>>)
    ensures forall i: nat, p, q | i < |a| && p in Alive(d, a, i) && q in Alive(d, a, i) && Class(d, a, i, p) == Class(d, a, i, q) ::
      Sig(d, a, i, p) == Sig(d, a, i, q)
  {
    forall i: nat, p, q | i < |a| && p in Alive(d, a, i) && q in Alive(d, a, i) && Class(d, a, i, p) == Class(d, a, i, q)
      ensures Sig(d, a, i, p) == Sig(d, a, i, q)
    {
      ClassMember(d, a, i, p);
    }
  }

  /** The filtered arcs of each class of step `i` (the `children[i][states]`
      entries the backward pass records). */
  function ClassArcs<S(==)>(d: Dfa<S>, a: seq<set<Sym>>, i: nat): map<set<S>, map<Sym, set<S>>>
    requires i < |a|
  {
    ClassSig(d, a);
    var alive := Alive(d, a, i);
    map q | q in alive :: Class(d, a, i, q) := Sig(d, a, i, q)
  }

  /** `children` after the backward pass: for each step, the recorded
      classes with their filtered arcs. */
  type Table<S> = seq<map<set<S>, map<Sym, set<S>>>>

  function Children<S(==)>(d: Dfa<S>, a: seq<set<Sym>>): Table<S> {
    seq(|a|, i requires 0 <= i < |a| => ClassArcs(d, a, i))
  }

  lemma ChildrenAt<S>(d: Dfa<S>, a: seq<set<Sym>>, i: nat)
    requires i < |a|
    ensures |Children(d, a)| == |a| && Children(d, a)[i] == ClassArcs(d, a, i)
  {
  }

  /** The states of the automaton `unfold` builds from a table: one per class
      and step, plus the final class `fin` at the horizon. */
  function TableStates<S(==)>(t: Table<S>, fin: set<S>): set<(int, set<S>)> {
    (set i, c | 0 <= i < |t| && c in t[i] :: (i, c)) + {(|t|, fin)}
  }

  /** The transitions `delta[(i, states), s] = (i + 1, q)` of the backward
      pass. */
  function TableDelta<S(==)>(t: Table<S>): map<((int, set<S>), Sym), (int, set<S>)> {
    map i, c, s | 0 <= i < |t| && c in t[i] && s in t[i][c] :: ((i, c), s) := (i + 1, t[i][c][s])
  }

  /** The transitions out of a recorded class are its recorded arcs. */
  lemma TableDeltaAt<S>(t: Table<S>, i: nat, c: set<S>, s: Sym)
    requires i < |t| && c in t[i]
    ensures ((i, c), s) in TableDelta(t) <==> s in t[i][c]
    ensures s in t[i][c] ==> TableDelta(t)[((i, c), s)] == (i + 1, t[i][c][s])
  {
  }

  /** Every transition leaves a recorded class on one of its recorded arcs. */
  lemma TableDeltaKey<S>(t: Table<S>, k: ((int, set<S>), Sym))
    requires k in TableDelta(t)
    ensures 0 <= k.0.0 < |t| && k.0.1 in t[k.0.0] && k.1 in t[k.0.0][k.0.1]
  {
  }

  /** Every state is a recorded class or the final class. */
  lemma TableStateKey<S>(t: Table<S>, fin: set<S>, x: (int, set<S>))
    requires x in TableStates(t, fin)
    ensures x == (|t|, fin) || (0 <= x.0 < |t| && x.1 in t[x.0])
  {
  }

  /** Every recorded arc leads to a class recorded at the next step, or to
      the final class from the last step. */
  predicate TableClosed<S(==)>(t: Table<S>, fin: set<S>) {
    forall i, c, s | 0 <= i < |t| && c in t[i] && s in t[i][c] ::
      if i + 1 < |t| then t[i][c][s] in t[i + 1] else t[i][c][s] == fin
  }

  /** In a closed table, both ends of every transition are states. */
  lemma TableArcEnds<S>(t: Table<S>, fin: set<S>, k: ((int, set<S>), Sym))
    requires TableClosed(t, fin) && k in TableDelta(t)
    ensures k.0 in TableStates(t, fin) && TableDelta(t)[k] in TableStates(t, fin)
  {
    TableDeltaKey(t, k);
    TableDeltaAt(t, k.0.0, k.0.1, k.1);
  }

  /** The automaton `unfold` builds before renaming it; `(0, {initial})`
      starts and the final class accepts. */
  function Expanded<S(==)>(d: Dfa<S>, a: seq<set<Sym>>): Dfa<(int, set<S>)> {
    var t := Children(d, a);
    Dfa(d.alphabet, TableStates(t, Final(d, a)), (0, {d.initial}), TableDelta(t), {(|a|, Final(d, a))})
  }

  // ---------------------------------------------------------------------
  // Facts about the passes

  /** A step of `d` on an allowed symbol moves from one layer to the next. */
  lemma LayerStep<S>(d: Dfa<S>, a: seq<set<Sym>>, i: nat, q: S, s: Sym)
    requires i < |a| && q in Layer(d, a, i) && s in a[i] && (q, s) in d.delta
    ensures d.delta[(q, s)] in Layer(d, a, i + 1)
  {
  }

  /** Kept states are reachable. */
  lemma AliveInLayer<S>(d: Dfa<S>, a: seq<set<Sym>>, i: nat)
    requires i <= |a|
    ensures Alive(d, a, i) <= Layer(d, a, i)
  {
  }

  /** Every reachable state with a future is kept. */
  lemma {:induction false} AliveComplete<S>(d: Dfa<S>, a: seq<set<Sym>>, i: nat, q: S, w: Word)
    requires i <= |a| && q in Layer(d, a, i) && Future(d, a, i, q, w)
    ensures q in Alive(d, a, i)
    decreases |a| - i
  {
    if i < |a| {
      var s := w[0];
      var p := d.delta[(q, s)];
      LayerStep(d, a, i, q, s);
      assert Future(d, a, i + 1, p, w[1..]) by {
        forall j | 0 <= j < |w[1..]| ensures w[1..][j] in a[i + 1 + j] {
          assert w[1..][j] == w[j + 1];
        }
      }
      AliveComplete(d, a, i + 1, p, w[1..]);
      assert s in Sig(d, a, i, q);
    }
  }

  /** Every kept state has a future. */
  lemma {:induction false} AliveSound<S>(d: Dfa<S>, a: seq<set<Sym>>, i: nat, q: S) returns (w: Word)
    requires i <= |a| && q in Alive(d, a, i)
    ensures Future(d, a, i, q, w)
    decreases |a| - i
  {
    if i == |a| {
      w := [];
    } else {
      var s :| s in Sig(d, a, i, q);
      var p := d.delta[(q, s)];
      var rest := AliveSound(d, a, i + 1, p);
      w := [s] + rest;
      assert w[1..] == rest;
      forall j | 0 <= j < |w| ensures w[j] in a[i + j] {
        if j > 0 { assert w[j] == rest[j - 1]; }
      }
    }
  }

  /** Reading allowed symbols from a reachable state stays in the layers. */
  lemma {:induction false} LayerReach<S>(d: Dfa<S>, a: seq<set<Sym>>, i: nat, q: S, w: Word)
    requires i <= |a| && q in Layer(d, a, i) && |w| == |a| - i
    requires forall j | 0 <= j < |w| :: w[j] in a[i + j]
    ensures Run(d, w, q).Some? ==> Run(d, w, q).value in Layer(d, a, |a|)
    decreases |w|
  {
    if w != [] && (q, w[0]) in d.delta {
      LayerStep(d, a, i, q, w[0]);
      forall j | 0 <= j < |w[1..]| ensures w[1..][j] in a[i + 1 + j] {
        assert w[1..][j] == w[j + 1];
      }
      LayerReach(d, a, i + 1, d.delta[(q, w[0])], w[1..]);
    }
  }

  /** Every reachable state is reached by a word of allowed symbols. */
  lemma {:induction false} LayerWitness<S>(d: Dfa<S>, a: seq<set<Sym>>, i: nat, q: S) returns (w: Word)
    requires i <= |a| && q in Layer(d, a, i)
    ensures |w| == i && (forall j | 0 <= j < i :: w[j] in a[j])
    ensures Run(d, w, d.initial) == Some(q)
  {
    if i == 0 {
      w := [];
    } else {
      var p, s :| p in Layer(d, a, i - 1) && s in a[i - 1] && (p, s) in d.delta && d.delta[(p, s)] == q;
      var v := LayerWitness(d, a, i - 1, p);
      w := v + [s];
      RunSnoc(d, v, s, d.initial);
    }
  }

  /** The horizon has a final state exactly when `d` accepts a word that
      follows the per-step alphabets. */
  lemma FinalNonEmpty<S>(d: Dfa<S>, a: seq<set<Sym>>)
    ensures Final(d, a) != {} <==> exists w :: Follows(w, a) && Accepts(d, w)
  {
    if Final(d, a) != {} {
      var f :| f in Final(d, a);
      var w := LayerWitness(d, a, |a|, f);
      assert Follows(w, a) && Accepts(d, w);
    }
    forall w | Follows(w, a) && Accepts(d, w) ensures Final(d, a) != {} {
      assert forall j | 0 <= j < |w| :: w[j] in a[0 + j];
      LayerReach(d, a, 0, d.initial, w);
      var f := Run(d, w, d.initial).value;
      assert f in Layer(d, a, |a|) && f in d.accepting;
      assert f in Final(d, a);
    }
  }

  /** The initial state is the only state of step 0, and it is kept when the
      horizon has a final state. */
  lemma InitialKept<S>(d: Dfa<S>, a: seq<set<Sym>>)
    requires Final(d, a) != {}
    ensures d.initial in Alive(d, a, 0)
    ensures Class(d, a, 0, d.initial) == {d.initial}
  {
    var f :| f in Final(d, a);
    var w := LayerWitness(d, a, |a|, f);
    AliveComplete(d, a, 0, d.initial, w);
    AliveInLayer(d, a, 0);
  }

  // ---------------------------------------------------------------------
  // The expanded automaton

  /** Each class is recorded with the filtered arcs of its members, and only
      classes of kept states are recorded. */
  lemma ClassArcsAt<S>(d: Dfa<S>, a: seq<set<Sym>>, i: nat)
    requires i < |a|
    ensures forall q | q in Alive(d, a, i) :: Class(d, a, i, q) in ClassArcs(d, a, i) && ClassArcs(d, a, i)[Class(d, a, i, q)] == Sig(d, a, i, q)
  {
    ClassSig(d, a);
  }

  /** Only classes of kept states are recorded. */
  lemma ClassArcsKey<S>(d: Dfa<S>, a: seq<set<Sym>>, i: nat, c: set<S>) returns (q: S)
    requires i < |a| && c in ClassArcs(d, a, i)
    ensures q in Alive(d, a, i) && c == Class(d, a, i, q)
  {
    q :| q in Alive(d, a, i) && c == Class(d, a, i, q);
  }

  /** The transitions of the expanded automaton out of a class: exactly the
      filtered arcs of its members. */
  lemma ExpandedNext<S>(d: Dfa<S>, a: seq<set<Sym>>, i: nat, q: S, s: Sym)
    requires i < |a| && q in Alive(d, a, i)
    ensures Next(Expanded(d, a), (i, Class(d, a, i, q)), s) ==
      if s in Sig(d, a, i, q) then Some((i + 1, Sig(d, a, i, q)[s])) else None
  {
    ClassArcsAt(d, a, i);
    ChildrenAt(d, a, i);
    TableDeltaAt(Children(d, a), i, Class(d, a, i, q), s);
  }

  /** Nothing leaves the final class. */
  lemma ExpandedFinalNext<S>(d: Dfa<S>, a: seq<set<Sym>>, s: Sym)
    ensures Next(Expanded(d, a), (|a|, Final(d, a)), s) == None
  {
  }

  /** From the class of a kept state, the expanded automaton accepts exactly
      the futures of that state. */
  lemma {:induction false} ExpandedRunFrom<S>(d: Dfa<S>, a: seq<set<Sym>>, i: nat, q: S, w: Word)
    requires i <= |a| && q in Alive(d, a, i)
    ensures AcceptsFrom(Expanded(d, a), w, (i, Class(d, a, i, q))) <==> Future(d, a, i, q, w)
    decreases |a| - i
  {
    if i == |a| {
      if w != [] {
        ExpandedFinalNext(d, a, w[0]);
      }
    } else if w != [] {
      var s := w[0];
      if s in Sig(d, a, i, q) {
        SigAt(d, a, i, q, s);
        ExpandedRunFrom(d, a, i + 1, d.delta[(q, s)], w[1..]);
      }
      ExpandedRunStep(d, a, i, q, w);
    }
  }

  /** A kept arc leads to the class of a kept state. */
  lemma SigAt<S>(d: Dfa<S>, a: seq<set<Sym>>, i: nat, q: S, s: Sym)
    requires i < |a| && s in Sig(d, a, i, q)
    ensures s in a[i] && (q, s) in d.delta && d.delta[(q, s)] in Alive(d, a, i + 1)
    ensures Sig(d, a, i, q)[s] == Class(d, a, i + 1, d.delta[(q, s)])
  {
  }

  /** One step of `ExpandedRunFrom`: the expanded automaton and `d` agree on
      the first symbol, and the rest follows from the next class. */
  lemma ExpandedRunStep<S>(d: Dfa<S>, a: seq<set<Sym>>, i: nat, q: S, w: Word)
    requires i < |a| && q in Alive(d, a, i) && w != []
    requires w[0] in Sig(d, a, i, q) ==>
      (AcceptsFrom(Expanded(d, a), w[1..], (i + 1, Class(d, a, i + 1, d.delta[(q, w[0])]))) <==>
       Future(d, a, i + 1, d.delta[(q, w[0])], w[1..]))
    ensures AcceptsFrom(Expanded(d, a), w, (i, Class(d, a, i, q))) <==> Future(d, a, i, q, w)
  {
    ExpandedAcceptsStep(d, a, i, q, w);
    FutureSig(d, a, i, q, w);
    if w[0] in Sig(d, a, i, q) {
      SigAt(d, a, i, q, w[0]);
    }
  }

  /** The first step of the expanded automaton out of a class. */
  lemma ExpandedAcceptsStep<S>(d: Dfa<S>, a: seq<set<Sym>>, i: nat, q: S, w: Word)
    requires i < |a| && q in Alive(d, a, i) && w != []
    ensures AcceptsFrom(Expanded(d, a), w, (i, Class(d, a, i, q))) <==>
      w[0] in Sig(d, a, i, q) && AcceptsFrom(Expanded(d, a), w[1..], (i + 1, Sig(d, a, i, q)[w[0]]))
  {
    ExpandedNext(d, a, i, q, w[0]);
  }

  /** The first step of a future: it must take a kept arc. */
  lemma FutureSig<S>(d: Dfa<S>, a: seq<set<Sym>>, i: nat, q: S, w: Word)
    requires i < |a| && q in Alive(d, a, i) && w != []
    ensures Future(d, a, i, q, w) <==>
      w[0] in Sig(d, a, i, q) && Future(d, a, i + 1, d.delta[(q, w[0])], w[1..])
  {
    var s := w[0];
    AliveInLayer(d, a, i);
    FutureStep(d, a, i, q, s, w[1..]);
    assert [s] + w[1..] == w;
    if s !in Sig(d, a, i, q) && s in a[i] && (q, s) in d.delta && Future(d, a, i + 1, d.delta[(q, s)], w[1..]) {
      LayerStep(d, a, i, q, s);
      AliveComplete(d, a, i + 1, d.delta[(q, s)], w[1..]);
      assert false;
    }
  }

  /** The time index of every expanded state. */
  function ExpandedLayer<S(==)>(d: Dfa<S>, a: seq<set<Sym>>): map<(int, set<S>), nat> {
    map x | x in Expanded(d, a).states :: if x.0 < 0 then 0 else x.0
  }

  /** The class of every kept state is an expanded state. */
  lemma ExpandedStateOf<S>(d: Dfa<S>, a: seq<set<Sym>>, i: nat, q: S)
    requires i <= |a| && q in Alive(d, a, i)
    ensures (i, Class(d, a, i, q)) in Expanded(d, a).states
  {
    if i < |a| {
      ClassArcsAt(d, a, i);
      ChildrenAt(d, a, i);
    }
  }

  /** Every expanded state is the class of a kept state. */
  lemma ExpandedStateKey<S>(d: Dfa<S>, a: seq<set<Sym>>, x: (int, set<S>)) returns (i: nat, q: S)
    requires Final(d, a) != {} && x in Expanded(d, a).states
    ensures i <= |a| && q in Alive(d, a, i) && x == (i, Class(d, a, i, q))
  {
    TableStateKey(Children(d, a), Final(d, a), x);
    if x == (|a|, Final(d, a)) {
      i := |a|;
      q :| q in Final(d, a);
    } else {
      i := x.0;
      ChildrenAt(d, a, i);
      q := ClassArcsKey(d, a, i, x.1);
    }
  }

  /** Every expanded transition leaves the class of a kept state on one of its
      filtered arcs. */
  lemma ExpandedDeltaKey<S>(d: Dfa<S>, a: seq<set<Sym>>, k: ((int, set<S>), Sym)) returns (i: nat, q: S)
    requires k in Expanded(d, a).delta
    ensures i < |a| && q in Alive(d, a, i) && k.0 == (i, Class(d, a, i, q)) && k.1 in Sig(d, a, i, q)
  {
    TableDeltaKey(Children(d, a), k);
    i := k.0.0;
    ChildrenAt(d, a, i);
    q := ClassArcsKey(d, a, i, k.0.1);
    ClassArcsAt(d, a, i);
  }

  /** The start `(0, {initial})` is the class of the initial state. */
  lemma ExpandedInitial<S>(d: Dfa<S>, a: seq<set<Sym>>)
    requires Final(d, a) != {}
    ensures d.initial in Alive(d, a, 0)
    ensures Expanded(d, a).initial == (0, Class(d, a, 0, d.initial))
  {
    InitialKept(d, a);
    if |a| == 0 {
      assert Final(d, a) <= {d.initial};
    }
  }

  /** The expanded automaton accepts exactly the words of `d` that follow the
      per-step alphabets. */
  lemma ExpandedLanguage<S>(d: Dfa<S>, a: seq<set<Sym>>, w: Word)
    requires Final(d, a) != {}
    ensures Accepts(Expanded(d, a), w) <==> Follows(w, a) && Accepts(d, w)
  {
    ExpandedInitial(d, a);
    ExpandedRunFrom(d, a, 0, d.initial, w);
    assert Future(d, a, 0, d.initial, w) <==> Follows(w, a) && Accepts(d, w);
  }

  /** One expanded transition leads from the class of a kept state to the
      class of the state `d` moves it to. */
  lemma ExpandedTarget<S>(d: Dfa<S>, a: seq<set<Sym>>, k: ((int, set<S>), Sym)) returns (i: nat, q: S, p: S)
    requires k in Expanded(d, a).delta
    ensures i < |a| && q in Alive(d, a, i) && k.0 == (i, Class(d, a, i, q))
    ensures k.1 in a[i] && (q, k.1) in d.delta && p == d.delta[(q, k.1)] && p in Alive(d, a, i + 1)
    ensures Expanded(d, a).delta[k] == (i + 1, Class(d, a, i + 1, p))
  {
    i, q := ExpandedDeltaKey(d, a, k);
    SigAt(d, a, i, q, k.1);
    ExpandedNext(d, a, i, q, k.1);
    p := d.delta[(q, k.1)];
  }

  /** A kept arc of step `i` leads to a class recorded at step `i + 1`, or
      to the final class from the last step. */
  lemma ChildrenClosedAt<S>(d: Dfa<S>, a: seq<set<Sym>>, i: nat, c: set<S>, s: Sym)
    requires i < |a| && c in Children(d, a)[i] && s in Children(d, a)[i][c]
    ensures if i + 1 < |a| then Children(d, a)[i][c][s] in Children(d, a)[i + 1]
            else Children(d, a)[i][c][s] == Final(d, a)
  {
    ChildrenAt(d, a, i);
    var q := ClassArcsKey(d, a, i, c);
    ClassArcsAt(d, a, i);
    SigAt(d, a, i, q, s);
    if i + 1 < |a| {
      ClassArcsAt(d, a, i + 1);
      ChildrenAt(d, a, i + 1);
    }
  }

  lemma ChildrenClosed<S>(d: Dfa<S>, a: seq<set<Sym>>)
    ensures TableClosed(Children(d, a), Final(d, a))
  {
    var t := Children(d, a);
    forall i, c, s | 0 <= i < |t| && c in t[i] && s in t[i][c]
      ensures if i + 1 < |t| then t[i][c][s] in t[i + 1] else t[i][c][s] == Final(d, a)
    {
      ChildrenClosedAt(d, a, i, c, s);
    }
  }

  /** One expanded transition goes from a class at step `t` to a class at
      step `t + 1` on a symbol allowed at step `t`. */
  lemma ExpandedArc<S>(d: Dfa<S>, a: seq<set<Sym>>, k: ((int, set<S>), Sym))
    requires k in Expanded(d, a).delta
    ensures 0 <= k.0.0 < |a| && k.1 in a[k.0.0] && Expanded(d, a).delta[k].0 == k.0.0 + 1
  {
    var i, q, p := ExpandedTarget(d, a, k);
  }

  /** Every expanded transition goes from a class at step `t` to a class at
      step `t + 1` on a symbol allowed at step `t`. */
  lemma ExpandedArcs<S>(d: Dfa<S>, a: seq<set<Sym>>)
    requires Final(d, a) != {}
    ensures forall k | k in Expanded(d, a).delta :: k.0 in Expanded(d, a).states && Expanded(d, a).delta[k] in Expanded(d, a).states
    ensures forall k | k in Expanded(d, a).delta ::
      ExpandedLayer(d, a)[k.0] < |a| && k.1 in a[ExpandedLayer(d, a)[k.0]] &&
      ExpandedLayer(d, a)[Expanded(d, a).delta[k]] == ExpandedLayer(d, a)[k.0] + 1
  {
    forall k | k in Expanded(d, a).delta
      ensures k.0 in Expanded(d, a).states && Expanded(d, a).delta[k] in Expanded(d, a).states
      ensures ExpandedLayer(d, a)[k.0] < |a| && k.1 in a[ExpandedLayer(d, a)[k.0]]
      ensures ExpandedLayer(d, a)[Expanded(d, a).delta[k]] == ExpandedLayer(d, a)[k.0] + 1
    {
      ChildrenClosed(d, a);
      TableArcEnds(Children(d, a), Final(d, a), k);
      ExpandedArc(d, a, k);
    }
  }

  /** Every expanded state lies within the horizon, has an arc before it, and
      accepts at it. */
  lemma ExpandedNodes<S>(d: Dfa<S>, a: seq<set<Sym>>)
    requires Final(d, a) != {}
    ensures forall x | x in Expanded(d, a).states :: x.0 >= 0 && ExpandedLayer(d, a)[x] <= |a|
    ensures forall x | x in Expanded(d, a).states && 0 < ExpandedLayer(d, a)[x] < |a| :: exists s :: (x, s) in Expanded(d, a).delta
    ensures forall x | x in Expanded(d, a).states && ExpandedLayer(d, a)[x] == |a| :: x in Expanded(d, a).accepting
  {
    var e := Expanded(d, a);
    forall x | x in e.states
      ensures x.0 >= 0 && ExpandedLayer(d, a)[x] <= |a|
      ensures 0 < ExpandedLayer(d, a)[x] < |a| ==> exists s :: (x, s) in e.delta
      ensures ExpandedLayer(d, a)[x] == |a| ==> x in e.accepting
    {
      var i, q := ExpandedStateKey(d, a, x);
      if i < |a| {
        var s :| s in Sig(d, a, i, q);
        ExpandedNext(d, a, i, q, s);
      }
    }
  }

  /** The expanded automaton is time-expanded, each class at its step. */
  lemma ExpandedLayered<S>(d: Dfa<S>, a: seq<set<Sym>>)
    requires Final(d, a) != {}
    ensures Layered(Expanded(d, a), a, ExpandedLayer(d, a))
  {
    ExpandedInitial(d, a);
    ExpandedStateOf(d, a, 0, d.initial);
    ExpandedArcs(d, a);
    ExpandedNodes(d, a);
  }

  /** Two kept states of one step are merged exactly when they have the same
      futures: the backward pass merges as much as it can. */
  lemma {:induction false} ClassIffSameFuture<S>(d: Dfa<S>, a: seq<set<Sym>>, i: nat, p: S, q: S)
    requires i <= |a| && p in Alive(d, a, i) && q in Alive(d, a, i)
    ensures Class(d, a, i, p) == Class(d, a, i, q) <==> forall w :: Future(d, a, i, p, w) <==> Future(d, a, i, q, w)
    decreases |a| - i, 2
  {
    if Class(d, a, i, p) == Class(d, a, i, q) {
      forall w ensures Future(d, a, i, p, w) <==> Future(d, a, i, q, w) {
        ExpandedRunFrom(d, a, i, p, w);
        ExpandedRunFrom(d, a, i, q, w);
      }
    } else if (forall w :: Future(d, a, i, p, w) <==> Future(d, a, i, q, w)) && i < |a| {
      SameFutureSameSig(d, a, i, p, q);
      assert false;
    }
  }

  /** Moving a future one step forward along an arc of a reachable state. */
  lemma FutureStep<S>(d: Dfa<S>, a: seq<set<Sym>>, i: nat, q: S, s: Sym, v: Word)
    requires i < |a| && q in Layer(d, a, i)
    ensures Future(d, a, i, q, [s] + v) <==>
      s in a[i] && (q, s) in d.delta && Future(d, a, i + 1, d.delta[(q, s)], v)
  {
    var w := [s] + v;
    assert w[0] == s && w[1..] == v;
    forall j | 0 <= j < |v| ensures v[j] == w[j + 1] {}
    if s in a[i] && (q, s) in d.delta && Future(d, a, i + 1, d.delta[(q, s)], v) {
      forall j | 0 <= j < |w| ensures w[j] in a[i + j] {
        if j > 0 { assert w[j] == v[j - 1]; }
      }
    }
  }

  /** States with the same futures have the same filtered arcs. */
  lemma {:induction false} SameFutureSameSig<S>(d: Dfa<S>, a: seq<set<Sym>>, i: nat, p: S, q: S)
    requires i < |a| && p in Alive(d, a, i) && q in Alive(d, a, i)
    requires forall w :: Future(d, a, i, p, w) <==> Future(d, a, i, q, w)
    ensures Sig(d, a, i, p) == Sig(d, a, i, q)
    decreases |a| - i, 1
  {
    AliveInLayer(d, a, i);
    forall s | s in Sig(d, a, i, p) ensures s in Sig(d, a, i, q) {
      SigMoves(d, a, i, p, q, s);
    }
    forall s | s in Sig(d, a, i, q) ensures s in Sig(d, a, i, p) {
      SigMoves(d, a, i, q, p, s);
    }
    forall s | s in Sig(d, a, i, p) ensures Sig(d, a, i, p)[s] == Sig(d, a, i, q)[s] {
      SigEntrySame(d, a, i, p, q, s);
    }
  }

  /** A shared filtered arc of two states with the same futures leads to the
      same class. */
  lemma {:induction false} SigEntrySame<S>(d: Dfa<S>, a: seq<set<Sym>>, i: nat, p: S, q: S, s: Sym)
    requires i < |a| && p in Alive(d, a, i) && q in Alive(d, a, i)
    requires forall w :: Future(d, a, i, p, w) <==> Future(d, a, i, q, w)
    requires s in Sig(d, a, i, p)
    ensures s in Sig(d, a, i, q) && Sig(d, a, i, p)[s] == Sig(d, a, i, q)[s]
    decreases |a| - i, 0
  {
    AliveInLayer(d, a, i);
    SigMoves(d, a, i, p, q, s);
    SigAt(d, a, i, p, s);
    SigAt(d, a, i, q, s);
    SigTargetsSameFuture(d, a, i, p, q, s, i + 1);
    ClassIffSameFuture(d, a, i + 1, d.delta[(p, s)], d.delta[(q, s)]);
  }

  /** States with the same futures move to states with the same futures. */
  lemma SigTargetsSameFuture<S>(d: Dfa<S>, a: seq<set<Sym>>, i: nat, p: S, q: S, s: Sym, j: nat)
    requires i < |a| && j == i + 1 && p in Layer(d, a, i) && q in Layer(d, a, i)
    requires forall w :: Future(d, a, i, p, w) <==> Future(d, a, i, q, w)
    requires s in a[i] && (p, s) in d.delta && (q, s) in d.delta
    ensures forall v :: Future(d, a, j, d.delta[(p, s)], v) <==> Future(d, a, j, d.delta[(q, s)], v)
  {
    forall v ensures Future(d, a, j, d.delta[(p, s)], v) <==> Future(d, a, j, d.delta[(q, s)], v) {
      FutureStep(d, a, i, p, s, v);
      FutureStep(d, a, i, q, s, v);
    }
  }

  /** An arc kept for one of two states with the same futures is kept for
      the other. */
  lemma SigMoves<S>(d: Dfa<S>, a: seq<set<Sym>>, i: nat, p: S, q: S, s: Sym)
    requires i < |a| && p in Alive(d, a, i) && q in Alive(d, a, i)
    requires forall w :: Future(d, a, i, p, w) <==> Future(d, a, i, q, w)
    requires s in Sig(d, a, i, p)
    ensures s in Sig(d, a, i, q)
  {
    AliveInLayer(d, a, i);
    SigAt(d, a, i, p, s);
    var v := AliveSound(d, a, i + 1, d.delta[(p, s)]);
    SharedFutureMoves(d, a, i, p, q, s, v);
    SigHas(d, a, i, q, s);
  }

  /** A future of `p` through `s` is one of `q` too, so `q` has a live arc
      on `s`. */
  lemma SharedFutureMoves<S>(d: Dfa<S>, a: seq<set<Sym>>, i: nat, p: S, q: S, s: Sym, v: Word)
    requires i < |a| && p in Layer(d, a, i) && q in Layer(d, a, i)
    requires forall w :: Future(d, a, i, p, w) <==> Future(d, a, i, q, w)
    requires s in a[i] && (p, s) in d.delta && Future(d, a, i + 1, d.delta[(p, s)], v)
    ensures s in a[i] && (q, s) in d.delta && d.delta[(q, s)] in Alive(d, a, i + 1)
  {
    FutureStep(d, a, i, p, s, v);
    assert Future(d, a, i, q, [s] + v);
    FutureStep(d, a, i, q, s, v);
    LayerStep(d, a, i, q, s);
    AliveComplete(d, a, i + 1, d.delta[(q, s)], v);
  }

  /** An allowed arc into a kept state is kept. */
  lemma SigHas<S>(d: Dfa<S>, a: seq<set<Sym>>, i: nat, q: S, s: Sym)
    requires i < |a| && s in a[i] && (q, s) in d.delta && d.delta[(q, s)] in Alive(d, a, i + 1)
    ensures s in Sig(d, a, i, q)
  {
  }

  // ---------------------------------------------------------------------
  // The operation

  /** The automaton `unfold` returns when no final state is reached: one
      non-accepting state and no transitions. */
  function Rejecting<S>(d: Dfa<S>): Dfa<int> {
    Dfa(d.alphabet, {1}, 1, map[], {})
  }

  /** The facts `Unfold` needs about a renaming of the expanded automaton. */
  lemma UnfoldedImage<S>(d: Dfa<S>, a: seq<set<Sym>>, r: Dfa<int>, rename: map<(int, set<S>), int>)
    requires Final(d, a) != {}
    requires IsImage(Expanded(d, a), r, rename)
    ensures forall w :: Accepts(r, w) <==> Follows(w, a) && Accepts(d, w)
    ensures exists layer :: Layered(r, a, layer)
  {
    ExpandedLayered(d, a);
    forall w ensures Accepts(r, w) <==> Follows(w, a) && Accepts(d, w) {
      ExpandedLanguage(d, a, w);
      ImageAccepts(Expanded(d, a), r, rename, w);
    }
    ImageLayered(Expanded(d, a), r, rename, a, ExpandedLayer(d, a));
  }

  /** `unfold(dfa, sequence)`: the renamed time-expanded automaton. It
      accepts exactly the words of `d` with one allowed symbol per step, and
      over a non-empty horizon it is time-expanded. */
  method Unfold<S(==)>(d: Dfa<S>, h: Horizon) returns (r: Dfa<int>)
    requires Valid(d)
    ensures Valid(r) && r.initial == 1 && r.alphabet == d.alphabet
    ensures forall w :: Accepts(r, w) <==> Follows(w, StepAlphabets(d, h)) && Accepts(d, w)
    ensures |StepAlphabets(d, h)| > 0 ==> exists layer :: Layered(r, StepAlphabets(d, h), layer)
    ensures r == Rejecting(d) <==> !exists w :: Follows(w, StepAlphabets(d, h)) && Accepts(d, w)
  {
    var a := StepAlphabets(d, h);
    if Final(d, a) == {} {
      r := Rejecting(d);
      FinalNonEmpty(d, a);
      if |a| > 0 {
        assert Layered(r, a, map[1 := 0]);
      }
    } else {
      ExpandedLayered(d, a);
      ghost var rename;
      r, rename := Canonical(Expanded(d, a));
      UnfoldedImage(d, a, r, rename);
      FinalNonEmpty(d, a);
    }
  }
}

=== FILE: windows.dfy ===
/** `windows(dfa, period, lower_bound, upper_bound)`, the sliding-window
    cardinality operation: count the windows of `period` consecutive symbols
    that `dfa` accepts, and accept when the count lies between the bounds.
    The symbols are first grouped by their transition columns in
    `unfold(dfa, period)`; the worklist state remembers the recent symbols
    (as group representatives) that can still start an accepted window, and
    the count so far. */
module Windows {
  import opened Wrappers
  import opened Automata
  import opened Worklist
  import opened Unfolding
  import opened Construction
  import opened Bounds

  // ---------------------------------------------------------------------
  // Grouping the symbols

  /** The transition column of `s`: where each state of `u` goes on `s`
      (the `key` tuple of the source). */
  function ColumnOf(u: Dfa<int>, s: Sym): map<int, Option<int>> {
    map q | q in u.states :: Next(u, q, s)
  }

  /** `alphabet_dict` as a map from each symbol to the representative of its
      group: every symbol has one, it has the same column, and symbols with
      the same column share it. */
  predicate Grouping(u: Dfa<int>, rep: map<Sym, Sym>) {
    && rep.Keys == u.alphabet
    && (forall s | s in rep :: rep[s] in u.alphabet && ColumnOf(u, rep[s]) == ColumnOf(u, s))
    && (forall s, t | s in rep && t in rep && ColumnOf(u, s) == ColumnOf(u, t) :: rep[s] == rep[t])
  }

  /** Building `alphabet_dict`: the first symbol met with a given column
      represents every later symbol with that column. */
  method GroupSymbols(u: Dfa<int>) returns (rep: map<Sym, Sym>)
    ensures Grouping(u, rep)
  {
    var xs := SetToSeq(u.alphabet);
    rep := map[];
    var first: map<map<int, Option<int>>, Sym> := map[];
    for i := 0 to |xs|
      invariant forall c | c in first :: first[c] in u.alphabet && ColumnOf(u, first[c]) == c
      invariant forall s | s in rep :: s in u.alphabet && ColumnOf(u, s) in first && rep[s] == first[ColumnOf(u, s)]
      invariant forall j | 0 <= j < i :: xs[j] in rep
    {
      var c := ColumnOf(u, xs[i]);
      if c !in first {
        first := first[c := xs[i]];
      }
      rep := rep[xs[i] := first[c]];
    }
  }

  /** Symbols of one group lead everywhere alike. */
  lemma ColumnNext(u: Dfa<int>, s: Sym, t: Sym, q: int)
    requires ColumnOf(u, s) == ColumnOf(u, t) && q in u.states
    ensures Next(u, q, s) == Next(u, q, t)
  {
    assert ColumnOf(u, s)[q] == Next(u, q, s);
  }

  /** Each symbol replaced by its representative. */
  function Reps(rep: map<Sym, Sym>, x: Word): (y: Word)
    ensures |y| == |x|
  {
    seq(|x|, i requires 0 <= i < |x| => if x[i] in rep then rep[x[i]] else x[i])
  }

  lemma RepsSnoc(rep: map<Sym, Sym>, x: Word, t: Sym)
    requires t in rep
    ensures Reps(rep, x + [t]) == Reps(rep, x) + [rep[t]]
  {
  }

  lemma RepsSlice(rep: map<Sym, Sym>, x: Word, k: nat)
    requires k <= |x|
    ensures Reps(rep, x)[k..] == Reps(rep, x[k..]) && Reps(rep, x)[..k] == Reps(rep, x[..k])
  {
  }

  /** Replacing symbols by their representatives does not change a run. */
  lemma {:induction false} RepsRun(u: Dfa<int>, rep: map<Sym, Sym>, x: Word, q: int)
    requires Valid(u) && Grouping(u, rep) && AllIn(x, rep.Keys) && q in u.states
    ensures Run(u, Reps(rep, x), q) == Run(u, x, q)
    decreases |x|
  {
    if x != [] {
      var y := Reps(rep, x);
      assert y[0] == rep[x[0]];
      ColumnNext(u, rep[x[0]], x[0], q);
      assert y[1..] == Reps(rep, x[1..]);
      assert AllIn(x[1..], rep.Keys) by {
        forall i | 0 <= i < |x[1..]| ensures x[1..][i] in rep.Keys { assert x[1..][i] == x[i + 1]; }
      }
      match Next(u, q, x[0]) {
        case None =>
        case Some(p) => RepsRun(u, rep, x[1..], p);
      }
    }
  }

  // ---------------------------------------------------------------------
  // Counting windows

  /** The number of windows of `period` consecutive symbols of `x` that `e`
      accepts. */
  function Count<S(==)>(e: Dfa<S>, period: int, x: Word): nat
    decreases |x|
  {
    if x == [] then 0
    else Count(e, period, x[..|x| - 1]) + (if period >= 1 && |x| >= period && Accepts(e, x[|x| - period..]) then 1 else 0)
  }

  /** One more symbol adds one when the window it closes is accepted. */
  lemma CountSnoc<S>(e: Dfa<S>, period: int, x: Word, s: Sym)
    ensures Count(e, period, x + [s]) ==
      Count(e, period, x) + (if period >= 1 && |x| + 1 >= period && Accepts(e, (x + [s])[|x| + 1 - period..]) then 1 else 0)
  {
    assert (x + [s])[..|x|] == x;
  }

  /** A window of the representatives is accepted when the window is. */
  lemma WindowReps(u: Dfa<int>, rep: map<Sym, Sym>, x: Word, k: nat)
    requires Valid(u) && Grouping(u, rep) && AllIn(x, rep.Keys) && k <= |x|
    ensures Accepts(u, Reps(rep, x)[k..]) == Accepts(u, x[k..])
  {
    RepsSlice(rep, x, k);
    AllInSuffix(x, k, rep.Keys);
    RepsRun(u, rep, x[k..], u.initial);
  }

  /** Counting on representatives counts the same windows. */
  lemma {:induction false} CountReps(u: Dfa<int>, rep: map<Sym, Sym>, period: int, x: Word)
    requires Valid(u) && Grouping(u, rep) && AllIn(x, rep.Keys)
    ensures Count(u, period, Reps(rep, x)) == Count(u, period, x)
    decreases |x|
  {
    if x != [] {
      var x' := x[..|x| - 1];
      assert AllIn(x', rep.Keys) by {
        forall i | 0 <= i < |x'| ensures x'[i] in rep.Keys { assert x'[i] == x[i]; }
      }
      CountReps(u, rep, period, x');
      RepsSlice(rep, x, |x| - 1);
      if period >= 1 && |x| >= period {
        WindowReps(u, rep, x, |x| - period);
      }
    }
  }

  /** On a word over the alphabet, the windows the unfolded automaton accepts
      are the windows `d` accepts. */
  lemma {:induction false} CountUnfolded<S>(d: Dfa<S>, u: Dfa<int>, period: int, x: Word)
    requires AllIn(x, d.alphabet)
    requires forall w :: Accepts(u, w) <==> Follows(w, StepAlphabets(d, Steps(period))) && Accepts(d, w)
    ensures Count(u, period, x) == Count(d, period, x)
    decreases |x|
  {
    if x != [] {
      var x' := x[..|x| - 1];
      assert AllIn(x', d.alphabet) by {
        forall i | 0 <= i < |x'| ensures x'[i] in d.alphabet { assert x'[i] == x[i]; }
      }
      CountUnfolded(d, u, period, x');
      if period >= 1 && |x| >= period {
        var w := x[|x| - period..];
        assert Follows(w, StepAlphabets(d, Steps(period))) by {
          forall j | 0 <= j < |w| ensures w[j] in StepAlphabets(d, Steps(period))[j] {
            assert w[j] == x[|x| - period + j];
          }
        }
      }
    }
  }

  /** Counts only grow. */
  lemma {:induction false} CountGrows<S>(e: Dfa<S>, period: int, x: Word, s: Sym)
    ensures Count(e, period, x) <= Count(e, period, x + [s])
  {
    CountSnoc(e, period, x, s);
  }

  // ---------------------------------------------------------------------
  // The recent symbols

  /** Python's `x[k:]`. */
  function SliceFrom(x: Word, k: int): Word {
    if k >= 0 then (if k <= |x| then x[k..] else [])
    else if |x| + k >= 0 then x[|x| + k..] else x
  }

  /** The last `n` symbols of `x` (all of them when it is shorter; none when
      `n` is not positive). */
  function LastN(x: Word, n: int): (r: Word)
    ensures |r| <= |x| && (n >= 0 ==> |r| <= n) && r == x[|x| - |r|..]
  {
    if n <= 0 then [] else if n <= |x| then x[|x| - n..] else x
  }

  /** The slice the source takes, `(w + (s,))[1 - period:]`, is the last
      `period - 1` symbols from a period of two on. */
  lemma SliceFromIsLastN(x: Word, period: int)
    requires period >= 2
    ensures SliceFrom(x, 1 - period) == LastN(x, period - 1)
  {
  }

  /** `__run(v, dfa)` is not None. */
  predicate Runnable(u: Dfa<int>, v: Word) {
    Run(u, v, u.initial).Some?
  }

  /** `while __run(v, dfa) is None: v = v[1:]`. */
  function Shrink(u: Dfa<int>, v: Word): (r: Word)
    ensures |r| <= |v| && r == v[|v| - |r|..] && Runnable(u, r)
    decreases |v|
  {
    if Runnable(u, v) then v else Shrink(u, v[1..])
  }

  /** `Shrink` keeps the longest runnable suffix. */
  lemma {:induction false} ShrinkLongest(u: Dfa<int>, v: Word, i: nat)
    requires i <= |v| && Runnable(u, v[i..])
    ensures |v| - i <= |Shrink(u, v)|
    decreases |v|
  {
    if !Runnable(u, v) {
      assert i > 0;
      assert v[1..][i - 1..] == v[i..];
      ShrinkLongest(u, v[1..], i - 1);
    }
  }

  /** A prefix of a runnable word is runnable. */
  lemma RunnablePrefix(u: Dfa<int>, a: Word, b: Word)
    requires Runnable(u, a + b)
    ensures Runnable(u, a)
  {
    RunAppend(u, a, b, u.initial);
  }

  /** `v` is a suffix of `y`. */
  predicate EndsWith(y: Word, v: Word) {
    |v| <= |y| && y[|y| - |v|..] == v
  }

  /** `v` is what the worklist state should remember after the
      representatives `y`: a runnable suffix of `y` of at most `period - 1`
      symbols, and no runnable suffix of at most `period - 1` symbols is
      longer. */
  ghost predicate Tracks(u: Dfa<int>, period: int, y: Word, v: Word) {
    && EndsWith(y, v) && |v| <= period - 1 && Runnable(u, v)
    && forall n | 0 <= n <= |y| && n <= period - 1 && RunnableSuffix(u, y, n) :: n <= |v|
  }

  /** The last `n` symbols of `y` are runnable. */
  predicate RunnableSuffix(u: Dfa<int>, y: Word, n: nat)
    requires n <= |y|
  {
    Runnable(u, y[|y| - n..])
  }

  /** Before any symbol, nothing is remembered. */
  lemma TracksEmpty(u: Dfa<int>, period: int)
    requires period >= 1
    ensures Tracks(u, period, [], [])
  {
  }

  /** A suffix of a suffix is a suffix. */
  lemma SuffixSnoc(y: Word, v: Word, s: Sym, z: Word, v': Word)
    requires EndsWith(y, v)
    requires |z| <= |v + [s]| && z == (v + [s])[|v + [s]| - |z|..]
    requires |v'| <= |z| && v' == z[|z| - |v'|..]
    ensures EndsWith(y + [s], v')
  {
    assert (y + [s])[|y| - |v|..] == v + [s];
  }

  /** A suffix `t` of `y` no longer than the suffix `v` ends `v`, and with one
      more symbol it ends `z`, the last `n` symbols of `v + [s]`. */
  lemma SuffixWithin(y: Word, v: Word, s: Sym, k: nat, n: int)
    requires EndsWith(y, v)
    requires k <= |y| && |y| - k <= |v| && |y| + 1 - k <= n
    ensures var z := LastN(v + [s], n);
      |y| + 1 - k <= |z| && z[|z| - (|y| + 1 - k)..] == y[k..] + [s]
  {
    var t := y[k..];
    assert t == v[|v| - |t|..];
    var z := LastN(v + [s], n);
    assert |v + [s]| <= n ==> z == v + [s];
    assert (v + [s])[|v| - |t|..] == t + [s];
  }

  /** A runnable suffix of the extended word that extends a suffix the old
      state covers is covered by the new state. */
  lemma ShrinkCovers(u: Dfa<int>, period: int, y: Word, v: Word, s: Sym, k: nat)
    requires EndsWith(y, v)
    requires k <= |y| && |y| - k <= |v| && |y| + 1 - k <= period - 1
    requires Runnable(u, y[k..] + [s])
    ensures |y| + 1 - k <= |Shrink(u, LastN(v + [s], period - 1))|
  {
    var z := LastN(v + [s], period - 1);
    SuffixWithin(y, v, s, k, period - 1);
    ShrinkLongest(u, z, |z| - (|y| + 1 - k));
  }

  /** A runnable suffix of the extended word is no longer than the new
      remembered word. */
  lemma TracksStepAt(u: Dfa<int>, period: int, y: Word, v: Word, s: Sym, n: nat)
    requires period >= 1 && Tracks(u, period, y, v)
    requires 0 < n <= |y| + 1 && n <= period - 1 && RunnableSuffix(u, y + [s], n)
    ensures n <= |Shrink(u, LastN(v + [s], period - 1))|
  {
    var k := |y| + 1 - n;
    assert (y + [s])[k..] == y[k..] + [s];
    RunnablePrefix(u, y[k..], [s]);
    assert RunnableSuffix(u, y, n - 1);
    ShrinkCovers(u, period, y, v, s, k);
  }

  /** No runnable suffix of the extended word is longer than the new
      remembered word. */
  lemma TracksStepLongest(u: Dfa<int>, period: int, y: Word, v: Word, s: Sym)
    requires period >= 1 && Tracks(u, period, y, v)
    ensures forall n | 0 <= n <= |y + [s]| && n <= period - 1 && RunnableSuffix(u, y + [s], n) ::
      n <= |Shrink(u, LastN(v + [s], period - 1))|
  {
    forall n | 0 < n <= |y + [s]| && n <= period - 1 && RunnableSuffix(u, y + [s], n)
      ensures n <= |Shrink(u, LastN(v + [s], period - 1))|
    {
      TracksStepAt(u, period, y, v, s, n);
    }
  }

  /** The remembered symbols follow the word. */
  lemma TracksStep(u: Dfa<int>, period: int, y: Word, v: Word, s: Sym)
    requires period >= 1 && Tracks(u, period, y, v)
    ensures Tracks(u, period, y + [s], Shrink(u, LastN(v + [s], period - 1)))
  {
    TracksStepParts(u, period, y, v, s);
    TracksIntro(u, period, y + [s], Shrink(u, LastN(v + [s], period - 1)));
  }

  /** The parts of `Tracks` after one more symbol. */
  lemma TracksStepParts(u: Dfa<int>, period: int, y: Word, v: Word, s: Sym)
    requires period >= 1 && Tracks(u, period, y, v)
    ensures EndsWith(y + [s], Shrink(u, LastN(v + [s], period - 1)))
    ensures |Shrink(u, LastN(v + [s], period - 1))| <= period - 1 && Runnable(u, Shrink(u, LastN(v + [s], period - 1)))
    ensures forall n | 0 <= n <= |y + [s]| && n <= period - 1 && RunnableSuffix(u, y + [s], n) ::
      n <= |Shrink(u, LastN(v + [s], period - 1))|
  {
    TracksStepSuffix(u, period, y, v, s, LastN(v + [s], period - 1), Shrink(u, LastN(v + [s], period - 1)));
    ShrinkWindow(u, period, v, s);
    TracksStepLongest(u, period, y, v, s);
  }

  /** The new remembered word `r`, the runnable part of the last
      `period - 1` symbols `z`, is a suffix of the extended word. */
  lemma TracksStepSuffix(u: Dfa<int>, period: int, y: Word, v: Word, s: Sym, z: Word, r: Word)
    requires EndsWith(y, v)
    requires z == LastN(v + [s], period - 1) && r == Shrink(u, z)
    ensures EndsWith(y + [s], r)
  {
    SuffixSnoc(y, v, s, z, r);
  }

  /** The new remembered word is runnable and at most `period - 1` long. */
  lemma ShrinkWindow(u: Dfa<int>, period: int, v: Word, s: Sym)
    requires period >= 1
    ensures |Shrink(u, LastN(v + [s], period - 1))| <= period - 1 && Runnable(u, Shrink(u, LastN(v + [s], period - 1)))
  {
  }

  /** The parts of `Tracks`, put together. */
  lemma TracksIntro(u: Dfa<int>, period: int, y: Word, v: Word)
    requires EndsWith(y, v) && |v| <= period - 1 && Runnable(u, v)
    requires forall n | 0 <= n <= |y| && n <= period - 1 && RunnableSuffix(u, y, n) :: n <= |v|
    ensures Tracks(u, period, y, v)
  {
  }

  /** The count goes up exactly when the window closed by `s` is accepted. */
  lemma TracksWindow(u: Dfa<int>, period: int, y: Word, v: Word, s: Sym)
    requires period >= 1 && Tracks(u, period, y, v)
    ensures (|v| == period - 1 && Accepts(u, v + [s])) <==>
      (|y| + 1 >= period && Accepts(u, (y + [s])[|y| + 1 - period..]))
  {
    if |y| + 1 >= period {
      var k := |y| + 1 - period;
      assert (y + [s])[k..] == y[k..] + [s];
      if Accepts(u, y[k..] + [s]) {
        RunnablePrefix(u, y[k..], [s]);
        assert RunnableSuffix(u, y, period - 1);
      }
      if |v| == period - 1 {
        assert v == y[k..];
      }
    }
  }

  // ---------------------------------------------------------------------
  // The worklist step

  /** The count after `s`: one more when the remembered symbols and `s` fill
      an accepted window. */
  function Counted(u: Dfa<int>, period: int, st: (Word, int), s: Sym): int {
    if |st.0| == period - 1 && Accepts(u, st.0 + [s]) then st.1 + 1 else st.1
  }

  /** A state that tracks `y` counts the windows of `y + [s]`. */
  lemma CountedSnoc(u: Dfa<int>, period: int, y: Word, st: (Word, int), s: Sym)
    requires period >= 1 && st.1 == Count(u, period, y) && Tracks(u, period, y, st.0)
    ensures Counted(u, period, st, s) == Count(u, period, y + [s])
  {
    CountSnoc(u, period, y, s);
    TracksWindow(u, period, y, st.0, s);
  }

  /** The part of a step shared by the code and the corrected reading: count
      the window closed by `s`, check the upper bound, and either jump to the
      absorbing state or remember the runnable part of `recent`. */
  function Advance(u: Dfa<int>, period: int, lower: int, upper: Bound, st: (Word, int), s: Sym, recent: Word): Option<(Word, int)> {
    var m := Counted(u, period, st, s);
    if !upper.Admits(m) then None
    else if upper.Infinite? && m == lower then Some(([], m))
    else Some((Shrink(u, recent), m))
  }

  /** One worklist step from `(w, n)` on `t`, remembering the last
      `period - 1` symbols before shrinking. */
  function WindowsStep(u: Dfa<int>, period: int, lower: int, upper: Bound, rep: map<Sym, Sym>, st: (Word, int), t: Sym): Option<(Word, int)> {
    if t !in rep then None
    else if upper.Infinite? && st.1 == lower then Some(st)
    else Advance(u, period, lower, upper, st, rep[t], LastN(st.0 + [rep[t]], period - 1))
  }

  /** The step as the source writes it, slicing `(w + (s,))[1 - period:]`;
      for a period of one that slice is the whole tuple. */
  function WindowsStepAsWritten(u: Dfa<int>, period: int, lower: int, upper: Bound, rep: map<Sym, Sym>, st: (Word, int), t: Sym): Option<(Word, int)> {
    if t !in rep then None
    else if upper.Infinite? && st.1 == lower then Some(st)
    else Advance(u, period, lower, upper, st, rep[t], SliceFrom(st.0 + [rep[t]], 1 - period))
  }

  /** From a period of two on, the source's step is the step modelled. */
  lemma AsWrittenFromPeriodTwo(u: Dfa<int>, period: int, lower: int, upper: Bound, rep: map<Sym, Sym>, st: (Word, int), t: Sym)
    requires period >= 2
    ensures WindowsStepAsWritten(u, period, lower, upper, rep, st, t) == WindowsStep(u, period, lower, upper, rep, st, t)
  {
    if t in rep {
      SliceFromIsLastN(st.0 + [rep[t]], period);
    }
  }

  /** Symbols of one group have the same transitions. */
  lemma GroupedSymbolsAgree(u: Dfa<int>, period: int, lower: int, upper: Bound, rep: map<Sym, Sym>, st: (Word, int), t: Sym, t': Sym)
    requires Grouping(u, rep) && t in rep && t' in rep && ColumnOf(u, t) == ColumnOf(u, t')
    ensures WindowsStep(u, period, lower, upper, rep, st, t) == WindowsStep(u, period, lower, upper, rep, st, t')
  {
  }

  /** Without an upper bound, the state that reaches the lower bound accepts
      and loops on every symbol. */
  lemma AbsorbingState(u: Dfa<int>, period: int, lower: int, rep: map<Sym, Sym>, t: Sym)
    requires t in rep
    ensures WindowsStep(u, period, lower, Infinite, rep, ([], lower), t) == Some(([], lower))
  {
  }

  // ---------------------------------------------------------------------
  // The language

  /** What the run of the worklist step from `([], 0)` reaches after `x`:
      it runs exactly when every symbol is in the alphabet and the count of
      every non-empty prefix is admitted by the upper bound; without an
      upper bound, once the count reaches the lower bound the absorbing state
      `([], lower)`; otherwise the count of `x` with the remembered symbols
      tracking the representatives of `x`. */
  ghost predicate Reaches(u: Dfa<int>, period: int, lower: int, upper: Bound, rep: map<Sym, Sym>, x: Word, o: Option<(Word, int)>) {
    ReachesReps(u, period, lower, upper, AllIn(x, rep.Keys), x != [], Reps(rep, x), o)
  }

  /** `Reaches`, stated on the representatives `y`. */
  ghost predicate ReachesReps(u: Dfa<int>, period: int, lower: int, upper: Bound, over: bool, nonempty: bool, y: Word, o: Option<(Word, int)>) {
    && (o.Some? <==> over && (!nonempty || upper.Admits(Count(u, period, y))))
    && (o.Some? ==>
          if upper.Infinite? && Count(u, period, y) >= lower then o.value == ([], lower)
          else o.value.1 == Count(u, period, y) && Tracks(u, period, y, o.value.0))
  }

  /** A step that counts: the state held the count of `x` and tracked its
      representatives. */
  lemma ReachesAdvance(u: Dfa<int>, period: int, lower: int, upper: Bound, rep: map<Sym, Sym>, x: Word, t: Sym, st: (Word, int))
    requires period >= 1 && t in rep && AllIn(x, rep.Keys)
    requires st.1 == Count(u, period, Reps(rep, x)) && Tracks(u, period, Reps(rep, x), st.0)
    requires upper.Infinite? ==> st.1 < lower
    ensures Reaches(u, period, lower, upper, rep, x + [t], WindowsStep(u, period, lower, upper, rep, st, t))
  {
    AllInSnoc(x, t, rep.Keys);
    RepsSnoc(rep, x, t);
    AdvanceReps(u, period, lower, upper, rep, Reps(rep, x), t, st);
  }

  lemma AdvanceReps(u: Dfa<int>, period: int, lower: int, upper: Bound, rep: map<Sym, Sym>, y: Word, t: Sym, st: (Word, int))
    requires period >= 1 && t in rep
    requires st.1 == Count(u, period, y) && Tracks(u, period, y, st.0)
    requires upper.Infinite? ==> st.1 < lower
    ensures ReachesReps(u, period, lower, upper, true, true, y + [rep[t]], WindowsStep(u, period, lower, upper, rep, st, t))
  {
    var c := Count(u, period, y + [rep[t]]);
    var v := Shrink(u, LastN(st.0 + [rep[t]], period - 1));
    CountedSnoc(u, period, y, st, rep[t]);
    assert WindowsStep(u, period, lower, upper, rep, st, t) ==
      if !upper.Admits(c) then None else if upper.Infinite? && c == lower then Some(([], c)) else Some((v, c));
    assert c >= st.1 by { CountGrows(u, period, y, rep[t]); }
    TracksStep(u, period, y, st.0, rep[t]);
  }

  /** A step that cannot count any more: a stuck run stays stuck, the
      absorbing state stays put, and a symbol outside the alphabet stops the
      run. */
  lemma ReachesStays(u: Dfa<int>, period: int, lower: int, upper: Bound, rep: map<Sym, Sym>, x: Word, t: Sym, o: Option<(Word, int)>)
    requires Reaches(u, period, lower, upper, rep, x, o)
    requires o.None? || t !in rep || (upper.Infinite? && o.value == ([], lower) && Count(u, period, Reps(rep, x)) >= lower)
    ensures Reaches(u, period, lower, upper, rep, x + [t],
      match o case None => None case Some(st) => WindowsStep(u, period, lower, upper, rep, st, t))
  {
    AllInSnoc(x, t, rep.Keys);
    if t in rep {
      RepsSnoc(rep, x, t);
      CountGrows(u, period, Reps(rep, x), rep[t]);
    }
  }

  /** One step keeps `Reaches`. */
  lemma ReachesSnoc(u: Dfa<int>, period: int, lower: int, upper: Bound, rep: map<Sym, Sym>, x: Word, t: Sym, o: Option<(Word, int)>)
    requires period >= 1 && (upper.Infinite? ==> lower >= 0)
    requires Reaches(u, period, lower, upper, rep, x, o)
    ensures Reaches(u, period, lower, upper, rep, x + [t],
      match o case None => None case Some(st) => WindowsStep(u, period, lower, upper, rep, st, t))
  {
    if o.Some? && t in rep && !(upper.Infinite? && o.value.1 == lower) {
      ReachesAdvance(u, period, lower, upper, rep, x, t, o.value);
    } else {
      ReachesStays(u, period, lower, upper, rep, x, t, o);
    }
  }

  /** The run of the worklist step from `([], 0)`. */
  lemma {:induction false} WindowsRun(u: Dfa<int>, period: int, lower: int, upper: Bound, rep: map<Sym, Sym>, x: Word)
    requires period >= 1 && (upper.Infinite? ==> lower >= 0)
    ensures Reaches(u, period, lower, upper, rep, x,
      RunStep((st, t) => WindowsStep(u, period, lower, upper, rep, st, t), x, ([], 0)))
    decreases |x|
  {
    var step := (st, t) => WindowsStep(u, period, lower, upper, rep, st, t);
    if x == [] {
      TracksEmpty(u, period);
      assert AllIn(x, rep.Keys);
    } else {
      var x' := x[..|x| - 1];
      var t := x[|x| - 1];
      assert x == x' + [t];
      WindowsRun(u, period, lower, upper, rep, x');
      RunStepSnoc(step, x', t, ([], 0));
      ReachesSnoc(u, period, lower, upper, rep, x', t, RunStep(step, x', ([], 0)));
    }
  }

  // ---------------------------------------------------------------------
  // The states the worklist can reach

  /** The words over `r` of at most `n` symbols. */
  function WordsUpTo(r: set<Sym>, n: int): set<Word>
    decreases n
  {
    if n <= 0 then {[]} else {[]} + set x, s | x in WordsUpTo(r, n - 1) && s in r :: [s] + x
  }

  lemma {:induction false} WordsUpToHas(r: set<Sym>, n: int, x: Word)
    requires AllIn(x, r) && |x| <= n
    ensures x in WordsUpTo(r, n)
    decreases n
  {
    if x != [] {
      assert AllIn(x[1..], r) by {
        forall i | 0 <= i < |x[1..]| ensures x[1..][i] in r { assert x[1..][i] == x[i + 1]; }
      }
      WordsUpToHas(r, n - 1, x[1..]);
      assert x == [x[0]] + x[1..];
    }
  }

  /** The largest count a state can hold. */
  function Cap(lower: int, upper: Bound): int {
    match upper
    case Finite(limit) => if limit < 0 then 0 else limit
    case Infinite => lower
  }

  /** The states a run can visit: recent representatives and a count. */
  function WindowsUniverse(rep: map<Sym, Sym>, period: int, lower: int, upper: Bound): set<(Word, int)> {
    set v, n | v in WordsUpTo(rep.Values, period - 1) && n in Interval(0, Cap(lower, upper)) :: (v, n)
  }

  lemma AllInSuffix(x: Word, k: nat, r: set<Sym>)
    requires AllIn(x, r) && k <= |x|
    ensures AllIn(x[k..], r)
  {
    forall i | 0 <= i < |x[k..]| ensures x[k..][i] in r { assert x[k..][i] == x[k + i]; }
  }

  /** Every recorded state keeps its recent symbols among the
      representatives, at most `period - 1` of them, and a count between 0
      and the cap. */
  ghost predicate InUniverse(rep: map<Sym, Sym>, period: int, lower: int, upper: Bound, st: (Word, int)) {
    AllIn(st.0, rep.Values) && |st.0| <= period - 1 && 0 <= st.1 <= Cap(lower, upper)
  }

  lemma UniverseHas(rep: map<Sym, Sym>, period: int, lower: int, upper: Bound, st: (Word, int))
    requires InUniverse(rep, period, lower, upper, st)
    ensures st in WindowsUniverse(rep, period, lower, upper)
  {
    WordsUpToHas(rep.Values, period - 1, st.0);
    assert st == (st.0, st.1);
  }

  lemma {:induction false} UniverseOnly(rep: map<Sym, Sym>, period: int, lower: int, upper: Bound, st: (Word, int))
    requires period >= 1 && st in WindowsUniverse(rep, period, lower, upper)
    ensures InUniverse(rep, period, lower, upper, st)
  {
    var v, n :| v in WordsUpTo(rep.Values, period - 1) && n in Interval(0, Cap(lower, upper)) && st == (v, n);
    WordsUpToOnly(rep.Values, period - 1, v);
  }

  lemma {:induction false} WordsUpToOnly(r: set<Sym>, n: int, x: Word)
    requires x in WordsUpTo(r, n)
    ensures AllIn(x, r) && |x| <= (if n <= 0 then 0 else n)
    decreases n
  {
    if x != [] {
      var x', s :| x' in WordsUpTo(r, n - 1) && s in r && x == [s] + x';
      WordsUpToOnly(r, n - 1, x');
      forall i | 0 <= i < |x| ensures x[i] in r {
        if i > 0 { assert x[i] == x'[i - 1]; }
      }
    }
  }

  lemma WindowsClosed(u: Dfa<int>, period: int, lower: int, upper: Bound, rep: map<Sym, Sym>)
    requires period >= 1 && (upper.Infinite? ==> lower >= 0) && rep.Keys == u.alphabet
    ensures Closed(WindowsUniverse(rep, period, lower, upper), u.alphabet,
      (st, t) => WindowsStep(u, period, lower, upper, rep, st, t))
  {
    forall st, t | st in WindowsUniverse(rep, period, lower, upper) && WindowsStep(u, period, lower, upper, rep, st, t).Some?
      ensures t in u.alphabet && WindowsStep(u, period, lower, upper, rep, st, t).value in WindowsUniverse(rep, period, lower, upper)
    {
      UniverseOnly(rep, period, lower, upper, st);
      WindowsStepStays(u, period, lower, upper, rep, st, t);
      UniverseHas(rep, period, lower, upper, WindowsStep(u, period, lower, upper, rep, st, t).value);
    }
  }

  /** A step from a state of the universe, on a symbol of the alphabet,
      stays in the universe. */
  lemma WindowsStepStays(u: Dfa<int>, period: int, lower: int, upper: Bound, rep: map<Sym, Sym>, st: (Word, int), t: Sym)
    requires period >= 1 && (upper.Infinite? ==> lower >= 0) && rep.Keys == u.alphabet
    requires InUniverse(rep, period, lower, upper, st) && WindowsStep(u, period, lower, upper, rep, st, t).Some?
    ensures t in u.alphabet && InUniverse(rep, period, lower, upper, WindowsStep(u, period, lower, upper, rep, st, t).value)
  {
    if !(upper.Infinite? && st.1 == lower) {
      var x := st.0 + [rep[t]];
      AllInSnoc(st.0, rep[t], rep.Values);
      var z := LastN(x, period - 1);
      AllInSuffix(x, |x| - |z|, rep.Values);
      AdvanceStays(u, period, lower, upper, rep, st, rep[t], z);
    }
  }

  /** A counting step keeps the state in the universe when the recent
      symbols it shrinks are representatives, at most `period - 1` of them. */
  lemma AdvanceStays(u: Dfa<int>, period: int, lower: int, upper: Bound, rep: map<Sym, Sym>, st: (Word, int), s: Sym, recent: Word)
    requires period >= 1 && (upper.Infinite? ==> lower >= 0)
    requires InUniverse(rep, period, lower, upper, st) && !(upper.Infinite? && st.1 == lower)
    requires AllIn(recent, rep.Values) && |recent| <= period - 1
    requires Advance(u, period, lower, upper, st, s, recent).Some?
    ensures InUniverse(rep, period, lower, upper, Advance(u, period, lower, upper, st, s, recent).value)
  {
    var v := Shrink(u, recent);
    AllInSuffix(recent, |recent| - |v|, rep.Values);
  }

  /** `windows(dfa, period, lower_bound, upper_bound)`: a word is accepted
      exactly when all its symbols are in the alphabet, at least
      `lower_bound` of its windows of `period` symbols are accepted by `d`,
      and, unless the word is empty, at most `upper_bound` are. */
  method Windows<S(==)>(d: Dfa<S>, period: int, lower: int, upper: Bound) returns (r: Dfa<int>)
    requires Valid(d) && period >= 1 && (upper.Infinite? ==> lower >= 0)
    ensures Valid(r) && r.initial == 1 && r.alphabet == d.alphabet
    ensures forall x :: Accepts(r, x) <==>
      AllIn(x, d.alphabet) && lower <= Count(d, period, x) && (x == [] || upper.Admits(Count(d, period, x)))
  {
    var u := Unfold(d, Steps(period));
    var rep := GroupSymbols(u);
    var step := (st, t) => WindowsStep(u, period, lower, upper, rep, st, t);
    var accept := (st: (Word, int)) => lower <= st.1;
    WindowsClosed(u, period, lower, upper, rep);
    UniverseHas(rep, period, lower, upper, ([], 0));
    r := Build(u.alphabet, ([], 0), step, accept, WindowsUniverse(rep, period, lower, upper));
    forall x ensures Accepts(r, x) <==>
      AllIn(x, d.alphabet) && lower <= Count(d, period, x) && (x == [] || upper.Admits(Count(d, period, x)))
    {
      WindowsRun(u, period, lower, upper, rep, x);
      if AllIn(x, d.alphabet) {
        CountReps(u, rep, period, x);
        CountUnfolded(d, u, period, x);
      }
    }
  }

  // ---------------------------------------------------------------------
  // The slice for a period of one

  /** `unfold` of the automaton accepting every word over {"a"}, for a
      period of one: state 1 moves to the accepting state 2 on "a". */
  const OneA: Dfa<int> := Dfa({"a"}, {1, 2}, 1, map[(1, "a") := 2], {2})

  /** The representatives of `OneA`: "a" stands for itself. */
  const OneRep: map<Sym, Sym> := map["a" := "a"]

  /** Both windows of "a a" are accepted. */
  lemma PeriodOneCount()
    ensures Count(OneA, 1, ["a", "a"]) == 2
  {
    assert Run(OneA, ["a"], 1) == Some(2);
    assert ["a", "a"][..1] == ["a"] && ["a", "a"][1..] == ["a"] && ["a"][..0] == [] && ["a"][0..] == ["a"];
  }

  /** The source's steps on "a a": the first "a" is counted and remembered,
      the second is shrunk back to one "a" and not counted. */
  lemma PeriodOneAsWrittenSteps()
    ensures WindowsStepAsWritten(OneA, 1, 2, Infinite, OneRep, ([], 0), "a") == Some((["a"], 1))
    ensures WindowsStepAsWritten(OneA, 1, 2, Infinite, OneRep, (["a"], 1), "a") == Some((["a"], 1))
  {
    assert Run(OneA, ["a"], 1) == Some(2);
    assert [] + ["a"] == ["a"];
    assert Run(OneA, ["a", "a"], 1) == None;
    assert ["a", "a"][1..] == ["a"];
    assert Shrink(OneA, ["a", "a"]) == ["a"];
  }

  /** The corrected steps on "a a": both windows are counted and the lower
      bound is reached. */
  lemma PeriodOneSteps()
    ensures WindowsStep(OneA, 1, 2, Infinite, OneRep, ([], 0), "a") == Some(([], 1))
    ensures WindowsStep(OneA, 1, 2, Infinite, OneRep, ([], 1), "a") == Some(([], 2))
  {
    assert Run(OneA, ["a"], 1) == Some(2);
    assert [] + ["a"] == ["a"];
  }

  /** With a period of one, the source's slice keeps the whole remembered
      tuple, so after a first accepted "a" the remembered word has length one
      and no later window is counted: on "a a" the count stays 1, although
      both windows are accepted and the corrected step counts 2. With a
      lower bound of 2 the source rejects a word the operation should
      accept. */
  lemma PeriodOneCounterexample()
    ensures Count(OneA, 1, ["a", "a"]) == 2
    ensures RunStep((st, t) => WindowsStepAsWritten(OneA, 1, 2, Infinite, OneRep, st, t), ["a", "a"], ([], 0)) == Some((["a"], 1))
    ensures RunStep((st, t) => WindowsStep(OneA, 1, 2, Infinite, OneRep, st, t), ["a", "a"], ([], 0)) == Some(([], 2))
  {
    PeriodOneCount();
    PeriodOneAsWrittenSteps();
    PeriodOneSteps();
    assert ["a", "a"][1..] == ["a"] && ["a"][1..] == [];
  }
}

=== FILE: worklist.dfy ===
/** The two set traversals the constructions rely on: listing a set in its
    iteration order, and the `OPEN` worklist that explores the states reachable
    from an initial state. Python's set iteration order is not modelled; both
    traversals pick elements with `:|`, so every order is covered. */
module Worklist {
  import opened Wrappers
  import opened Automata

  /** `xs` lists every element of `s` exactly once. */
  predicate Enumerates<T(==)>(xs: seq<T>, s: set<T>) {
    && (forall i, j | 0 <= i < j < |xs| :: xs[i] != xs[j])
    && (forall x | x in xs :: x in s)
    && (forall x | x in s :: x in xs)
  }

  /** An enumeration is as long as the set it lists. */
  lemma {:induction false} EnumerationSize<T>(xs: seq<T>, s: set<T>)
    requires Enumerates(xs, s)
    ensures |xs| == |s|
    decreases |xs|
  {
    if xs != [] {
      var last := xs[|xs| - 1];
      var init := xs[..|xs| - 1];
      assert Enumerates(init, s - {last}) by {
        forall x | x in init ensures x in s - {last} {
          var k :| 0 <= k < |init| && init[k] == x;
          assert xs[k] == x;
        }
        forall x | x in s - {last} ensures x in init {
          var k :| 0 <= k < |xs| && xs[k] == x;
          assert k < |xs| - 1;
          assert init[k] == x;
        }
      }
      EnumerationSize(init, s - {last});
    }
  }

  /** Iterating a set: some enumeration of it. */
  method SetToSeq<T(==)>(s: set<T>) returns (xs: seq<T>)
    ensures Enumerates(xs, s)
  {
    xs := [];
    var rest := s;
    while rest != {}
      invariant rest <= s
      invariant forall x | x in xs :: x in s - rest
      invariant forall x | x in s - rest :: x in xs
      invariant forall i, j | 0 <= i < j < |xs| :: xs[i] != xs[j]
      decreases |rest|
    {
      var x :| x in rest;
      xs := xs + [x];
      rest := rest - {x};
    }
  }

  /** `q` is reached from `init` by some word. */
  ghost predicate Reachable<S>(step: (S, Sym) -> Option<S>, init: S, q: S) {
    exists w :: RunStep(step, w, init) == Some(q)
  }

  /** A symbol on which `step` moves from `q` to `p`. */
  ghost function Witness<S>(a: set<Sym>, step: (S, Sym) -> Option<S>, q: S, p: S): (s: Sym)
    requires exists s :: s in a && step(q, s) == Some(p)
    ensures s in a && step(q, s) == Some(p)
  {
    var s :| s in a && step(q, s) == Some(p); s
  }

  /** The states `step` moves `q` to on the symbols of `a`. */
  function Successors<S>(a: set<Sym>, step: (S, Sym) -> Option<S>, q: S): (r: set<S>)
    ensures forall s | s in a && step(q, s).Some? :: step(q, s).value in r
    ensures forall p | p in r :: exists s :: s in a && step(q, s) == Some(p)
  {
    set s | s in a && step(q, s).Some? :: step(q, s).value
  }

  /** Records, for each newly discovered successor of `q`, the path to `q`
      followed by a symbol leading to it. */
  ghost function ExtendPaths<S>(a: set<Sym>, step: (S, Sym) -> Option<S>, init: S, path: map<S, Word>, q: S, discovered: set<S>): (r: map<S, Word>)
    requires q in path && RunStep(step, path[q], init) == Some(q)
    requires forall p | p in discovered :: exists s :: s in a && step(q, s) == Some(p)
    ensures r.Keys == path.Keys + discovered
    ensures forall p | p in path && p !in discovered :: r[p] == path[p]
    ensures forall p | p in discovered :: RunStep(step, r[p], init) == Some(p)
  {
    var r := path + map p | p in discovered :: path[q] + [Witness(a, step, q, p)];
    assert forall p | p in discovered :: RunStep(step, r[p], init) == Some(p) by {
      forall p | p in discovered
        ensures RunStep(step, r[p], init) == Some(p)
      {
        RunStepSnoc(step, path[q], Witness(a, step, q, p), init);
      }
    }
    r
  }

  /** What the worklist keeps true: everything stays in the universe, the
      recorded and open states are apart, the initial state is seen, every
      successor of a recorded state is seen, and every seen state has a path. */
  ghost predicate ExploreInv<S>(init: S, step: (S, Sym) -> Option<S>, universe: set<S>, open: set<S>, explored: set<S>, path: map<S, Word>) {
    && open <= universe && explored <= universe && open !! explored
    && init in explored + open
    && (forall q, s | q in explored && step(q, s).Some? :: step(q, s).value in explored + open)
    && (forall q | q in explored + open :: q in path && RunStep(step, path[q], init) == Some(q))
  }

  /** One round of the worklist keeps its invariant. */
  lemma ExploreStep<S>(init: S, a: set<Sym>, step: (S, Sym) -> Option<S>, universe: set<S>,
                       open: set<S>, explored: set<S>, path: map<S, Word>, q: S,
                       open': set<S>, explored': set<S>, path': map<S, Word>)
    requires Closed(universe, a, step) && ExploreInv(init, step, universe, open, explored, path) && q in open
    requires explored' == explored + {q}
    requires open' == (open - {q}) + (Successors(a, step, q) - explored' - (open - {q}))
    requires path' == ExtendPaths(a, step, init, path, q, Successors(a, step, q) - explored' - (open - {q}))
    ensures ExploreInv(init, step, universe, open', explored', path')
  {
    forall p, s | p in explored' && step(p, s).Some? ensures step(p, s).value in explored' + open' {
      if p == q {
        assert s in a;
      }
    }
  }

  /** The `OPEN` worklist of mask, periodic and windows: pop a state,
      record it, push each successor not yet recorded. The result holds the
      initial state, is closed under the step function, and holds only
      reachable states; `universe` is a finite set closed under the step that
      bounds the exploration. */
  method Explore<S(==)>(init: S, a: set<Sym>, step: (S, Sym) -> Option<S>, ghost universe: set<S>)
    returns (explored: set<S>)
    requires init in universe && Closed(universe, a, step)
    ensures init in explored && explored <= universe
    ensures Closed(explored, a, step)
    ensures forall q | q in explored :: Reachable(step, init, q)
  {
    var open := {init};
    explored := {};
    ghost var path: map<S, Word> := map[init := []];
    while open != {}
      invariant ExploreInv(init, step, universe, open, explored, path)
      decreases |universe - explored|
    {
      var q :| q in open;
      var explored' := explored + {q};
      var discovered := Successors(a, step, q) - explored' - (open - {q});
      var open' := (open - {q}) + discovered;
      ghost var path' := ExtendPaths(a, step, init, path, q, discovered);
      ExploreStep(init, a, step, universe, open, explored, path, q, open', explored', path');
      assert |universe - explored'| < |universe - explored| by {
        assert universe - explored' < universe - explored;
      }
      open, explored, path := open', explored', path';
    }
  }
}

=== FILE: wrappers.dfy ===
/** Failure-compatible wrappers shared by the automaton layer.
    `Option` stands for Python's `None`-or-value returns (a missing transition,
    a run that stops, an absent solution); `Result` for the places where the
    source raises instead of returning. */
module Wrappers {

  datatype Option<+T> = None | Some(value: T)
  {
    /** Python's `x if x is not None else default`. */
    function GetOr(default: T): T {
      match this
      case Some(v) => v
      case None => default
    }
  }

  datatype Result<+T, +E> = Ok(value: T) | Err(error: E)
}
